=== FILE: README.md ===
# quantlab data pipeline: a Dafny model

This project models the data pipeline of `quantlab_data_pipeline`. The
pipeline does the following:

- Ingestion (`ingestion.py`) cleans the S&P 500 ticker list. For every ticker
  it fetches the time-series and fundamentals endpoints of a market-data
  provider, then fetches the economic indicators once each. It flattens each
  payload into a table (`_content_to_df`, `_json_to_df`) and keeps the rows
  inside the configured date window. It writes one raw partition per endpoint
  and ticker. Fundamentals that come as annual/quarterly reports are split
  into period partitions. When resuming, populated partitions are skipped.
- The transform (`transform.py`) melts every raw partition into the long
  `Ticker, Date, Data_Source, Metric_Name, Value` table. That table becomes
  the final price dataset.
- Quality checks (`quality.py`) report missing values, price ordering
  violations and negative volumes for each final dataset.
- Failure maintenance (`failure_utils.py`) covers four jobs:
  - it finds rows that hold the provider's "invalid api call" answer;
  - it builds re-fetch worklists;
  - it replays a worklist against the provider and rewrites the partitions;
  - it strips the flagged rows out of the final datasets.
- Credential loading (`config_loader.py`) reads the first credentials file
  that exists, as YAML, with a `key=value` fallback.
- Reading back (`final_data.py`) filters the final dataset by ticker and by
  an inclusive date range.
- The WRDS client (`wrds_client.py`) expands index membership intervals into
  daily constituents joined with ticker names. It also reads the
  Fama–French factors for a date window.

Modelling choices:

- **Files.** The file system is a map from `Path` (directories and stem) to
  a `File`. A file is either a readable table or an unreadable one. The
  mutable store the ingestion and maintenance code writes to is the class
  `Storage.Store`. Its `disk` field is what `_write_parquet`, `unlink` and
  `_write_split_by_period` update.
- **Tables.** A table is ordered columns plus rows, each row a map from
  column to cell. A cell is a JSON value, a missing value (`NaN`) or a date.
- **Library parsers.** The parsers the source borrows from libraries are
  parameters of a `Parsers` value: JSON, CSV, `ast.literal_eval`, YAML,
  `pd.to_datetime` and `pd.to_numeric`.
- **Network.** The HTTP client is a `Provider` value.
- **Errors.** Every exception the source lets escape is a `Fail(Error)`
  result.
- **Loops become methods.** Loops in the source are methods with loop
  invariants. Each method is proved equal to a recursive specification
  function, and the properties are lemmas about those functions:
  - `RunIngestion`, `ParseTimeSeries`, `ExportAllFailures`,
    `RefetchFailures`, `CleanFinalInvalidCalls`, `RunQualityChecks`,
    `TransformRawToFinal`, `ParseKeyValues`, `LoadCredentials`,
    `ExpandDaily`.

Behaviour of the code worth noting:

- **Ingestion and transform:**
  - A failed fetch is not caught by `run_ingestion`, so the first failure
    ends the run.
  - The transform does not skip `wrds_` files, and an unreadable raw file
    raises.
  - The JSON branch of `_try_parse_text` catches only `JSONDecodeError`.
  - The `"01. symbol"` fallback of `_parse_global_quote` can never run,
    because that label is already stripped to `symbol`.
- **Failure maintenance:**
  - The overview worklist requests function `OVERVIEW`.
  - The overview worklist is empty when the table has neither a ticker nor
    a symbol column.
  - A missing (`NaN`) ticker is truthy when replaying, so it is requested
    as `"nan"`.
  - A periodized re-fetch of a table without `period_type` writes the
    unqualified partition and then deletes it.
- **Quality checks:** the date coercion in the quality check has no effect
  on any check.

## Model

| member | source | states |
|---|---|---|
| Strings.FindFrom | quantlab_data_pipeline/ingestion.py:81-82 | the index returned is an occurrence of the separator at or after the start, with no occurrence before it; None means there is none |
| Strings.ContainsIff | quantlab_data_pipeline/ingestion.py:153-154 | `sub in s` holds exactly when `sub` occurs at some index of `s` |
| Strings.FindFirst | quantlab_data_pipeline/ingestion.py:81-82 | an occurrence with none before it is what `str.find` returns |
| Strings.Leading | quantlab_data_pipeline/config_loader.py:43 | counts the characters of the set at the front: all of them are in the set, and the next one is not |
| Strings.Trailing | quantlab_data_pipeline/config_loader.py:43 | the same count at the back of the string |
| Strings.StripChars | quantlab_data_pipeline/config_loader.py:48 | `strip(chars)` removes only characters of the set, at both ends, and leaves neither end in the set |
| Strings.StripCharsUnique | quantlab_data_pipeline/config_loader.py:48 | `strip(chars)` is the one cut by the set whose ends are outside it: any such cut is the result |
| Strings.TrimsCompose | quantlab_data_pipeline/config_loader.py:48 | two strips in a row cut only characters of a set holding both of theirs |
| Strings.Strip | quantlab_data_pipeline/ingestion.py:375 | `s.strip()` cuts only whitespace, at both ends, and what is left neither starts nor ends with whitespace; the whitespace set is that of `str.isspace` |
| Strings.Lower | quantlab_data_pipeline/ingestion.py:377 | lower-casing keeps the length and maps each character separately |
| Strings.RemoveChar | quantlab_data_pipeline/ingestion.py:83 | `replace(".", "")` removes exactly that character and keeps every other |
| Strings.NatToString | quantlab_data_pipeline/wrds_client.py:84 | `str(n)` of a natural is its decimal digits without a leading zero, and those digits spell `n` |
| Strings.LessIrreflexive | quantlab_data_pipeline/ingestion.py:383 | string order is irreflexive |
| Strings.LessTransitive | quantlab_data_pipeline/ingestion.py:383 | string order is transitive |
| Strings.LessTotal | quantlab_data_pipeline/ingestion.py:383 | two distinct strings are ordered one way or the other |
| Strings.Insert | quantlab_data_pipeline/ingestion.py:383 | inserting into a strictly sorted list keeps it strictly sorted, and adds exactly the new element |
| Strings.SortedUnique | quantlab_data_pipeline/ingestion.py:383 | `sorted(unique(xs))` is strictly ascending and holds exactly the elements of `xs` |
| Strings.StrictlySortedNoDuplicates | quantlab_data_pipeline/ingestion.py:383 | a strictly sorted list has no duplicates |
| Frame.Lookup | quantlab_data_pipeline/ingestion.py:155-157 | `d.get(k)` finds a value exactly when some field has key `k` |
| Frame.KeysOf | quantlab_data_pipeline/ingestion.py:92-97 | a record's keys, in insertion order |
| Frame.Get | quantlab_data_pipeline/ingestion.py:92-97 | a record has a value under `k` exactly when `k` is one of its keys |
| Frame.Put | quantlab_data_pipeline/ingestion.py:93 | `rec[k] = v` stores `v` under `k` and leaves every other key alone; an existing key keeps its place, and a new key goes last |
| Frame.SingleCell | quantlab_data_pipeline/ingestion.py:122 | a one-column, one-row table holding the value |
| Frame.AddNames | quantlab_data_pipeline/ingestion.py:97 | the column list grows by the new names only, and keeps the old ones first |
| Frame.AddNamesSnoc | quantlab_data_pipeline/ingestion.py:97 | one more record appends exactly its new keys |
| Frame.ColumnsOf | quantlab_data_pipeline/ingestion.py:97 | a record table's columns are exactly the keys of its records |
| Frame.RowOf | quantlab_data_pipeline/ingestion.py:97 | a record's row holds exactly the record's keys, with their values |
| Frame.FromRecords | quantlab_data_pipeline/ingestion.py:97 | `pd.DataFrame(records)` has one row per record, in order |
| Frame.SetColumn | quantlab_data_pipeline/ingestion.py:216 | `df[c] = v` adds or overwrites column `c` in every row and keeps the row count |
| Frame.DropColumn | quantlab_data_pipeline/ingestion.py:193 | dropping a column removes it from the columns and from every row |
| Frame.Concat | quantlab_data_pipeline/ingestion.py:223 | concatenation puts the rows of the second table after those of the first, and unites the columns |
| Frame.Where | quantlab_data_pipeline/ingestion.py:203 | a boolean mask keeps exactly the rows that pass, in their order, with the same columns |
| Frame.Filter | quantlab_data_pipeline/failure_utils.py:30 | the kept elements are exactly those that pass |
| Frame.PointwiseCons | quantlab_data_pipeline/ingestion.py:373-377 | prepending an element and its image keeps one sequence the pointwise image of the other |
| Frame.FilterIsSubsequence | quantlab_data_pipeline/failure_utils.py:24 | a filter keeps the order of what it keeps |
| Frame.FilterSplit | quantlab_data_pipeline/failure_utils.py:193-196 | the kept and the dropped rows add up to all rows |
| Frame.CountPositive | quantlab_data_pipeline/quality.py:65-71 | a count is positive exactly when some element passes |
| Frame.CoerceDates | quantlab_data_pipeline/transform.py:27 | `pd.to_datetime(col).dt.date` changes only that column, cell by cell, and raises exactly when some cell does not convert |
| Frame.DateColumn | quantlab_data_pipeline/transform.py:14-18 | the first of date/timestamp/datetime that is present; None exactly when none is |
| Frame.CoerceDateColumn | quantlab_data_pipeline/ingestion.py:202 | the coercion succeeds exactly when every cell of the column parses as a date, and then row i is input row i with that cell replaced by its date; otherwise `ValueError` |
| Frame.NumberText | quantlab_data_pipeline/failure_utils.py:23 | specified by `WholeNumberText` and `FractionDigits`: a whole number prints as its integer text, a fraction as its digits after a point |
| Frame.FractionDigits | quantlab_data_pipeline/failure_utils.py:23 | the fractional part of a number prints as at most 17 decimal digits |
| Frame.WholeNumberText | quantlab_data_pipeline/failure_utils.py:23 | `str()` of a whole number is its integer text, sign included |
| JsonNormalize.Normalize | quantlab_data_pipeline/ingestion.py:138 | row i is the dotted-path flattening of list element i (the last pair with a name wins), or the single row is the flattening of the dict; no cell holds a dict |
| JsonNormalize.Leaves | quantlab_data_pipeline/ingestion.py:138 | a non-dict value is one leaf under its own name, and no leaf is a dict |
| JsonNormalize.FlatPairs | quantlab_data_pipeline/ingestion.py:138 | a flattened dict holds no dict value |
| JsonNormalize.LastValue | quantlab_data_pipeline/ingestion.py:138 | a name has a value exactly when some pair carries it, and the value is that of the last such pair |
| JsonNormalize.PutAll | quantlab_data_pipeline/ingestion.py:138 | storing pairs left to right leaves each key with the value of its last pair, and other keys as they were |
| Shapes.NoSeparatorInside | quantlab_data_pipeline/ingestion.py:81-82 | in a label numbered with digits and dots, the first ". " follows the number |
| Shapes.StripAt | quantlab_data_pipeline/ingestion.py:80-85 | a label whose part before the first ". " is digits once its dots are removed loses that part |
| Shapes.StripNumbered | quantlab_data_pipeline/ingestion.py:80-85 | "4. close" strips to "close": a numbered label loses exactly its number |
| Shapes.StripOnlyNumbered | quantlab_data_pipeline/ingestion.py:80-85 | any label that changes was a numbered label, and strips to its rest |
| Shapes.StripPrefix | quantlab_data_pipeline/ingestion.py:80-85 | specified by `StripNumbered` and `StripOnlyNumbered`: a numbered label loses its number, and only a numbered label changes |
| Shapes.StripSymbol | quantlab_data_pipeline/ingestion.py:101-102 | "01. symbol" strips to "symbol", so the fallback assignment is never needed |
| Shapes.StrippedKeys | quantlab_data_pipeline/ingestion.py:93 | each field receives the stripped form of its own label |
| Shapes.StrippedKeysSnoc | quantlab_data_pipeline/ingestion.py:92-93 | the labels of one more field are the labels so far plus its stripped label |
| Shapes.PutFields | quantlab_data_pipeline/ingestion.py:92-93 | after the field loop, the record holds its old keys and the stripped label of every field |
| Shapes.StripAll | quantlab_data_pipeline/ingestion.py:100 | the quote record's keys are exactly the stripped labels |
| Shapes.FirstKeyContaining | quantlab_data_pipeline/ingestion.py:153-154 | the first key that contains the word, with none before it; None exactly when no key contains it |
| Shapes.Classify | quantlab_data_pipeline/ingestion.py:123-166 | a time-series or technical-analysis shape carries the key the dispatch found |
| Shapes.ClassifyPrecedence | quantlab_data_pipeline/ingestion.py:140-161 | among dict payloads, preview CSV wins over "Time Series", which wins over "Technical Analysis", then "Global Quote", then generic flattening |
| Shapes.CollectAll | quantlab_data_pipeline/ingestion.py:90-97 | the per-entry loop succeeds exactly when every entry does, and then yields one result per entry, in order |
| Shapes.CollectFirstFailure | quantlab_data_pipeline/ingestion.py:90-97 | the first entry that fails decides the error |
| Shapes.CollectStep | quantlab_data_pipeline/ingestion.py:90-96 | one more loop iteration appends one result |
| Shapes.TimeSeriesRecordShape | quantlab_data_pipeline/ingestion.py:87-97 | a record needs a dict entry and a parsable stamp; its keys are "date", then the new stripped labels in first-occurrence order, then "symbol" exactly when the symbol is truthy; each label holds the converted value of its last field, "date" holds the parsed stamp unless a label overwrote it, and a truthy symbol is written last |
| Shapes.SymbolOf | quantlab_data_pipeline/ingestion.py:89 | the symbol is "2. Symbol" when that value is truthy, otherwise "1. Symbol"; it is truthy exactly when one of them is |
| Shapes.TimeSeriesRecordsAreEntries | quantlab_data_pipeline/ingestion.py:87-97 | every timestamp entry gives exactly one record, in order; the table fails as a whole when one entry fails |
| Shapes.EntryRecord | quantlab_data_pipeline/ingestion.py:91-95 | the loop body builds exactly the specified record for one entry |
| Shapes.ParseTimeSeries | quantlab_data_pipeline/ingestion.py:87-97 | `_parse_time_series` yields the specified table, with one row per entry |
| Shapes.GlobalQuoteShape | quantlab_data_pipeline/ingestion.py:99-103 | a quote becomes one row, and a "01. symbol" field always gives a `symbol` column |
| Shapes.ScalarIsOneValueRow | quantlab_data_pipeline/ingestion.py:166 | a scalar payload is one `value` row |
| Shapes.NonJsonTextNeverFails | quantlab_data_pipeline/ingestion.py:105-122 | text that is not JSON never makes `_try_parse_text` raise; with no literal or CSV reading it is one `text` row |
| Shapes.TryParseText | quantlab_data_pipeline/ingestion.py:105-122 | a non-string raises `TypeError`; text that is not JSON never raises; text that no parser reads becomes one `text` row |
| Shapes.ContentToDf | quantlab_data_pipeline/ingestion.py:64-166 | specified by `ClassifyPrecedence`, `ScalarIsOneValueRow`, `ListOfMapsRows`, `SeriesBranch`, `TimeSeriesOneRowPerKey` and `GlobalQuoteShape`: each shape goes to its flattener, first match wins |
| Shapes.TextBlockFallbackIsStable | quantlab_data_pipeline/ingestion.py:126-137 | a text block whose parse gives an empty table becomes one `text` row |
| Shapes.ListOfMapsRows | quantlab_data_pipeline/ingestion.py:125-138 | a list payload that is not a text block gives one row per element |
| Shapes.TimeSeriesOneRowPerKey | quantlab_data_pipeline/ingestion.py:153-158 | a time-series or technical payload gives exactly one row per timestamp key of its series |
| Shapes.SeriesBranch | quantlab_data_pipeline/ingestion.py:153-158 | a payload classified as a time series is parsed by `_parse_time_series` with its `Meta Data` |
| Shapes.TimeSeriesRows | quantlab_data_pipeline/ingestion.py:87-97 | a parsed series has one row per entry |
| Reports.NormalizeValue | quantlab_data_pipeline/ingestion.py:212-249 | `json_normalize` succeeds exactly on lists and dicts, with one row per list element |
| Reports.Tag | quantlab_data_pipeline/ingestion.py:216-220 | tagging adds `period_type` with the period to every row, and keeps the row count |
| Reports.ConcatAll | quantlab_data_pipeline/ingestion.py:223 | the concatenation of any number of frames has the rows of all of them and exactly the columns some frame has |
| Reports.ConcatAllRows | quantlab_data_pipeline/transform.py:62 | row i of frame f is row (rows of the frames before f) + i of the concatenation |
| Reports.FirstListAt | quantlab_data_pipeline/ingestion.py:252-254 | a value is found exactly when some common key holds a list, and it is the list under the first such key |
| Reports.FirstListValue | quantlab_data_pipeline/ingestion.py:256-258 | the first list value of the dict; None exactly when no value is a list |
| Reports.SideFramesOf | quantlab_data_pipeline/ingestion.py:212-249 | one side of a pair gives a tagged frame, or nothing when its list is empty or missing |
| Reports.SkipFalsyPairs | quantlab_data_pipeline/ingestion.py:212-249 | pairs whose two values are absent or falsy are passed over (`if frames:` fails) |
| Reports.PairFramesRows | quantlab_data_pipeline/ingestion.py:212-223 | a pair with a truthy side yields frames exactly when each truthy side is a list or dict, and they concatenate to the annual then the quarterly tagged rows |
| Reports.PairedRows | quantlab_data_pipeline/ingestion.py:212-249 | the first pair with a truthy side decides: it raises `NotImplementedError` exactly when a truthy side is neither a list nor a dict, and otherwise its rows are the flattened annual rows tagged "annual" (when truthy) followed by the flattened quarterly rows tagged "quarterly" (when truthy) |
| Reports.UnpairedPayload | quantlab_data_pipeline/ingestion.py:252-259 | with no pair deciding, the payload never fails and becomes the list under the first of the common keys that holds one, else the first list value, else the whole dict as one row |
| Reports.JsonToDf | quantlab_data_pipeline/ingestion.py:209-259 | specified by `PairedRows`, `SkipFalsyPairs` and `UnpairedPayload`: the first pair with a truthy side decides, and otherwise the fallback order applies |
| Reports.FirstListAtIsValue | quantlab_data_pipeline/ingestion.py:252-254 | a list found under a key is one of the dict's values |
| Reports.LookupIsValue | quantlab_data_pipeline/ingestion.py:252-254 | a found value is stored under its key |
| Storage.Selection | quantlab_data_pipeline/failure_utils.py:185 | for "all", the sorted distinct stems of the final directory; otherwise just the named dataset |
| Storage.ReadTable | quantlab_data_pipeline/final_data.py:19 | `read_parquet` succeeds exactly on a present, readable file |
| Storage.RowsTagged | quantlab_data_pipeline/ingestion.py:193 | the subset holds exactly the rows tagged with the period |
| Storage.RowsUntagged | quantlab_data_pipeline/ingestion.py:188-196 | the rows tagged neither "annual" nor "quarterly" |
| Storage.PeriodSubset | quantlab_data_pipeline/ingestion.py:193 | row i of a period subset is the i-th row tagged with the period, with `period_type` dropped from it and from the columns |
| Storage.SplitWrites | quantlab_data_pipeline/ingestion.py:188-196 | without `period_type` the table goes to the unqualified partition; with it, each non-empty period subset goes to its period partition; no other file changes |
| Storage.PeriodRowsPartition | quantlab_data_pipeline/ingestion.py:188-196 | annual, quarterly and other rows add up to all rows; all rows are written exactly when all are tagged |
| Storage.SplitByPeriod | quantlab_data_pipeline/ingestion.py:188-196 | specified by `SplitWrites`: the unqualified partition without `period_type`, else the non-empty period subsets |
| Storage.WritePeriods | quantlab_data_pipeline/ingestion.py:191-196 | specified by `SplitWrites`: one partition per non-empty period subset, annual then quarterly |
| Storage.PeriodsPopulated | quantlab_data_pipeline/ingestion.py:175-185 | specified by `Store.AllPeriodFilesExist` and `Ingestion.ResumeRule`: both period partitions are readable and non-empty |
| Storage.FilterDate | quantlab_data_pipeline/ingestion.py:199-206 | without a date column the table is returned as is; a failed coercion raises; otherwise the columns stay and rows are only removed |
| Storage.FilterDateWindow | quantlab_data_pipeline/ingestion.py:199-206 | when some row is in the window, exactly the rows in the window are kept, in order; when none is, every coerced row is kept |
| Storage.Store.constructor | quantlab_data_pipeline/ingestion.py:169-172 | the store starts from the given disk |
| Storage.Store.WriteParquet | quantlab_data_pipeline/ingestion.py:169-172 | writing replaces the file at the path with the table |
| Storage.Store.Unlink | quantlab_data_pipeline/failure_utils.py:162-164 | unlinking removes the file, even when it is missing |
| Storage.Store.ReadParquet | quantlab_data_pipeline/final_data.py:19 | a read returns the stored table, or fails |
| Storage.Store.IsPopulated | quantlab_data_pipeline/ingestion.py:392-399 | the resume test: the file exists, reads back and is not empty |
| Storage.Store.AllPeriodFilesExist | quantlab_data_pipeline/ingestion.py:175-185 | both period partitions pass the resume test |
| Storage.Store.WriteSplitByPeriod | quantlab_data_pipeline/ingestion.py:188-196 | the disk after the split write is the specified one |
| Ingestion.FunctionNameRenamesOnlyOverview | quantlab_data_pipeline/ingestion.py:51-61 | an endpoint's API function is its own name, except the company overview, which is requested as OVERVIEW |
| Ingestion.ParamsNameTheTicker | quantlab_data_pipeline/ingestion.py:428-441 | a request names the ticker exactly for symbol endpoints and the symbol search; every periodized and every default fundamentals endpoint names it |
| Ingestion.CleanRows | quantlab_data_pipeline/ingestion.py:373-377 | exactly the rows whose ticker survives cleaning (present, stripped, not a bad token), in order, each the input row with its ticker replaced by the stripped string |
| Ingestion.CleanRow | quantlab_data_pipeline/ingestion.py:375 | a surviving row gets the stripped string as its ticker and keeps every other cell |
| Ingestion.CleanTicker | quantlab_data_pipeline/ingestion.py:372-377 | a ticker cell is dropped exactly when it is missing or strips to a bad token in any letter case; a kept ticker is the stripped text, non-empty and without surrounding whitespace |
| Ingestion.TickerStrings | quantlab_data_pipeline/ingestion.py:373-377 | the tickers are exactly the cleaned cells of the surviving rows |
| Ingestion.DrivingTickersClean | quantlab_data_pipeline/ingestion.py:373-383 | the driving tickers are strictly sorted and distinct; they are exactly the stripped non-null tickers that are not bad tokens in any case; none is empty or padded |
| Ingestion.DrivingTickers | quantlab_data_pipeline/ingestion.py:383 | the driving tickers are strictly sorted, and a string is one exactly when some constituent row's ticker cleans to it |
| Ingestion.TimeSeriesUnits | quantlab_data_pipeline/ingestion.py:388 | unit i is the time-series unit of endpoint i for the ticker |
| Ingestion.FundamentalUnits | quantlab_data_pipeline/ingestion.py:405 | unit i is the fundamentals unit of endpoint i for the ticker |
| Ingestion.EconomicUnits | quantlab_data_pipeline/ingestion.py:451 | unit i is the economic unit of indicator i |
| Ingestion.TickerTable | quantlab_data_pipeline/ingestion.py:384 | the unique-ticker table has the single column `ticker`, and row i holds ticker i |
| Ingestion.ResumeRule | quantlab_data_pipeline/ingestion.py:392-446 | a unit is skipped exactly when resuming finds each file it writes (both period partitions for a periodized endpoint) readable and non-empty; a skipped unit gives the same result under any provider; otherwise it fetches and either writes or stops the run |
| Ingestion.RunUnit | quantlab_data_pipeline/ingestion.py:387-465 | a skipped unit changes nothing; a failed fetch reports its error and leaves the disk as it was; otherwise the fetched table is placed (see `ResumeRule`, `UnitFrame`) |
| Ingestion.ResumeAfterWrite | quantlab_data_pipeline/ingestion.py:392-403 | after a successful non-empty write, resuming skips that unit |
| Ingestion.ResumeAfterSplit | quantlab_data_pipeline/ingestion.py:409-446 | a periodized endpoint is skipped on resume once both of its period subsets were written non-empty |
| Ingestion.FailureSticks | quantlab_data_pipeline/ingestion.py:387-465 | after a failure no further unit runs |
| Ingestion.FailureSticksTickers | quantlab_data_pipeline/ingestion.py:387-447 | after a failure no further ticker runs |
| Ingestion.TickerSticks | quantlab_data_pipeline/ingestion.py:387-447 | after a failure a ticker's loops run nothing |
| Ingestion.PrefixFailure | quantlab_data_pipeline/ingestion.py:387-465 | a run whose first k units fail is the run of those k units |
| Ingestion.PrefixFailureTickers | quantlab_data_pipeline/ingestion.py:387-447 | the same for tickers |
| Ingestion.UnitsStep | quantlab_data_pipeline/ingestion.py:451-465 | the run of one more unit is one more step |
| Ingestion.TickersStep | quantlab_data_pipeline/ingestion.py:387-447 | the run of one more ticker is one more ticker step |
| Ingestion.UnitFrame | quantlab_data_pipeline/ingestion.py:400-446 | a unit only writes below its own endpoint's directory |
| Ingestion.UnitsKeepTop | quantlab_data_pipeline/ingestion.py:387-465 | a run of units leaves the files at the top of the raw directory as they were |
| Ingestion.TickersKeepTop | quantlab_data_pipeline/ingestion.py:387-447 | so does a run of tickers |
| Ingestion.RunOne | quantlab_data_pipeline/ingestion.py:388-446 | one loop body leaves the specified disk and error |
| Ingestion.RunLoop | quantlab_data_pipeline/ingestion.py:451-465 | an endpoint loop runs the units in order and stops at the first failure |
| Ingestion.RunTickerBody | quantlab_data_pipeline/ingestion.py:388-447 | a ticker's time-series endpoints run, then its fundamentals |
| Ingestion.RunIngestion | quantlab_data_pipeline/ingestion.py:373-465 | the whole run writes the constituent tables, then every ticker, then the economic indicators |
| Ingestion.Ingest | quantlab_data_pipeline/ingestion.py:372-465 | without a ticker column the run raises `KeyError` before writing; otherwise, at the end, the constituents file holds the cleaned rows and the unique-tickers file the driving tickers, whatever the units did |
| Failures.FlaggedRows | quantlab_data_pipeline/failure_utils.py:23-24 | the flagged rows are exactly those with a cell containing the marker |
| Failures.KeptRows | quantlab_data_pipeline/failure_utils.py:193-197 | the kept rows are exactly those with no such cell |
| Failures.LowerSlice | quantlab_data_pipeline/failure_utils.py:23 | lower-casing commutes with slicing |
| Failures.FlaggedIff | quantlab_data_pipeline/failure_utils.py:23 | a cell is flagged exactly when some slice of its text spells "invalid api call" in any mix of cases |
| Failures.MissingNeverFlagged | quantlab_data_pipeline/failure_utils.py:23 | missing cells are never flagged |
| Failures.FlagSplit | quantlab_data_pipeline/failure_utils.py:193-197 | flagged plus kept rows are all rows, and both keep their order |
| Failures.PathMetadata | quantlab_data_pipeline/failure_utils.py:103-107 | the endpoint and ticker recovered from a partition path are those it was written with |
| Failures.RecordsOf | quantlab_data_pipeline/failure_utils.py:93-116 | a file gives one describing record exactly when it is reported |
| Failures.PathsOf | quantlab_data_pipeline/failure_utils.py:108-116 | the path of each record, in order |
| Failures.FailureRecordsSpec | quantlab_data_pipeline/failure_utils.py:84-126 | the records name exactly the reported files, in listing order, and each record gives its file's endpoint, ticker and suggested URL |
| Failures.FailureRecords | quantlab_data_pipeline/failure_utils.py:92-116 | specified by `FailureRecordsSpec` |
| Failures.FailureRecordsPaths | quantlab_data_pipeline/failure_utils.py:92-116 | the record paths are exactly the reported files, in listing order |
| Failures.PathsStep | quantlab_data_pipeline/failure_utils.py:92-116 | one more file keeps that correspondence |
| Failures.PathsOfAppend | quantlab_data_pipeline/failure_utils.py:108-116 | paths distribute over appending records |
| Failures.PathsSnoc | quantlab_data_pipeline/failure_utils.py:92-116 | adding a reported file adds its path |
| Failures.FailureRecordsDescribe | quantlab_data_pipeline/failure_utils.py:103-116 | every record describes its file |
| Failures.SubsequenceSnoc | quantlab_data_pipeline/failure_utils.py:92-116 | appending the new element, or nothing, keeps a subsequence |
| Failures.ExportAllFailures | quantlab_data_pipeline/failure_utils.py:84-126 | the walk collects exactly the specified records |
| Failures.Restrict | quantlab_data_pipeline/failure_utils.py:30-35 | `failures[cols]` keeps exactly those columns of a row |
| Failures.IdColumns | quantlab_data_pipeline/failure_utils.py:30 | the identifying columns are exactly ticker, statement and symbol, when present |
| Failures.FundamentalWorklist | quantlab_data_pipeline/failure_utils.py:17-48 | no worklist when nothing is flagged; otherwise entry i comes from flagged row i: ticker from "ticker" else "symbol", statement from "statement" else "function", "symbol" kept, and the URL requests that statement for that ticker |
| Failures.FundamentalEntrySpec | quantlab_data_pipeline/failure_utils.py:30-42 | the entry of one flagged row takes its ticker from "ticker" else "symbol" and its statement from "statement" else "function", keeps "symbol", and requests that statement for that ticker |
| Failures.OverviewWorklist | quantlab_data_pipeline/failure_utils.py:51-81 | no worklist when nothing is flagged; otherwise ticker/function/api_url columns, and entry i asks for OVERVIEW with the ticker (else symbol) of flagged row i; no entries without either column |
| Failures.OverviewEntry | quantlab_data_pipeline/failure_utils.py:71-75 | an overview entry has exactly ticker, function OVERVIEW and the URL requesting OVERVIEW for that ticker |
| Failures.ExportWorklist | quantlab_data_pipeline/failure_utils.py:22 | exporting fails exactly when the dataset cannot be read |
| Failures.RefetchRowEffect | quantlab_data_pipeline/failure_utils.py:149-172 | a skipped or failing row changes nothing; a re-fetched row rewrites only its own partitions |
| Failures.RewriteSpec | quantlab_data_pipeline/failure_utils.py:159-170 | a periodized endpoint loses its unqualified partition and gains the non-empty period subsets; any other endpoint holds the new table; nothing else changes |
| Failures.FailingRowIsolated | quantlab_data_pipeline/failure_utils.py:149-172 | a skipped or failing row has no effect, so the later rows run as if it were not there |
| Failures.SkipRow | quantlab_data_pipeline/failure_utils.py:150-153 | a skipped row leaves the disk as it was |
| Failures.RowsSnoc | quantlab_data_pipeline/failure_utils.py:149-172 | replaying one more row is one more row step |
| Failures.RefetchOne | quantlab_data_pipeline/failure_utils.py:150-172 | one worklist row leaves the specified disk |
| Failures.ApiKey | quantlab_data_pipeline/failure_utils.py:140 | `creds.get(key)`: a document that is not a mapping raises `AttributeError`; a mapping or the `key=value` dict answers, with a value exactly when it has the key |
| Failures.Replay | quantlab_data_pipeline/failure_utils.py:134-176 | specified by `ReplayOrder` |
| Failures.ReplayOrder | quantlab_data_pipeline/failure_utils.py:134-142 | an empty worklist succeeds without reading credentials; otherwise a failed credentials load, a document without `get` (`AttributeError`) and a missing or falsy key (`ValueError`) each stop the replay before any request and leave the disk as it was; only a truthy key runs every row |
| Failures.ReplayWithoutCredentials | quantlab_data_pipeline/failure_utils.py:139 | with no credentials file at any default location, a non-empty replay stops with `FileNotFoundError` and leaves the disk as it was |
| Failures.RefetchFailures | quantlab_data_pipeline/failure_utils.py:129-176 | the method leaves the disk and returns the error `Replay` specifies, with the credentials loaded by `Config.LoadCredentials` only after the worklist is found non-empty |
| Failures.CleanAllSpec | quantlab_data_pipeline/failure_utils.py:179-203 | the cleaning fails exactly when some dataset is unreadable; otherwise every selected dataset keeps only its unflagged rows, with the removed counts recorded |
| Failures.CleanAll | quantlab_data_pipeline/failure_utils.py:187-203 | specified by `CleanAllSpec` |
| Failures.CleanStep | quantlab_data_pipeline/failure_utils.py:187-200 | cleaning one more dataset keeps that property |
| Failures.CleanStepOk | quantlab_data_pipeline/failure_utils.py:193-199 | a successful step cleans exactly one more dataset |
| Failures.CleanDiskStep | quantlab_data_pipeline/failure_utils.py:197-199 | the disk after one more rewrite has the specified shape |
| Failures.CleanTableRows | quantlab_data_pipeline/failure_utils.py:193-197 | a cleaned dataset keeps its columns and exactly its unflagged rows, in order, losing as many rows as were flagged |
| Failures.CleanFinalInvalidCalls | quantlab_data_pipeline/failure_utils.py:179-203 | the method leaves the specified disk, removed counts and error |
| Failures.CleanStops | quantlab_data_pipeline/failure_utils.py:187-200 | once a read fails, later datasets are not visited |
| Quality.CountOf | quantlab_data_pipeline/quality.py:55 | a count never exceeds the row count |
| Quality.CountOfPositive | quantlab_data_pipeline/quality.py:54-72 | a count is positive exactly when some row passes |
| Quality.MissingCounts | quantlab_data_pipeline/quality.py:17 | one missing-cell count per column, in column order |
| Quality.NonZero | quantlab_data_pipeline/quality.py:18 | exactly the positive counts |
| Quality.NonZeroCounts | quantlab_data_pipeline/quality.py:17-18 | the non-zero entries are exactly the columns with missing cells, each with its count |
| Quality.NonZeroLength | quantlab_data_pipeline/quality.py:18 | filtering never lengthens |
| Quality.InsertDescending | quantlab_data_pipeline/quality.py:18 | insertion keeps the order descending and adds exactly the new entry |
| Quality.BoundedByHead | quantlab_data_pipeline/quality.py:18 | an insertion into the tail stays below the head |
| Quality.DescendingTail | quantlab_data_pipeline/quality.py:18 | the tail of a descending list is descending |
| Quality.ConsDescending | quantlab_data_pipeline/quality.py:18 | a large enough head keeps a list descending |
| Quality.SortDescending | quantlab_data_pipeline/quality.py:18 | `sort_values(ascending=False)` is descending and a permutation |
| Quality.Head | quantlab_data_pipeline/quality.py:20 | `head(n)` is a prefix of length n (all but the last -n entries for a negative n) |
| Quality.SortedMembers | quantlab_data_pipeline/quality.py:18 | sorting keeps the length and the elements |
| Quality.HeadOfSorted | quantlab_data_pipeline/quality.py:18-20 | the head of the sorted counts is descending, holds at most n entries, and no omitted count exceeds a kept one |
| Quality.HeadOfDescending | quantlab_data_pipeline/quality.py:18-20 | the same for any descending arrangement |
| Quality.TopMissingSpec | quantlab_data_pipeline/quality.py:13-23 | the detail lists columns with missing cells and their counts, largest first, at most n of them, and no omitted column has more; with room for all, every such column is listed |
| Quality.TopMissing | quantlab_data_pipeline/quality.py:13-23 | specified by `TopMissingSpec` |
| Quality.MissingCheckSpec | quantlab_data_pipeline/quality.py:54-56 | the missing entry appears exactly when some cell is missing, with the number of such rows; without it there is no detail |
| Quality.Greater | quantlab_data_pipeline/quality.py:63-70 | `>` on two cells: false with a missing cell, numbers by value, strings as text, dates by day, `TypeError` for any other pair |
| Quality.GreaterAsymmetric | quantlab_data_pipeline/quality.py:63-70 | `>` is never true both ways or on equal cells, and a pair raises either way round |
| Quality.CountTrue | quantlab_data_pipeline/quality.py:63-71 | a comparison count raises `TypeError` exactly when the comparison raises on some row, and otherwise is at most the row count |
| Quality.CountTruePositive | quantlab_data_pipeline/quality.py:63-71 | a comparison count is positive exactly when the comparison is true on some row |
| Quality.CheckTable | quantlab_data_pipeline/quality.py:51-72 | the checks of a dataset raise `TypeError` exactly when a price or volume comparison raises |
| Quality.ConsistencyCheckSpec | quantlab_data_pipeline/quality.py:58-68 | with all four price columns, a comparison that raises (a string against a number) makes the check raise `TypeError`; otherwise an entry per ordering violation appears exactly when some row violates it (numbers by value, strings as text), with the count |
| Quality.BoundsCheckSpec | quantlab_data_pipeline/quality.py:69-72 | a volume that cannot be compared with 0 makes the check raise `TypeError`; otherwise the volume entry appears exactly when the column exists and some volume is below 0, with the number of such rows |
| Quality.StringVolumeRaises | quantlab_data_pipeline/quality.py:70 | a string volume compared with 0 raises `TypeError` |
| Quality.StringPricesCompareAsText | quantlab_data_pipeline/quality.py:63 | string prices compare as text: "9.5" > "10.1" |
| Quality.QualityReportsSpec | quantlab_data_pipeline/quality.py:38-74 | the call fails exactly when a selected dataset is present but unreadable or its comparisons raise; otherwise exactly the present datasets are reported, each with its table's checks |
| Quality.QualityReports | quantlab_data_pipeline/quality.py:38-74 | specified by `QualityReportsSpec` |
| Quality.RunQualityChecks | quantlab_data_pipeline/quality.py:30-83 | the loop returns exactly the specified reports |
| Quality.QualityStops | quantlab_data_pipeline/quality.py:45-50 | once a read fails, later datasets are not visited |
| Transform.ExtractMeta | quantlab_data_pipeline/transform.py:31-34 | the ticker is the file stem and the source is its directory |
| Transform.Without | quantlab_data_pipeline/transform.py:22 | the value columns are exactly the columns other than the date column |
| Transform.WithoutLength | quantlab_data_pipeline/transform.py:22 | leaving out a present column leaves one fewer |
| Transform.Block | quantlab_data_pipeline/transform.py:23 | one value column melts into one long row per wide row, in order |
| Transform.OffsetProduct | quantlab_data_pipeline/transform.py:23 | j blocks of n rows are n * j rows |
| Transform.MeltLength | quantlab_data_pipeline/transform.py:23 | the melt has one row per (value column, wide row) pair |
| Transform.MeltAt | quantlab_data_pipeline/transform.py:23-26 | the long row for value column j and wide row i is at index n*j + i |
| Transform.Melt | quantlab_data_pipeline/transform.py:22-23 | specified by `MeltLength`, `MeltAt` and `MeltDates`: one long row per (value column, wide row) pair, value column by value column |
| Transform.MeltDates | quantlab_data_pipeline/transform.py:23-24 | when all wide rows share a date, so do all long rows |
| Transform.WideToLong | quantlab_data_pipeline/transform.py:21-28 | the long table has the five long-format columns |
| Transform.WideToLongSpec | quantlab_data_pipeline/transform.py:21-28 | every (value column, wide row) cell becomes exactly one long row that holds the metric, the value, the converted date, the ticker and the source |
| Transform.LongRows | quantlab_data_pipeline/transform.py:23-27 | the converted melt is cell-by-cell the long rows |
| Transform.LongCellAt | quantlab_data_pipeline/transform.py:23-27 | the converted long row of one cell |
| Transform.WideToLongCount | quantlab_data_pipeline/transform.py:21-28 | with distinct columns, the long table has rows × (columns − 1) rows |
| Transform.Coerced | quantlab_data_pipeline/transform.py:27 | a converted row differs only in its date |
| Transform.Dated | quantlab_data_pipeline/transform.py:24-27 | a long row with its date replaced keeps the ticker, source, metric and value |
| Transform.UndatedFile | quantlab_data_pipeline/transform.py:53-57 | a file without a date column still gives one row per cell, each with a missing date |
| Transform.WithoutAppend | quantlab_data_pipeline/transform.py:55-56 | adding the date column does not change the value columns |
| Transform.AllMissingDates | quantlab_data_pipeline/transform.py:27 | missing dates convert to missing dates |
| Transform.NumericColumn | quantlab_data_pipeline/transform.py:63 | the column converts as a whole when every cell converts, and is otherwise left alone |
| Transform.NonEmptyFiles | quantlab_data_pipeline/transform.py:47-50 | exactly the listed files that read back non-empty |
| Transform.FramesSpec | quantlab_data_pipeline/transform.py:42-60 | a successful walk read every file; frame f is the long table of the f-th non-empty file, in listing order; there are no frames exactly when every file is empty |
| Transform.FileFrame | quantlab_data_pipeline/transform.py:51-57 | specified by `FramesSpec`, `WideToLongSpec` and `UndatedFile`: a file melts around its first date column, or around an all-missing `Date` column when it has none |
| Transform.TransformRawFails | quantlab_data_pipeline/transform.py:43-44 | no files raises `FileNotFoundError`; after a successful walk, `ValueError` exactly when every file is empty |
| Transform.TransformRawRows | quantlab_data_pipeline/transform.py:46-63 | the final rows are, file after file in listing order, the long rows of each non-empty file, each with its "Value" unchanged or converted to a number |
| Transform.TransformRaw | quantlab_data_pipeline/transform.py:41-63 | specified by `TransformRawFails` and `TransformRawRows` |
| Transform.ConvertedConcat | quantlab_data_pipeline/transform.py:62-63 | the predicate `TransformRawRows` states: each frame row sits at its concatenation offset, with "Value" unchanged or converted |
| Transform.TransformRawToFinal | quantlab_data_pipeline/transform.py:37-69 | a failure leaves the final directory alone; otherwise the final price dataset holds the specified table |
| Transform.FramesStop | quantlab_data_pipeline/transform.py:47-57 | once a file fails, the walk's result is that failure |
| Config.SplitLinesFrom | quantlab_data_pipeline/config_loader.py:42 | no line holds a line break, and one line per separator plus the last (`SplitLinesRoundTrip`) |
| Config.SplitLinesRoundTrip | quantlab_data_pipeline/config_loader.py:42 | joining the lines with their separators gives back the text, each separator one line break ("\r\n" kept together), and there is one separator per line but the last |
| Config.SplitLines | quantlab_data_pipeline/config_loader.py:42 | no line holds a line break, and there are no lines exactly when the text is empty (see `SplitLinesRoundTrip`) |
| Config.RoundTripBreak | quantlab_data_pipeline/config_loader.py:42 | the round trip when the text starts with a break |
| Config.RoundTripChar | quantlab_data_pipeline/config_loader.py:42 | the round trip when the text starts with another character |
| Config.ParseLine | quantlab_data_pipeline/config_loader.py:43-48 | a line gives nothing exactly when, stripped, it is blank, a comment or has no `=` |
| Config.ParseLineSpec | quantlab_data_pipeline/config_loader.py:46-48 | a parsed line splits at its first `=`: the key never holds `=`, and the value may |
| Config.Unquote | quantlab_data_pipeline/config_loader.py:48 | only whitespace, double and single quotes are cut from the ends of the value, and what is left neither starts nor ends with a single quote |
| Config.UnquoteSlice | quantlab_data_pipeline/config_loader.py:48 | the three strips together cut only whitespace and quote characters from the value's ends |
| Config.UnquoteKeeps | quantlab_data_pipeline/config_loader.py:48 | a value whose ends are neither whitespace nor quotes comes back unchanged |
| Config.UnquoteDoubleQuoted | quantlab_data_pipeline/config_loader.py:48 | a double-quoted value loses its quotes: `"abc"` gives `abc` |
| Config.UnquoteSingleQuoted | quantlab_data_pipeline/config_loader.py:48 | a single-quoted value loses its quotes: `'abc'` gives `abc` |
| Config.FirstEquals | quantlab_data_pipeline/config_loader.py:46 | the index of the first `=` |
| Config.StripInside | quantlab_data_pipeline/config_loader.py:43 | stripping keeps only characters of the original |
| Config.AssignmentsSnoc | quantlab_data_pipeline/config_loader.py:49 | each assignment updates the dict built so far |
| Config.AssignmentsKeys | quantlab_data_pipeline/config_loader.py:42-49 | a key is in the dict exactly when some line assigns it |
| Config.AssignmentsLast | quantlab_data_pipeline/config_loader.py:42-49 | a key holds the value of the last line that assigns it |
| Config.Assignments | quantlab_data_pipeline/config_loader.py:41-49 | specified by `AssignmentsKeys` and `AssignmentsLast` |
| Config.ParseKeyValues | quantlab_data_pipeline/config_loader.py:40-50 | the fallback loop builds exactly the specified dict |
| Config.Decode | quantlab_data_pipeline/config_loader.py:36-52 | a YAML error propagates; a falsy document becomes `{}`; a truthy string document is re-parsed, its pairs being exactly `KeyValues` of its lines (see `AssignmentsKeys`, `AssignmentsLast`); any other document is returned |
| Config.FirstExistingWins | quantlab_data_pipeline/config_loader.py:29-54 | the first existing candidate is decoded; the call fails with FileNotFoundError exactly when none exists |
| Config.Load | quantlab_data_pipeline/config_loader.py:29-54 | specified by `FirstExistingWins` |
| Config.LoadNotFound | quantlab_data_pipeline/config_loader.py:34-54 | the walk fails with `FileNotFoundError` exactly when no candidate exists |
| Config.LoadFirst | quantlab_data_pipeline/config_loader.py:34-52 | the first existing candidate is the one decoded |
| Config.LoadCredentials | quantlab_data_pipeline/config_loader.py:21-54 | the loop returns exactly the specified result |
| FinalData.Test | quantlab_data_pipeline/final_data.py:20-26 | a mask on one cell: ticker membership never raises; a date comparison is true only for a date within the bound, false for a missing value, and raises otherwise |
| FinalData.Apply | quantlab_data_pipeline/final_data.py:20-26 | a mask keeps exactly the passing rows, in order, and raises exactly when some cell cannot be compared |
| FinalData.Narrow | quantlab_data_pipeline/final_data.py:20-26 | an absent filter changes nothing; a missing column raises KeyError; otherwise exactly the passing rows stay, in order |
| FinalData.GetFinalData | quantlab_data_pipeline/final_data.py:11-27 | specified by `GetFinalDataSpec`, `NoFilters` and `MissingColumn`: a read error propagates, a filter on a missing column raises `KeyError`, and otherwise exactly the selected rows come back in stored order with the stored columns |
| FinalData.GetFinalDataSpec | quantlab_data_pipeline/final_data.py:11-27 | the result keeps the stored columns and is an order-preserving subsequence of the stored rows holding exactly the selected ones |
| FinalData.NoFilters | quantlab_data_pipeline/final_data.py:11-27 | without filters the whole stored table comes back |
| FinalData.MissingColumn | quantlab_data_pipeline/final_data.py:20-26 | filtering on a column the table lacks raises KeyError |
| FinalData.SubsequenceRefl | quantlab_data_pipeline/final_data.py:20-26 | every sequence is a subsequence of itself |
| FinalData.SubsequenceTrans | quantlab_data_pipeline/final_data.py:20-26 | subsequences compose |
| Wrds.ActiveOn | quantlab_data_pipeline/wrds_client.py:63-71 | the rows for a day are exactly the members whose interval covers it |
| Wrds.ExpandedSpec | quantlab_data_pipeline/wrds_client.py:63-73 | a member appears on a day exactly when the day is in the range and the member is active; there are no other rows |
| Wrds.ExpandedHas | quantlab_data_pipeline/wrds_client.py:63-73 | the same for one row |
| Wrds.ExpandedSorted | quantlab_data_pipeline/wrds_client.py:63-73 | the expansion is sorted by day |
| Wrds.ByDateAppend | quantlab_data_pipeline/wrds_client.py:63-73 | one more day's rows after the earlier days keep the expansion sorted |
| Wrds.ExpandDaily | quantlab_data_pipeline/wrds_client.py:63-73 | the day loop yields the specified expansion; an empty range raises ValueError |
| Wrds.ActiveMembers | quantlab_data_pipeline/wrds_client.py:64-70 | the loop body collects the members active on the day |
| Wrds.NamesOf | quantlab_data_pipeline/wrds_client.py:75 | a permno's name rows are exactly those with that permno |
| Wrds.MergeOne | quantlab_data_pipeline/wrds_client.py:75 | the left join keeps a row with no names once, with empty name fields, and otherwise pairs it with each of its name rows |
| Wrds.Merge | quantlab_data_pipeline/wrds_client.py:75 | specified by `MergeOne`, `JoinHas` and `ConstituentsSpec` |
| Wrds.Constituents | quantlab_data_pipeline/wrds_client.py:76-85 | the output holds exactly the merged rows that pass the name filter, with the ticker filled |
| Wrds.JoinHas | quantlab_data_pipeline/wrds_client.py:75-85 | exactly the rows the daily rows yield come out |
| Wrds.JoinOne | quantlab_data_pipeline/wrds_client.py:75-85 | the same for one daily row |
| Wrds.ConstituentsAppend | quantlab_data_pipeline/wrds_client.py:76-85 | the filter distributes over concatenation |
| Wrds.FetchSp500Constituents | quantlab_data_pipeline/wrds_client.py:12-85 | missing required columns fail with their names; an empty range raises ValueError; otherwise the specified constituents |
| Wrds.ConstituentsSpec | quantlab_data_pipeline/wrds_client.py:12-85 | every constituent's day is in the range, its permno a member that day, and its ticker one the join yields; every such row is reported |
| Wrds.ConstituentIff | quantlab_data_pipeline/wrds_client.py:12-85 | the same for one row |
| Wrds.ExpandedCovers | quantlab_data_pipeline/wrds_client.py:63-73 | the expansion holds exactly the member days of the range |
| Wrds.ReportedIff | quantlab_data_pipeline/wrds_client.py:63-85 | a row some daily row of the range yields is reported, and back |
| Wrds.YieldedIsReported | quantlab_data_pipeline/wrds_client.py:63-85 | a row some daily row of the range yields is reported |
| Wrds.YieldsSame | quantlab_data_pipeline/wrds_client.py:75-85 | a yielded row carries its daily row's day and permno |
| Wrds.LowerRow | quantlab_data_pipeline/wrds_client.py:111 | a renamed row holds exactly the lower-cased names of its columns |
| Wrds.LowerColumns | quantlab_data_pipeline/wrds_client.py:111 | each column is renamed to its lower-cased name |
| Wrds.FfFactors | quantlab_data_pipeline/wrds_client.py:111-115 | the factors table has the lower-cased columns, and fails only on a date that does not parse |
| Wrds.FfFactorsSpec | quantlab_data_pipeline/wrds_client.py:111-115 | without a date column every row stays; with one, exactly the rows dated in the window stay, in order |

## Left out

- Floating point: a number in a cell (`Frame.JNum`) is an exact real, so IEEE 754 rounding is not modelled, and neither are infinities or float `nan` in a payload. The percentages of `_missing_detail` and their formatting are left out.
- Frame.NumberText: Python's `int` and `float` are not told apart, so a whole float prints as "5" where `str(5.0)` is "5.0", and a fraction prints with up to 17 decimals rather than Python's shortest round-trip digits. The parsed value of `Parsers.number` is the number itself; `pd.to_numeric` choosing int or float is not modelled.
- Unicode case folding and Unicode digits: `str.lower` acts on ASCII letters only, and the `str.isdigit` test of `_strip_prefix` (`Strings.IsDigit`) accepts only "0" to "9", so a label such as "٣. close" keeps its prefix. (`Strings.Whitespace` is the full set `str.strip()` removes.)
- String escapes in `repr`.
- Booleans under `pd.to_numeric`.
- File formats are not modelled: CSV, parquet and YAML reading and writing. The parsers are parameters and files hold tables; `mkdir` is not modelled.
- Where the failure CSV files go, and how the failure worklists are written to CSV.
- Logging, `time.sleep` throttling, and the `if not any(issues.values())` summary log.
- HTTP, the MCP client and `fetch_time_series_csv`. The provider is a parameter (`Ingestion.Provider`), so its answers are arbitrary.
- The WRDS connection, the SQL queries and their column coercions, and `_get_wrds_creds`. The query results are parameters of `Wrds.FetchSp500Constituents` and `Wrds.FfFactors`.
- The start of `run_ingestion`: the configuration, date defaults and client set-up, and the Fama–French step, which always warns because of a missing name. `tickers_override` is also left out. The model starts at the ticker cleaning, given the constituents table.
- Directory listings (`glob`/`rglob`) are parameters, in the order the caller gives.
- A `tickers` argument that is a generator is always truthy; tickers are a sequence.
- Shapes.ContentToDf: the recursion between `_content_to_df` and its text reparsing is bounded by a `fuel` parameter that stands for Python's recursion limit. Running out gives `RecursionError`, which the source's `except Exception` handlers catch; the actual stack depth at which Python raises is not modelled.
- Column-name clashes in `melt`, and duplicate column names after lower-casing the Fama–French columns.
- `reset_index` in `get_final_data` (row positions are not part of a table).
- Quality.SortDescending: ties in `sort_values` are kept in column order (a stable sort); pandas does not promise an order for ties.
- Quality.QualityReportsSpec: the date coercion of the `date` column is not modelled, since it does not affect any check.
- Config.Decode: any YAML error is one `ReadFailure`, without the parser's message.
- Wrds.Constituents: a names row whose ticker is `None` becomes the text "None", as `astype(str)` makes it. A names row with a missing start date passes the name filter.
- Wrds.ExpandDaily: `pd.concat` of no frames raises, which is modelled as the `ValueError` of a start after the end.
- FinalData.Test: comparing a date bound with a cell that is not a date raises `TypeError`.
- Config.LoadCredentials: credentials are a map from string to string; non-string YAML values are kept as a `Json` document.
- Transform.NumericColumn: `errors="ignore"` converts the whole column or none of it.
- Quality.Greater: two list or two dict cells raise `TypeError`; Python compares two lists element by element.
- Transform.TransformRawRows: states per row that "Value" is unchanged or converted; that the column converts as a whole is stated by `Transform.NumericColumn`.

=== FILE: config.dfy ===
/** Loading credentials (config_loader.py): the first credentials file that
    exists among a fixed list of places is read as YAML; a file YAML reads as
    one plain string is parsed again as `key=value` lines. The file system is
    a map from path to text and the YAML reader a parameter. */
module Config {
  import opened Wrappers
  import opened Strings
  import opened Frame

  // ------------------------------------------------------------ where to look

  /** `_candidate_paths()` under the repository root `base`, or the one path
      the caller names. */
  function Candidates(base: string, path: Option<string>): seq<string>
  {
    match path
    case Some(p) => [p]
    case None => [base + "/credentials.yml", base + "/config/credentials.yml", base + "/config/credential.yml"]
  }

  // ------------------------------------------------------------ key=value lines

  /** The characters `str.splitlines()` breaks at; `"\r\n"` counts as one. */
  const LineBreaks: set<char> :=
    {'\n', '\r', '\U{000B}', '\U{000C}', '\U{001C}', '\U{001D}', '\U{001E}', '\U{0085}', '\U{2028}', '\U{2029}'}

  /** `s.splitlines()` with `cur` the part of the current line read so far:
      no line holds a break, and a final break opens no further line. */
  function SplitLinesFrom(s: string, cur: string): (r: seq<string>)
    requires forall c :: c in cur ==> c !in LineBreaks
    ensures forall i :: 0 <= i < |r| ==> forall c :: c in r[i] ==> c !in LineBreaks
    ensures s == [] ==> r == (if cur == [] then [] else [cur])
    ensures r == [] <==> s == [] && cur == []
    decreases |s|
  {
    if s == [] then (if cur == [] then [] else [cur])
    else if s[0] in LineBreaks then
      var skip := if s[0] == '\r' && |s| > 1 && s[1] == '\n' then 2 else 1;
      [cur] + SplitLinesFrom(s[skip..], [])
    else SplitLinesFrom(s[1..], cur + [s[0]])
  }

  /** `s.splitlines()`: lines without their breaks, none for empty text. */
  function SplitLines(s: string): (r: seq<string>)
    ensures forall i :: 0 <= i < |r| ==> forall c :: c in r[i] ==> c !in LineBreaks
    ensures r == [] <==> s == []
  {
    SplitLinesFrom(s, [])
  }

  /** The break that ends each line `SplitLinesFrom(s, cur)` returns; the
      last line may end with none. */
  ghost function Separators(s: string, cur: string): seq<string>
    decreases |s|
  {
    if s == [] then (if cur == [] then [] else [""])
    else if s[0] in LineBreaks then
      var skip := if s[0] == '\r' && |s| > 1 && s[1] == '\n' then 2 else 1;
      [s[..skip]] + Separators(s[skip..], [])
    else Separators(s[1..], cur + [s[0]])
  }

  /** `"\r\n"`, or one line-break character. */
  predicate IsSeparator(sep: string)
  {
    sep == "\r\n" || (|sep| == 1 && sep[0] in LineBreaks)
  }

  /** Each line followed by its separator, all in order. */
  function Joined(lines: seq<string>, seps: seq<string>): string
    requires |lines| == |seps|
  {
    if lines == [] then [] else lines[0] + seps[0] + Joined(lines[1..], seps[1..])
  }

  /** Lines and separators as `splitlines` cuts them: every separator is a
      break, except that a non-empty last line may end the text without one;
      and a `"\r"` is never followed by an empty line ended by a break that
      starts with `'\n'` (that pair is one `"\r\n"`). */
  ghost predicate WellSeparated(lines: seq<string>, seps: seq<string>)
    requires |lines| == |seps|
  {
    (forall i :: 0 <= i < |lines| ==> IsSeparator(seps[i]) || (i == |lines| - 1 && seps[i] == [] && lines[i] != [])) &&
    (forall i :: 0 <= i < |lines| - 1 && seps[i] == "\r" ==>
       !(lines[i + 1] == [] && seps[i + 1] != [] && seps[i + 1][0] == '\n'))
  }

  /** Text that begins with an empty line begins with that line's separator. */
  lemma JoinedStartsWith(lines: seq<string>, seps: seq<string>)
    requires |lines| == |seps| && lines != [] && lines[0] == [] && seps[0] != []
    ensures |Joined(lines, seps)| > 0 && Joined(lines, seps)[0] == seps[0][0]
  {
    assert Joined(lines, seps) == seps[0] + Joined(lines[1..], seps[1..]);
  }

  /** The lines, each followed by the break it ended at, give back the text:
      `splitlines` cuts the text at every break and nowhere else. */
  lemma {:induction false} SplitLinesRoundTrip(s: string, cur: string)
    requires forall c :: c in cur ==> c !in LineBreaks
    ensures |Separators(s, cur)| == |SplitLinesFrom(s, cur)|
    ensures Joined(SplitLinesFrom(s, cur), Separators(s, cur)) == cur + s
    ensures WellSeparated(SplitLinesFrom(s, cur), Separators(s, cur))
    decreases |s|, 1
  {
    if s == [] {
      if cur != [] {
        assert Joined([cur], [""]) == cur + "" + Joined([], []);
      }
    } else if s[0] in LineBreaks {
      RoundTripBreak(s, cur);
    } else {
      RoundTripChar(s, cur);
    }
  }

  /** A break closes the current line. */
  lemma {:induction false} RoundTripBreak(s: string, cur: string)
    requires s != [] && s[0] in LineBreaks
    requires forall c :: c in cur ==> c !in LineBreaks
    ensures |Separators(s, cur)| == |SplitLinesFrom(s, cur)|
    ensures Joined(SplitLinesFrom(s, cur), Separators(s, cur)) == cur + s
    ensures WellSeparated(SplitLinesFrom(s, cur), Separators(s, cur))
    decreases |s|, 0
  {
    var skip := if s[0] == '\r' && |s| > 1 && s[1] == '\n' then 2 else 1;
    SplitLinesRoundTrip(s[skip..], []);
    BreakSeparator(s, skip);
    var rest, restSeps := SplitLinesFrom(s[skip..], []), Separators(s[skip..], []);
    assert SplitLinesFrom(s, cur) == [cur] + rest && Separators(s, cur) == [s[..skip]] + restSeps;
    BreakJoined(cur, s[..skip], s[skip..], rest, restSeps);
    BreakSeparated(cur, s[..skip], s[skip..], rest, restSeps);
  }

  /** Any other character extends the current line. */
  lemma {:induction false} RoundTripChar(s: string, cur: string)
    requires s != [] && s[0] !in LineBreaks
    requires forall c :: c in cur ==> c !in LineBreaks
    ensures |Separators(s, cur)| == |SplitLinesFrom(s, cur)|
    ensures Joined(SplitLinesFrom(s, cur), Separators(s, cur)) == cur + s
    ensures WellSeparated(SplitLinesFrom(s, cur), Separators(s, cur))
    decreases |s|, 0
  {
    SplitLinesRoundTrip(s[1..], cur + [s[0]]);
    assert (cur + [s[0]]) + s[1..] == cur + s;
  }

  /** The break at the head of `s` is a separator, and a lone `"\r"` is
      not followed by `'\n'`. */
  lemma BreakSeparator(s: string, skip: nat)
    requires s != [] && s[0] in LineBreaks
    requires skip == if s[0] == '\r' && |s| > 1 && s[1] == '\n' then 2 else 1
    ensures IsSeparator(s[..skip]) && s == s[..skip] + s[skip..]
    ensures s[..skip] == "\r" ==> s[skip..] == [] || s[skip..][0] != '\n'
  {
    var sep := s[..skip];
    if skip == 2 {
      assert sep == "\r\n" by { assert sep[0] == '\r' && sep[1] == '\n'; }
    } else {
      assert |sep| == 1 && sep[0] == s[0];
    }
  }

  /** A separator glued to the split of the rest gives back the text... */
  lemma BreakJoined(cur: string, sep: string, tail: string, rest: seq<string>, restSeps: seq<string>)
    requires |restSeps| == |rest| && Joined(rest, restSeps) == tail
    ensures Joined([cur] + rest, [sep] + restSeps) == cur + (sep + tail)
  {
    JoinedCons(cur, sep, rest, restSeps);
    assert cur + sep + tail == cur + (sep + tail);
  }

  /** ... and keeps the lines well separated. */
  lemma BreakSeparated(cur: string, sep: string, tail: string, rest: seq<string>, restSeps: seq<string>)
    requires IsSeparator(sep) && (sep == "\r" ==> tail == [] || tail[0] != '\n')
    requires |restSeps| == |rest| && Joined(rest, restSeps) == tail && WellSeparated(rest, restSeps)
    ensures WellSeparated([cur] + rest, [sep] + restSeps)
  {
    NoCrLfSplit(sep, tail, rest, restSeps);
    WellSeparatedCons(cur, sep, rest, restSeps);
  }

  /** A `"\r"` not followed by `'\n'` in the text is not followed by an
      empty line ended by a break starting with `'\n'`. */
  lemma NoCrLfSplit(sep: string, tail: string, rest: seq<string>, restSeps: seq<string>)
    requires sep == "\r" ==> tail == [] || tail[0] != '\n'
    requires |restSeps| == |rest| && Joined(rest, restSeps) == tail
    ensures sep == "\r" ==> !(rest != [] && rest[0] == [] && restSeps[0] != [] && restSeps[0][0] == '\n')
  {
    if sep == "\r" && rest != [] && rest[0] == [] && restSeps[0] != [] {
      JoinedStartsWith(rest, restSeps);
    }
  }

  lemma JoinedCons(line: string, sep: string, lines: seq<string>, seps: seq<string>)
    requires |lines| == |seps|
    ensures Joined([line] + lines, [sep] + seps) == line + sep + Joined(lines, seps)
  {
    assert ([line] + lines)[1..] == lines && ([sep] + seps)[1..] == seps;
  }

  lemma WellSeparatedCons(line: string, sep: string, lines: seq<string>, seps: seq<string>)
    requires |lines| == |seps| && WellSeparated(lines, seps) && IsSeparator(sep)
    requires sep == "\r" ==> !(lines != [] && lines[0] == [] && seps[0] != [] && seps[0][0] == '\n')
    ensures WellSeparated([line] + lines, [sep] + seps)
  {
    var ls, ss := [line] + lines, [sep] + seps;
    forall i | 1 <= i < |ls| ensures ls[i] == lines[i - 1] && ss[i] == seps[i - 1] {}
  }

  /** The characters `val.strip().strip('"').strip("'")` may cut from a
      value's ends. */
  const ValueTrim: set<char> := Whitespace + {'"'} + {'\''}

  /** `val.strip().strip('"').strip("'")`: only whitespace and quote
      characters are cut from the ends, and what is left neither starts nor
      ends with a single quote. */
  function Unquote(v: string): (r: string)
    ensures exists i, j :: Trims(v, ValueTrim, r, i, j)
    ensures IsSlice(v, r)
    ensures r == [] || (r[0] != '\'' && r[|r| - 1] != '\'')
  {
    var a := Strip(v);
    var b := StripChars(a, {'"'});
    UnquoteSlice(v, a, b, StripChars(b, {'\''}));
    StripChars(b, {'\''})
  }

  lemma UnquoteSlice(v: string, a: string, b: string, r: string)
    requires a == Strip(v) && b == StripChars(a, {'"'}) && r == StripChars(b, {'\''})
    ensures exists i, j :: Trims(v, ValueTrim, r, i, j)
    ensures IsSlice(v, r)
  {
    UnquoteDouble(v, a, b);
    UnquoteSingle(v, b, r);
    TrimsSlice(v, ValueTrim, r);
  }

  /** Stripping whitespace and then double quotes cuts only `ValueTrim`. */
  lemma UnquoteDouble(v: string, a: string, b: string)
    requires a == Strip(v) && b == StripChars(a, {'"'})
    ensures exists i, j :: Trims(v, ValueTrim, b, i, j)
  {
    var i, j :| Trims(v, Whitespace, a, i, j);
    var k, l :| Trims(a, {'"'}, b, k, l);
    TrimsCompose(v, Whitespace, a, i, j, {'"'}, b, k, l, ValueTrim);
  }

  /** Stripping single quotes after that still cuts only `ValueTrim`. */
  lemma UnquoteSingle(v: string, b: string, r: string)
    requires (exists i, j :: Trims(v, ValueTrim, b, i, j)) && r == StripChars(b, {'\''})
    ensures exists i, j :: Trims(v, ValueTrim, r, i, j)
  {
    var i, j :| Trims(v, ValueTrim, b, i, j);
    var m, n :| Trims(b, {'\''}, r, m, n);
    TrimsCompose(v, ValueTrim, b, i, j, {'\''}, r, m, n, ValueTrim);
  }

  /** A value whose ends are neither whitespace nor quotes is kept as it is. */
  lemma UnquoteKeeps(v: string)
    ensures v == [] || (v[0] !in ValueTrim && v[|v| - 1] !in ValueTrim) ==> Unquote(v) == v
  {
    StripCharsFixed(v, Whitespace);
    StripCharsFixed(v, {'"'});
    StripCharsFixed(v, {'\''});
  }

  /** `Unquote` is the three strips in turn. */
  lemma UnquoteSteps(v: string, a: string, b: string, r: string)
    requires a == Strip(v) && b == StripChars(a, {'"'}) && r == StripChars(b, {'\''})
    ensures Unquote(v) == r
  {
  }

  /** The characters `ValueTrim` is made of. */
  lemma ValueTrimHas(c: char)
    ensures c in ValueTrim <==> c in Whitespace || c == '"' || c == '\''
  {
  }

  /** A double-quoted value loses its quotes: `"abc"` gives `abc`. */
  lemma UnquoteDoubleQuoted(w: string)
    ensures w != [] && w[0] !in ValueTrim && w[|w| - 1] !in ValueTrim ==> Unquote(['"'] + w + ['"']) == w
  {
    if w != [] && w[0] !in ValueTrim && w[|w| - 1] !in ValueTrim {
      var q := ['"'] + w + ['"'];
      assert q[0] == q[|q| - 1] == '"';
      QuotesAreNotSpace();
      ValueTrimHas(w[0]);
      ValueTrimHas(w[|w| - 1]);
      StripCharsFixed(q, Whitespace);
      StripCharsEnclosed(w, '"', {'"'});
      StripCharsFixed(w, {'\''});
      UnquoteSteps(q, q, w, w);
    }
  }

  /** So does a single-quoted one: `'abc'` gives `abc`. */
  lemma UnquoteSingleQuoted(w: string)
    ensures w != [] && w[0] !in ValueTrim && w[|w| - 1] !in ValueTrim ==> Unquote(['\''] + w + ['\'']) == w
  {
    if w != [] && w[0] !in ValueTrim && w[|w| - 1] !in ValueTrim {
      var q := ['\''] + w + ['\''];
      assert q[0] == q[|q| - 1] == '\'';
      QuotesAreNotSpace();
      ValueTrimHas(w[0]);
      ValueTrimHas(w[|w| - 1]);
      StripCharsFixed(q, Whitespace);
      StripCharsFixed(q, {'"'});
      StripCharsEnclosed(w, '\'', {'\''});
      UnquoteSteps(q, q, q, w);
    }
  }

  /** `r` is `s[i..j]` for some `i` and `j`. */
  predicate IsSlice(s: string, r: string)
  {
    exists i, j :: 0 <= i <= j <= |s| && r == s[i..j]
  }

  lemma TrimsSlice(s: string, cs: set<char>, r: string)
    requires exists i, j :: Trims(s, cs, r, i, j)
    ensures IsSlice(s, r)
  {
    var i, j :| Trims(s, cs, r, i, j);
  }

  lemma SliceOfSlice(s: string, m: string, r: string)
    requires IsSlice(s, m) && IsSlice(m, r)
    ensures IsSlice(s, r)
  {
    var i, j :| 0 <= i <= j <= |s| && m == s[i..j];
    var k, l :| 0 <= k <= l <= |m| && r == m[k..l];
    SliceIndices(s, i, j, k, l);
    assert 0 <= i + k <= i + l <= |s| && r == s[i + k..i + l];
  }

  lemma SliceIndices(s: string, i: nat, j: nat, k: nat, l: nat)
    requires i <= j <= |s| && k <= l <= j - i
    ensures s[i..j][k..l] == s[i + k..i + l]
  {
    forall t | 0 <= t < l - k
      ensures s[i..j][k..l][t] == s[i + k..i + l][t]
    {
      assert s[i..j][k..l][t] == s[i..j][k + t] == s[i + k + t];
    }
  }


  /** The stripped line `l` splits at its first `=`, at `i`, into `key` and
      `val`. */
  predicate SplitsAt(l: string, i: nat, key: string, val: string)
  {
    i < |l| && l[i] == '=' && '=' !in l[..i] && key == Strip(l[..i]) && val == Unquote(l[i + 1..])
  }

  /** The lines the fallback parser skips: blank, a comment, or no `=`. */
  predicate Skipped(l: string)
  {
    l == [] || l[0] == '#' || '=' !in l
  }

  /** One line of the fallback parser, stripped first; a skipped line gives
      nothing, any other splits at its first `=` only. */
  function ParseLine(line: string): (r: Option<(string, string)>)
    ensures r.None? <==> Skipped(Strip(line))
  {
    var l := Strip(line);
    if Skipped(l) then None
    else
      var i := FirstEquals(l);
      Some((Strip(l[..i]), Unquote(l[i + 1..])))
  }

  /** A parsed line splits at its first `=`, so the value may itself hold
      `=` but the key never does. */
  lemma ParseLineSpec(line: string)
    requires ParseLine(line).Some?
    ensures var (key, val) := ParseLine(line).value;
      '=' !in key && exists i :: SplitsAt(Strip(line), i, key, val)
  {
    var l := Strip(line);
    var i := FirstEquals(l);
    assert SplitsAt(l, i, ParseLine(line).value.0, ParseLine(line).value.1);
    StripInside(l[..i]);
  }

  /** The index of the first `=` of `l`. */
  function FirstEquals(l: string): (i: nat)
    requires '=' in l
    ensures i < |l| && l[i] == '=' && '=' !in l[..i]
  {
    if l[0] == '=' then 0
    else
      var i := FirstEquals(l[1..]) + 1;
      assert l[..i] == [l[0]] + l[1..][..i - 1];
      i
  }

  /** Stripping keeps only characters of the original. */
  lemma StripInside(s: string)
    ensures forall c :: c in Strip(s) ==> c in s
  {
    var i, j :| Trims(s, Whitespace, Strip(s), i, j);
    forall c | c in Strip(s)
      ensures c in s
    {
      var k :| 0 <= k < |Strip(s)| && Strip(s)[k] == c;
      assert s[i + k] == c;
    }
  }

  /** A line's assignment, if it makes one. */
  type Assignment = Option<(string, string)>

  /** The dict a run of assignments builds, each overwriting the last. */
  function Assignments(ps: seq<Assignment>): map<string, string>
  {
    if ps == [] then map[]
    else
      var n := |ps| - 1;
      var m := Assignments(ps[..n]);
      match ps[n]
      case None => m
      case Some((k, v)) => m[k := v]
  }

  /** The dict the fallback parser builds from `lines`. */
  function KeyValues(lines: seq<string>): map<string, string>
  {
    Assignments(seq(|lines|, i requires 0 <= i < |lines| => ParseLine(lines[i])))
  }

  /** Assignment `i` sets key `k`. */
  predicate Assigns(ps: seq<Assignment>, i: int, k: string)
  {
    0 <= i < |ps| && ps[i].Some? && ps[i].value.0 == k
  }

  /** The last assignment applied to the dict of the others. */
  lemma AssignmentsSnoc(ps: seq<Assignment>)
    requires ps != []
    ensures var m := Assignments(ps[..|ps| - 1]);
      Assignments(ps) == if ps[|ps| - 1].None? then m else m[ps[|ps| - 1].value.0 := ps[|ps| - 1].value.1]
  {
  }

  /** A key is in the dict exactly when some assignment sets it. */
  lemma {:induction false} AssignmentsKeys(ps: seq<Assignment>)
    ensures forall k :: k in Assignments(ps) <==> exists i :: Assigns(ps, i, k)
  {
    if ps != [] {
      var n := |ps| - 1;
      var front := ps[..n];
      AssignmentsKeys(front);
      AssignmentsSnoc(ps);
      forall k | k in Assignments(ps)
        ensures exists i :: Assigns(ps, i, k)
      {
        if !Assigns(ps, n, k) {
          assert k in Assignments(front);
          var i :| Assigns(front, i, k);
          assert ps[i] == front[i];
          assert Assigns(ps, i, k);
        }
      }
      forall k | exists i :: Assigns(ps, i, k)
        ensures k in Assignments(ps)
      {
        var i :| Assigns(ps, i, k);
        if i < n {
          assert Assigns(front, i, k);
        }
      }
    }
  }

  /** A key holds the value of the last assignment to it: a later duplicate
      overwrites an earlier one. */
  lemma {:induction false} AssignmentsLast(ps: seq<Assignment>, i: nat, k: string)
    requires Assigns(ps, i, k)
    requires forall j :: i < j < |ps| ==> !Assigns(ps, j, k)
    ensures k in Assignments(ps) && Assignments(ps)[k] == ps[i].value.1
  {
    var n := |ps| - 1;
    var front := ps[..n];
    AssignmentsSnoc(ps);
    if i < n {
      assert Assigns(front, i, k);
      forall j | i < j < |front|
        ensures !Assigns(front, j, k)
      {
        assert !Assigns(ps, j, k);
      }
      AssignmentsLast(front, i, k);
      assert !Assigns(ps, n, k);
    }
  }

  /** The fallback parser: every line of the file, in order, through
      `ParseLine`, into a dict. */
  method ParseKeyValues(raw: string) returns (parsed: map<string, string>)
    ensures parsed == KeyValues(SplitLines(raw))
  {
    var lines := SplitLines(raw);
    ghost var ps := seq(|lines|, i requires 0 <= i < |lines| => ParseLine(lines[i]));
    parsed := map[];
    var i := 0;
    while i < |lines|
      invariant 0 <= i <= |lines|
      invariant parsed == Assignments(ps[..i])
    {
      assert ps[..i + 1][..i] == ps[..i];
      AssignmentsSnoc(ps[..i + 1]);
      var line := Strip(lines[i]);
      if line == [] || line[0] == '#' || '=' !in line {
        assert ps[i] == None;
        i := i + 1;
        continue;
      }
      var eq := FirstEquals(line);
      var key := Strip(line[..eq]);
      var val := Unquote(line[eq + 1..]);
      assert ps[i] == Some((key, val));
      parsed := parsed[key := val];
      i := i + 1;
    }
    assert ps[..i] == ps;
  }

  // ------------------------------------------------------------ load_credentials

  /** What `load_credentials` returns: the YAML document, or the dict of the
      fallback parser. */
  datatype Loaded = Document(data: Json) | Pairs(pairs: map<string, string>)

  /** One existing file: a falsy document becomes `{}`, and a document that
      is a string is read again line by line; a YAML error propagates. */
  function Decode(yaml: string -> Option<Json>, raw: string): (r: Result<Loaded>)
    ensures r.Fail? <==> yaml(raw).None?
    ensures r.Fail? ==> r.error == ReadFailure
    ensures r.Ok? && r.value.Document? ==> !r.value.data.JStr? && (Truthy(yaml(raw).value) ==> r.value.data == yaml(raw).value)
    ensures r.Ok? && !Truthy(yaml(raw).value) ==> r == Ok(Document(JObj([])))
    ensures r.Ok? ==> (r.value.Pairs? <==> yaml(raw).value.JStr? && Truthy(yaml(raw).value))
    ensures r.Ok? && r.value.Pairs? ==> r.value.pairs == KeyValues(SplitLines(raw))
  {
    match yaml(raw)
    case None => Fail(ReadFailure)
    case Some(data) =>
      var d := if Truthy(data) then data else JObj([]);
      if d.JStr? then Ok(Pairs(KeyValues(SplitLines(raw)))) else Ok(Document(d))
  }

  /** The walk over the candidates: the first one that exists is decoded. */
  function Load(files: map<string, string>, yaml: string -> Option<Json>, paths: seq<string>): Result<Loaded>
  {
    if paths == [] then Fail(FileNotFound)
    else if paths[0] in files then Decode(yaml, files[paths[0]])
    else Load(files, yaml, paths[1..])
  }

  /** The first existing candidate wins; when none exists the call fails with
      `FileNotFoundError`, and only then. */
  lemma FirstExistingWins(files: map<string, string>, yaml: string -> Option<Json>, paths: seq<string>)
    ensures Load(files, yaml, paths) == Fail(FileNotFound) <==> forall i :: 0 <= i < |paths| ==> paths[i] !in files
    ensures forall i :: 0 <= i < |paths| && paths[i] in files && (forall j :: 0 <= j < i ==> paths[j] !in files) ==>
      Load(files, yaml, paths) == Decode(yaml, files[paths[i]])
  {
    LoadNotFound(files, yaml, paths);
    forall i | 0 <= i < |paths| && paths[i] in files && (forall j :: 0 <= j < i ==> paths[j] !in files)
      ensures Load(files, yaml, paths) == Decode(yaml, files[paths[i]])
    {
      LoadFirst(files, yaml, paths, i);
    }
  }

  lemma {:induction false} LoadNotFound(files: map<string, string>, yaml: string -> Option<Json>, paths: seq<string>)
    ensures Load(files, yaml, paths) == Fail(FileNotFound) <==> forall i :: 0 <= i < |paths| ==> paths[i] !in files
  {
    if paths != [] {
      LoadNotFound(files, yaml, paths[1..]);
      assert forall i :: 1 <= i < |paths| ==> paths[i] == paths[1..][i - 1];
      if paths[0] in files {
        assert Decode(yaml, files[paths[0]]).Fail? ==> Decode(yaml, files[paths[0]]).error == ReadFailure;
      }
    }
  }

  lemma {:induction false} LoadFirst(files: map<string, string>, yaml: string -> Option<Json>, paths: seq<string>, i: nat)
    requires i < |paths| && paths[i] in files && forall j :: 0 <= j < i ==> paths[j] !in files
    ensures Load(files, yaml, paths) == Decode(yaml, files[paths[i]])
  {
    if i > 0 {
      assert forall j :: 0 <= j < i - 1 ==> paths[1..][j] == paths[j + 1];
      LoadFirst(files, yaml, paths[1..], i - 1);
    }
  }

  /** `load_credentials(path)` with the repository root `base`. */
  method LoadCredentials(files: map<string, string>, yaml: string -> Option<Json>, base: string, path: Option<string>)
    returns (r: Result<Loaded>)
    ensures r == Load(files, yaml, Candidates(base, path))
  {
    var paths := Candidates(base, path);
    var i := 0;
    while i < |paths|
      invariant 0 <= i <= |paths|
      invariant Load(files, yaml, paths) == Load(files, yaml, paths[i..])
    {
      var candidate := paths[i];
      assert paths[i..][1..] == paths[i + 1..];
      if candidate in files {
        var raw := files[candidate];
        var data := yaml(raw);
        if data.None? {
          return Fail(ReadFailure);
        }
        var d := if Truthy(data.value) then data.value else JObj([]);
        if d.JStr? {
          var parsed := ParseKeyValues(raw);
          return Ok(Pairs(parsed));
        }
        return Ok(Document(d));
      }
      i := i + 1;
    }
    return Fail(FileNotFound);
  }
}

=== FILE: failures.dfy ===
/** Failure triage (failure_utils.py): a cell whose text carries the
    provider's "invalid api call" message flags its row; raw partitions and
    final datasets are scanned for flagged rows, a worklist of re-fetch
    requests is built, the worklist is replayed against the provider, and
    flagged rows are removed from the final datasets. */
module Failures {
  import opened Wrappers
  import opened Strings
  import opened Frame
  import opened Reports
  import opened Storage
  import opened Ingestion
  import Config

  // ------------------------------------------------------------ the flag

  /** The provider's error message, already in lower case. */
  const Marker := "invalid api call"

  /** `df.astype(str)` cell `.str.contains("invalid api call", case=False)`:
      the marker is lower case, so lowering the text alone makes the test
      case-insensitive. */
  predicate Flagged(v: Value)
  {
    Contains(Lower(Text(v)), Marker)
  }

  /** The mask of `.any(axis=1)`: some column of the table flags the row. */
  predicate RowFlagged(columns: seq<string>, row: Row)
  {
    exists c :: c in columns && Flagged(At(row, c))
  }

  /** `df.loc[mask]`: the flagged rows, in order. */
  function FlaggedRows(columns: seq<string>, rows: seq<Row>): (r: seq<Row>)
    ensures |r| <= |rows|
    ensures forall row :: row in r <==> row in rows && RowFlagged(columns, row)
  {
    if rows == [] then []
    else (if RowFlagged(columns, rows[0]) then [rows[0]] else []) + FlaggedRows(columns, rows[1..])
  }

  /** `df.loc[~mask]`: the other rows, in order. */
  function KeptRows(columns: seq<string>, rows: seq<Row>): (r: seq<Row>)
    ensures |r| <= |rows|
    ensures forall row :: row in r <==> row in rows && !RowFlagged(columns, row)
  {
    if rows == [] then []
    else (if !RowFlagged(columns, rows[0]) then [rows[0]] else []) + KeptRows(columns, rows[1..])
  }

  lemma {:induction false} LowerSlice(s: string, i: nat, j: nat)
    requires i <= j <= |s|
    ensures Lower(s)[i..j] == Lower(s[i..j])
  {
    var l := Lower(s);
    var a, b := l[i..j], Lower(s[i..j]);
    assert |a| == j - i == |b|;
    forall k | 0 <= k < j - i
      ensures a[k] == b[k]
    {
      assert a[k] == l[i + k] == LowerChar(s[i + k]);
      assert b[k] == LowerChar(s[i..j][k]);
    }
    assert a == b;
  }

  /** The slice of `s` at `i` spells the marker in some mix of cases. */
  predicate MarkerAt(s: string, i: int)
  {
    0 <= i && i + |Marker| <= |s| && Lower(s[i..i + |Marker|]) == Marker
  }

  /** A cell is flagged exactly when some slice of its text spells the
      marker in any mix of letter cases. */
  lemma FlaggedIff(v: Value)
    ensures Flagged(v) <==> exists i :: MarkerAt(Text(v), i)
  {
    var s := Text(v);
    ContainsIff(Lower(s), Marker);
    if Flagged(v) {
      var i :| OccursAt(Lower(s), Marker, i);
      LowerSlice(s, i, i + |Marker|);
      assert MarkerAt(s, i);
    }
    if exists i :: MarkerAt(s, i) {
      var i :| MarkerAt(s, i);
      LowerSlice(s, i, i + |Marker|);
      assert OccursAt(Lower(s), Marker, i);
    }
  }

  /** Missing cells read "nan" or "None" and are never flagged. */
  lemma MissingNeverFlagged()
    ensures !Flagged(NaN) && !Flagged(Cell(JNull))
  {
  }

  /** Every row is either flagged or kept: the kept rows are the input
      without the flagged ones, in their original order, and the number
      removed is the number flagged. */
  lemma {:induction false} FlagSplit(columns: seq<string>, rows: seq<Row>)
    ensures |FlaggedRows(columns, rows)| + |KeptRows(columns, rows)| == |rows|
    ensures IsSubsequence(KeptRows(columns, rows), rows)
    ensures IsSubsequence(FlaggedRows(columns, rows), rows)
  {
    if rows != [] {
      FlagSplit(columns, rows[1..]);
      if RowFlagged(columns, rows[0]) {
        assert FlaggedRows(columns, rows)[1..] == FlaggedRows(columns, rows[1..]);
        assert KeptRows(columns, rows) == KeptRows(columns, rows[1..]);
      } else {
        assert KeptRows(columns, rows)[1..] == KeptRows(columns, rows[1..]);
        assert FlaggedRows(columns, rows) == FlaggedRows(columns, rows[1..]);
      }
    }
  }

  // ------------------------------------------------------------ paths

  /** `path.parent.parent.name` of a raw partition. */
  function GrandparentName(p: Path): string
  {
    if |p.dirs| >= 2 then p.dirs[|p.dirs| - 2]
    else if |p.dirs| == 1 then RawDirName
    else DataDirName
  }

  /** The endpoint a raw partition belongs to: its directory, or the one
      above it for a period partition. */
  function EndpointOf(p: Path): string
  {
    var parent := ParentName(p);
    if parent == Annual || parent == Quarterly then GrandparentName(p) else parent
  }

  function TickerOf(p: Path): string
  {
    p.stem
  }

  /** The metadata read back from a path is the endpoint and ticker the
      writer put there, for both the unqualified and the period partitions
      (an endpoint is never itself named "annual" or "quarterly"). */
  lemma PathMetadata(endpoint: string, period: string, ticker: string)
    requires endpoint != Annual && endpoint != Quarterly
    ensures EndpointOf(PartitionPath(endpoint, ticker)) == endpoint
    ensures TickerOf(PartitionPath(endpoint, ticker)) == ticker
    ensures period in Periods ==> EndpointOf(PeriodPath(endpoint, period, ticker)) == endpoint
    ensures TickerOf(PeriodPath(endpoint, period, ticker)) == ticker
  {
  }

  /** The suggested re-fetch request. */
  function SuggestedUrl(fn: string, ticker: string): string
  {
    "https://www.alphavantage.co/query?function=" + fn + "&symbol=" + ticker + "&apikey=YOUR_KEY"
  }

  // ------------------------------------------------------------ export_all_failures

  /** One line of the raw-tree failure report. */
  datatype FailureRecord = FailureRecord(ticker: string, endpoint: string, path: Path, url: string, sample: string)

  /** A raw file that yields a record: not a WRDS file, readable, not empty,
      and holding a flagged row. */
  predicate Reported(disk: Disk, p: Path)
  {
    !StartsWith(p.stem + ".parquet", "wrds_") &&
    p in disk && disk[p].Readable? && !IsEmpty(disk[p].t) &&
    FlaggedRows(disk[p].t.columns, disk[p].t.rows) != []
  }

  /** The record of a reported file; the sample is the first cell of the
      stacked table. */
  function RecordOf(p: Path, t: Table): FailureRecord
    requires !IsEmpty(t)
  {
    var endpoint := EndpointOf(p);
    FailureRecord(TickerOf(p), endpoint, p, SuggestedUrl(FunctionName(endpoint), TickerOf(p)),
                  Text(At(t.rows[0], t.columns[0])))
  }

  /** The records of the files of `listing`, in listing order. */
  function FailureRecords(disk: Disk, listing: seq<Path>): seq<FailureRecord>
    decreases |listing|
  {
    if listing == [] then []
    else
      var n := |listing| - 1;
      var p := listing[n];
      FailureRecords(disk, listing[..n]) + RecordsOf(disk, p)
  }

  /** The record one file contributes, if any. */
  function RecordsOf(disk: Disk, p: Path): (r: seq<FailureRecord>)
    ensures PathsOf(r) == if Reported(disk, p) then [p] else []
    ensures forall i :: 0 <= i < |r| ==> Describes(r[i])
  {
    if Reported(disk, p) then [RecordOf(p, disk[p].t)] else []
  }

  function PathsOf(records: seq<FailureRecord>): (r: seq<Path>)
    ensures |r| == |records|
    ensures forall i :: 0 <= i < |records| ==> r[i] == records[i].path
  {
    seq(|records|, i requires 0 <= i < |records| => records[i].path)
  }

  /** A record names the file's stem as ticker, the endpoint read from the
      file's directories, and a URL asking for that endpoint's API function
      and ticker. */
  predicate AllDescribe(rs: seq<FailureRecord>)
  {
    forall i :: 0 <= i < |rs| ==> Describes(rs[i])
  }

  predicate Describes(r: FailureRecord)
  {
    r.ticker == r.path.stem && r.endpoint == EndpointOf(r.path) &&
    r.url == SuggestedUrl(FunctionName(r.endpoint), r.ticker)
  }

  /** The report holds one record per reported file of the listing and
      nothing else: its paths are the reported files in listing order, and
      each record describes its file. */
  lemma FailureRecordsSpec(disk: Disk, listing: seq<Path>)
    ensures var rs := FailureRecords(disk, listing);
      (forall p :: p in PathsOf(rs) <==> p in listing && Reported(disk, p)) &&
      IsSubsequence(PathsOf(rs), listing) &&
      forall i :: 0 <= i < |rs| ==> Describes(rs[i])
  {
    FailureRecordsPaths(disk, listing);
    FailureRecordsDescribe(disk, listing);
  }

  lemma {:induction false} FailureRecordsPaths(disk: Disk, listing: seq<Path>)
    ensures PathsCover(disk, listing, PathsOf(FailureRecords(disk, listing)))
    decreases |listing|
  {
    if listing != [] {
      var n := |listing| - 1;
      FailureRecordsPaths(disk, listing[..n]);
      assert listing == listing[..n] + [listing[n]];
      PathsStep(disk, listing[..n], listing[n]);
    }
  }

  /** `ps` are the reported files of `listing`, in listing order. */
  ghost predicate PathsCover(disk: Disk, listing: seq<Path>, ps: seq<Path>)
  {
    (forall p :: p in ps <==> p in listing && Reported(disk, p)) && IsSubsequence(ps, listing)
  }

  lemma PathsStep(disk: Disk, front: seq<Path>, p: Path)
    requires PathsCover(disk, front, PathsOf(FailureRecords(disk, front)))
    ensures PathsCover(disk, front + [p], PathsOf(FailureRecords(disk, front + [p])))
  {
    assert (front + [p])[..|front|] == front;
    var before := PathsOf(FailureRecords(disk, front));
    var added := PathsOf(RecordsOf(disk, p));
    PathsOfAppend(FailureRecords(disk, front), RecordsOf(disk, p));
    PathsSnoc(disk, front, p, before, added);
    SubsequenceSnoc(before, front, added, p);
  }

  lemma PathsOfAppend(a: seq<FailureRecord>, b: seq<FailureRecord>)
    ensures PathsOf(a + b) == PathsOf(a) + PathsOf(b)
  {
    assert |PathsOf(a + b)| == |PathsOf(a) + PathsOf(b)|;
    forall i | 0 <= i < |a + b|
      ensures PathsOf(a + b)[i] == (PathsOf(a) + PathsOf(b))[i]
    {
      if i >= |a| {
        assert (a + b)[i] == b[i - |a|];
      }
    }
  }

  lemma PathsSnoc(disk: Disk, front: seq<Path>, p: Path, before: seq<Path>, added: seq<Path>)
    requires forall q :: q in before <==> q in front && Reported(disk, q)
    requires added == if Reported(disk, p) then [p] else []
    ensures forall q :: q in before + added <==> q in front + [p] && Reported(disk, q)
  {
  }

  lemma {:induction false} FailureRecordsDescribe(disk: Disk, listing: seq<Path>)
    ensures AllDescribe(FailureRecords(disk, listing))
    decreases |listing|
  {
    if listing != [] {
      var n := |listing| - 1;
      FailureRecordsDescribe(disk, listing[..n]);
      var before := FailureRecords(disk, listing[..n]);
      var added := RecordsOf(disk, listing[n]);
      var rs := before + added;
      assert FailureRecords(disk, listing) == rs;
      forall i | 0 <= i < |rs|
        ensures Describes(rs[i])
      {
        if i < |before| {
          assert rs[i] == before[i];
        } else {
          assert rs[i] == added[i - |before|];
        }
      }
    }
  }

  /** Appending the last element of `s` (or nothing) keeps a subsequence. */
  lemma {:induction false} SubsequenceSnoc<T>(r: seq<T>, s: seq<T>, tail: seq<T>, x: T)
    requires IsSubsequence(r, s)
    requires tail == [] || tail == [x]
    ensures IsSubsequence(r + tail, s + [x])
    decreases |s|
  {
    if s == [] {
      assert r == [];
      if tail == [] {
        assert IsSubsequence(r + tail, (s + [x])[1..]);
      } else {
        assert (r + tail)[1..] == [];
      }
    } else {
      assert (s + [x])[1..] == s[1..] + [x];
      if r != [] && r[0] == s[0] && IsSubsequence(r[1..], s[1..]) {
        SubsequenceSnoc(r[1..], s[1..], tail, x);
        assert (r + tail)[1..] == r[1..] + tail;
      } else {
        SubsequenceSnoc(r, s[1..], tail, x);
      }
    }
  }

  /** `export_all_failures`: the walk over the raw tree's listing. */
  method ExportAllFailures(disk: Disk, listing: seq<Path>) returns (records: seq<FailureRecord>)
    ensures records == FailureRecords(disk, listing)
  {
    records := [];
    var i := 0;
    while i < |listing|
      invariant 0 <= i <= |listing|
      invariant records == FailureRecords(disk, listing[..i])
    {
      var p := listing[i];
      assert listing[..i + 1][..i] == listing[..i];
      i := i + 1;
      if StartsWith(p.stem + ".parquet", "wrds_") {
        continue;
      }
      var read := ReadTable(disk, p);
      if read.Fail? {
        continue;
      }
      var t := read.value;
      if IsEmpty(t) {
        continue;
      }
      if FlaggedRows(t.columns, t.rows) == [] {
        continue;
      }
      records := records + [RecordOf(p, t)];
    }
    assert listing[..i] == listing;
  }

  // ------------------------------------------------------------ worklists

  const FundamentalsDataset := "fundamentals"
  const CompanyOverviewDataset := "company_overview"

  /** `failures[cols]`: a row restricted to some columns. */
  function Restrict(row: Row, cols: seq<string>): (r: Row)
    ensures forall c :: c in r <==> c in row && c in cols
  {
    map c | c in row && c in cols :: row[c]
  }

  /** The identifying columns kept from a fundamentals failure, in the
      table's order. */
  function IdColumns(columns: seq<string>): (r: seq<string>)
    ensures forall c :: c in r <==> c in columns && (c == "ticker" || c == "statement" || c == "symbol")
  {
    Filter(columns, c => c == "ticker" || c == "statement" || c == "symbol")
  }

  /** The ticker cell of a fundamentals worklist row: "ticker", else
      "symbol"; none when the table has neither. */
  function EntryTicker(columns: seq<string>, row: Row): Option<Value>
  {
    if "ticker" in columns then Some(At(row, "ticker"))
    else if "symbol" in columns then Some(At(row, "symbol"))
    else None
  }

  /** The statement cell: "statement", else "function"; none otherwise. */
  function EntryStatement(columns: seq<string>, row: Row): Option<Value>
  {
    if "statement" in columns then Some(At(row, "statement"))
    else if "function" in columns then Some(At(row, "function"))
    else None
  }

  /** `e` is the worklist entry of the flagged row `row` of a table with
      `columns`: the ticker comes from "ticker", else "symbol"; the statement
      from "statement", else "function"; "symbol" is kept; "function" repeats
      the statement (None without one); and the URL requests that function
      for that ticker. */
  ghost predicate IsFundamentalEntry(columns: seq<string>, row: Row, e: Row)
  {
    TickerFrom(columns, row, e) && StatementFrom(columns, row, e) && SymbolKept(columns, row, e) && RequestsFunction(e)
  }

  ghost predicate TickerFrom(columns: seq<string>, row: Row, e: Row)
  {
    ("ticker" in e <==> "ticker" in columns || "symbol" in columns) &&
    ("ticker" in columns ==> e["ticker"] == At(row, "ticker")) &&
    ("ticker" !in columns && "symbol" in columns ==> e["ticker"] == At(row, "symbol"))
  }

  ghost predicate StatementFrom(columns: seq<string>, row: Row, e: Row)
  {
    ("statement" in e <==> "statement" in columns || "function" in columns) &&
    ("statement" in columns ==> e["statement"] == At(row, "statement")) &&
    ("statement" !in columns && "function" in columns ==> e["statement"] == At(row, "function"))
  }

  ghost predicate SymbolKept(columns: seq<string>, row: Row, e: Row)
  {
    ("symbol" in e ==> "symbol" in columns) &&
    ("symbol" in columns ==> At(e, "symbol") == At(row, "symbol"))
  }

  ghost predicate RequestsFunction(e: Row)
  {
    "function" in e && e["function"] == (if "statement" in e then e["statement"] else Cell(JNull)) &&
    "api_url" in e &&
    e["api_url"] == Cell(JStr(SuggestedUrl(Text(e["function"]), Text(if "ticker" in e then e["ticker"] else Cell(JNull)))))
  }

  /** The worklist row of one flagged fundamentals row (`FundamentalEntrySpec`). */
  function FundamentalEntry(columns: seq<string>, row: Row): Row
  {
    var base := Restrict(row, IdColumns(columns));
    var withTicker := match EntryTicker(columns, row) case Some(v) => base["ticker" := v] case None => base;
    var withStatement := match EntryStatement(columns, row) case Some(v) => withTicker["statement" := v] case None => withTicker;
    var fn := match EntryStatement(columns, row) case Some(v) => v case None => Cell(JNull);
    var ticker := match EntryTicker(columns, row) case Some(v) => v case None => Cell(JNull);
    withStatement["function" := fn]["api_url" := Cell(JStr(SuggestedUrl(Text(fn), Text(ticker))))]
  }

  /** The entry of a flagged row carries its ticker, statement and symbol and
      the URL that requests that statement for that ticker. */
  lemma FundamentalEntrySpec(columns: seq<string>, row: Row)
    ensures IsFundamentalEntry(columns, row, FundamentalEntry(columns, row))
  {
    EntryTickerSpec(columns, row);
    EntryStatementSpec(columns, row);
    EntrySymbolSpec(columns, row);
    EntryUrlSpec(columns, row);
  }

  lemma EntryTickerSpec(columns: seq<string>, row: Row)
    ensures TickerFrom(columns, row, FundamentalEntry(columns, row))
  {
  }

  lemma EntryStatementSpec(columns: seq<string>, row: Row)
    ensures StatementFrom(columns, row, FundamentalEntry(columns, row))
  {
  }

  lemma EntrySymbolSpec(columns: seq<string>, row: Row)
    ensures SymbolKept(columns, row, FundamentalEntry(columns, row))
  {
  }

  lemma EntryUrlSpec(columns: seq<string>, row: Row)
    ensures RequestsFunction(FundamentalEntry(columns, row))
  {
  }

  function FundamentalColumns(columns: seq<string>): seq<string>
  {
    var cols := IdColumns(columns);
    cols + (if "ticker" !in cols && "symbol" in columns then ["ticker"] else [])
         + (if "statement" !in cols && "function" in columns then ["statement"] else [])
         + ["function", "api_url"]
  }

  /** `export_fundamental_failures` on the loaded dataset: no worklist when
      nothing is flagged, otherwise one entry per flagged row. */
  function FundamentalWorklist(t: Table): (r: Option<Table>)
    ensures r.None? <==> FlaggedRows(t.columns, t.rows) == []
    ensures r.Some? ==> r.value.columns == FundamentalColumns(t.columns)
    ensures r.Some? ==> |r.value.rows| == |FlaggedRows(t.columns, t.rows)|
    ensures r.Some? ==> forall i :: 0 <= i < |r.value.rows| ==>
      IsFundamentalEntry(t.columns, FlaggedRows(t.columns, t.rows)[i], r.value.rows[i])
  {
    var failures := FlaggedRows(t.columns, t.rows);
    if failures == [] then None
    else
      FundamentalEntries(t.columns, failures);
      Some(Table(FundamentalColumns(t.columns),
                 seq(|failures|, i requires 0 <= i < |failures| => FundamentalEntry(t.columns, failures[i]))))
  }

  lemma FundamentalEntries(columns: seq<string>, rows: seq<Row>)
    ensures forall i :: 0 <= i < |rows| ==> IsFundamentalEntry(columns, rows[i], FundamentalEntry(columns, rows[i]))
  {
    forall i | 0 <= i < |rows| ensures IsFundamentalEntry(columns, rows[i], FundamentalEntry(columns, rows[i])) {
      FundamentalEntrySpec(columns, rows[i]);
    }
  }

  /** The source of the identifying column, when there is one. */
  predicate NamesTicker(columns: seq<string>)
  {
    "ticker" in columns || "symbol" in columns
  }

  function OverviewEntry(ticker: Value): (e: Row)
    ensures e.Keys == {"ticker", "function", "api_url"}
    ensures e["ticker"] == ticker && e["function"] == Cell(JStr("OVERVIEW"))
    ensures e["api_url"] == Cell(JStr(SuggestedUrl("OVERVIEW", Text(ticker))))
  {
    map["ticker" := ticker, "function" := Cell(JStr("OVERVIEW")),
        "api_url" := Cell(JStr(SuggestedUrl("OVERVIEW", Text(ticker))))]
  }

  /** `export_company_overview_failures` on the loaded dataset. The ticker
      comes from "ticker", else from "symbol"; without either column the
      scalar `""` is assigned to a frame that has no rows yet, so the
      worklist is empty. */
  function OverviewWorklist(t: Table): (r: Option<Table>)
    ensures r.None? <==> FlaggedRows(t.columns, t.rows) == []
    ensures r.Some? ==> r.value.columns == ["ticker", "function", "api_url"]
    ensures r.Some? ==> |r.value.rows| == if NamesTicker(t.columns) then |FlaggedRows(t.columns, t.rows)| else 0
    ensures r.Some? ==> forall i :: 0 <= i < |r.value.rows| ==>
      var row, e := FlaggedRows(t.columns, t.rows)[i], r.value.rows[i];
      var ticker := if "ticker" in t.columns then At(row, "ticker") else At(row, "symbol");
      e.Keys == {"ticker", "function", "api_url"} &&
      e["ticker"] == ticker && e["function"] == Cell(JStr("OVERVIEW")) &&
      e["api_url"] == Cell(JStr(SuggestedUrl("OVERVIEW", Text(ticker))))
  {
    var failures := FlaggedRows(t.columns, t.rows);
    if failures == [] then None
    else
      var col := if "ticker" in t.columns then "ticker" else "symbol";
      var n := if NamesTicker(t.columns) then |failures| else 0;
      Some(Table(["ticker", "function", "api_url"],
        seq(n, i requires 0 <= i < n => OverviewEntry(At(failures[i], col)))))
  }

  /** The worklist written from a final dataset: a missing or unreadable
      dataset fails, as `pd.read_parquet` raises. */
  function ExportWorklist(disk: Disk, dataset: string, build: Table -> Option<Table>): (r: Result<Option<Table>>)
    ensures r.Fail? <==> ReadTable(disk, FinalPath(dataset)).Fail?
  {
    match ReadTable(disk, FinalPath(dataset))
    case Fail(e) => Fail(e)
    case Ok(t) => Ok(build(t))
  }

  // ------------------------------------------------------------ refetch_failures

  /** `row.get("ticker") or row.get("symbol")`. */
  function TickerCell(t: Table, row: Row): Value
  {
    var v := RowGet(t, row, "ticker");
    if ValueTruthy(v) then v else RowGet(t, row, "symbol")
  }

  /** The table a worklist row re-fetches, when the row is not skipped and
      nothing raises: the endpoint must be a string (a path is built from
      it), the fetch must succeed and the payload must flatten. */
  function Refetched(api: Provider, t: Table, row: Row): Option<(string, string, Table)>
  {
    var tk := TickerCell(t, row);
    var ep := RowGet(t, row, "function");
    if !ValueTruthy(tk) || !ValueTruthy(ep) || !(ep.Cell? && ep.j.JStr?) then None
    else
      var endpoint := ep.j.s;
      var ticker := Text(tk);
      match api.json(FunctionName(endpoint), Symbol(ticker))
      case Fail(_) => None
      case Ok(payload) =>
        match JsonToDf(payload)
        case Fail(_) => None
        case Ok(df) => Some((endpoint, ticker, df))
  }

  /** The disk after one worklist row: a periodized endpoint is re-split and
      its unqualified partition deleted; any other endpoint's partition is
      overwritten; a skipped or failing row changes nothing. */
  function RefetchRow(api: Provider, disk: Disk, t: Table, row: Row): Disk
  {
    match Refetched(api, t, row)
    case None => disk
    case Some((endpoint, ticker, df)) => Rewrite(disk, endpoint, ticker, df)
  }

  /** The files written for a re-fetched table. */
  function Rewrite(disk: Disk, endpoint: string, ticker: string, df: Table): Disk
  {
    if endpoint in PeriodizedEndpoints then SplitByPeriod(disk, df, endpoint, ticker) - {PartitionPath(endpoint, ticker)}
    else disk[PartitionPath(endpoint, ticker) := Readable(df)]
  }

  function RefetchRows(api: Provider, disk: Disk, t: Table, rows: seq<Row>): Disk
    decreases |rows|
  {
    if rows == [] then disk
    else RefetchRow(api, RefetchRows(api, disk, t, rows[..|rows| - 1]), t, rows[|rows| - 1])
  }

  /** The key `refetch_failures` requires. */
  function KeyName(usePaid: bool): string
  {
    if usePaid then "alphavantage_api_paid" else "alphavantage_api"
  }

  /** `creds.get(key)` on what `load_credentials` returned: a YAML mapping
      and the fallback `key=value` dict answer it; any other document (a
      list, a number, `true`) has no `get` and raises `AttributeError`. */
  function ApiKey(creds: Config.Loaded, usePaid: bool): (r: Result<Option<Json>>)
    ensures r.Fail? <==> creds.Document? && !creds.data.JObj?
    ensures r.Fail? ==> r.error == AttributeError
    ensures r.Ok? && creds.Pairs? ==> (r.value.Some? <==> KeyName(usePaid) in creds.pairs)
    ensures r.Ok? && creds.Document? ==> (r.value.Some? <==> HasKey(creds.data.fields, KeyName(usePaid)))
  {
    match creds
    case Pairs(m) => Ok(if KeyName(usePaid) in m then Some(JStr(m[KeyName(usePaid)])) else None)
    case Document(d) => if d.JObj? then Ok(Lookup(d.fields, KeyName(usePaid))) else Fail(AttributeError)
  }

  /** The whole replay: an empty worklist does nothing and reads no
      credentials; a failed credentials load, a document without `get` or a
      missing or falsy key fails before any request; otherwise every row runs. */
  function Replay(api: Provider, disk: Disk, creds: Result<Config.Loaded>, usePaid: bool, failures: Table): (Disk, Option<Error>)
  {
    if IsEmpty(failures) then (disk, None)
    else if creds.Fail? then (disk, Some(creds.error))
    else
      match ApiKey(creds.value, usePaid)
      case Fail(e) => (disk, Some(e))
      case Ok(key) =>
        if key.None? || !Truthy(key.value) then (disk, Some(ValueError))
        else (RefetchRows(api, disk, failures, failures.rows), None)
  }

  /** The order of the checks: an empty worklist succeeds whatever the
      credentials; otherwise every failure leaves the disk as it was and
      names its cause, and only a truthy key lets the rows run. */
  lemma ReplayOrder(api: Provider, disk: Disk, creds: Result<Config.Loaded>, usePaid: bool, failures: Table)
    ensures IsEmpty(failures) ==> Replay(api, disk, creds, usePaid, failures) == (disk, None)
    ensures Replay(api, disk, creds, usePaid, failures).1.Some? ==> Replay(api, disk, creds, usePaid, failures).0 == disk
    ensures !IsEmpty(failures) && creds.Fail? ==> Replay(api, disk, creds, usePaid, failures) == (disk, Some(creds.error))
    ensures !IsEmpty(failures) && creds.Ok? && creds.value.Document? && !creds.value.data.JObj? ==>
      Replay(api, disk, creds, usePaid, failures) == (disk, Some(AttributeError))
    ensures !IsEmpty(failures) && creds == Ok(Config.Pairs(map[])) ==> Replay(api, disk, creds, usePaid, failures) == (disk, Some(ValueError))
    ensures Replay(api, disk, creds, usePaid, failures).1.None? <==>
      IsEmpty(failures) || (creds.Ok? && ApiKey(creds.value, usePaid).Ok? && ApiKey(creds.value, usePaid).value.Some? && Truthy(ApiKey(creds.value, usePaid).value.value))
    ensures !IsEmpty(failures) && Replay(api, disk, creds, usePaid, failures).1.None? ==>
      Replay(api, disk, creds, usePaid, failures).0 == RefetchRows(api, disk, failures, failures.rows)
  {
  }

  /** With no credentials file at any default location, a non-empty replay
      stops with `FileNotFoundError` before any request. */
  lemma ReplayWithoutCredentials(api: Provider, disk: Disk, files: map<string, string>, yaml: string -> Option<Json>,
                                 base: string, usePaid: bool, failures: Table)
    ensures !IsEmpty(failures) && (forall c :: c in Config.Candidates(base, None) ==> c !in files) ==>
      Replay(api, disk, Config.Load(files, yaml, Config.Candidates(base, None)), usePaid, failures) == (disk, Some(FileNotFound))
  {
    Config.FirstExistingWins(files, yaml, Config.Candidates(base, None));
  }

  /** A replayed row touches only its own endpoint's files for its ticker:
      a periodized endpoint leaves no unqualified partition behind and
      holds the re-split periods, any other endpoint holds the new table. */
  lemma RefetchRowEffect(api: Provider, disk: Disk, t: Table, row: Row)
    ensures Refetched(api, t, row).None? ==> RefetchRow(api, disk, t, row) == disk
    ensures Refetched(api, t, row).Some? ==>
      var (endpoint, ticker, df) := Refetched(api, t, row).value;
      RewriteEffect(disk, endpoint, ticker, df, RefetchRow(api, disk, t, row))
  {
    if Refetched(api, t, row).Some? {
      var (endpoint, ticker, df) := Refetched(api, t, row).value;
      RewriteSpec(disk, endpoint, ticker, df);
    }
  }

  /** What a re-fetched table leaves on the disk `d`. */
  ghost predicate RewriteEffect(disk: Disk, endpoint: string, ticker: string, df: Table, d: Disk)
  {
    (endpoint in PeriodizedEndpoints ==>
      PartitionPath(endpoint, ticker) !in d &&
      forall period :: period in Periods && !IsEmpty(PeriodSubset(df, period)) && PeriodColumn in df.columns ==>
        var p := PeriodPath(endpoint, period, ticker);
        p in d && d[p] == Readable(PeriodSubset(df, period))) &&
    (endpoint !in PeriodizedEndpoints ==>
      PartitionPath(endpoint, ticker) in d && d[PartitionPath(endpoint, ticker)] == Readable(df)) &&
    forall p: Path :: p.stem != ticker || p.dirs == [] || p.dirs[0] != endpoint ==>
      (p in d <==> p in disk) && (p in disk ==> d[p] == disk[p])
  }

  lemma RewriteSpec(disk: Disk, endpoint: string, ticker: string, df: Table)
    ensures RewriteEffect(disk, endpoint, ticker, df, Rewrite(disk, endpoint, ticker, df))
  {
    var d := Rewrite(disk, endpoint, ticker, df);
    if endpoint in PeriodizedEndpoints {
      SplitWrites(disk, df, endpoint, ticker);
      forall period | period in Periods
        ensures PeriodPath(endpoint, period, ticker) != PartitionPath(endpoint, ticker)
      {
        assert |PeriodPath(endpoint, period, ticker).dirs| == 2;
      }
    } else {
      forall p: Path | p.stem != ticker || p.dirs == [] || p.dirs[0] != endpoint
        ensures p != PartitionPath(endpoint, ticker)
      {
      }
    }
  }

  /** A row that is skipped or fails has no effect whatever the disk, so
      the rows after it run exactly as if it were not in the worklist. */
  lemma {:induction false} FailingRowIsolated(api: Provider, disk: Disk, t: Table, rows: seq<Row>, k: nat)
    requires k < |rows| && Refetched(api, t, rows[k]).None?
    ensures RefetchRows(api, disk, t, rows) == RefetchRows(api, disk, t, rows[..k] + rows[k + 1..])
    decreases |rows|
  {
    var n := |rows| - 1;
    assert rows == rows[..n] + [rows[n]];
    if k == n {
      assert rows[..k] + rows[k + 1..] == rows[..n];
      RowsSnoc(api, disk, t, rows[..n], rows[n]);
      SkipRow(api, RefetchRows(api, disk, t, rows[..n]), t, rows[n]);
    } else {
      FailingRowIsolated(api, disk, t, rows[..n], k);
      var rest := rows[..k] + rows[k + 1..];
      var front := rows[..n][..k] + rows[..n][k + 1..];
      assert rest == front + [rows[n]];
      RowsSnoc(api, disk, t, front, rows[n]);
      RowsSnoc(api, disk, t, rows[..n], rows[n]);
    }
  }

  lemma SkipRow(api: Provider, disk: Disk, t: Table, row: Row)
    requires Refetched(api, t, row).None?
    ensures RefetchRow(api, disk, t, row) == disk
  {
  }

  lemma RowsSnoc(api: Provider, disk: Disk, t: Table, rows: seq<Row>, row: Row)
    ensures RefetchRows(api, disk, t, rows + [row]) == RefetchRow(api, RefetchRows(api, disk, t, rows), t, row)
  {
    assert (rows + [row])[..|rows|] == rows;
  }

  lemma RowsStep(api: Provider, disk: Disk, t: Table, rows: seq<Row>, i: nat)
    requires i < |rows|
    ensures RefetchRows(api, disk, t, rows[..i + 1]) == RefetchRow(api, RefetchRows(api, disk, t, rows[..i]), t, rows[i])
  {
    assert rows[..i + 1][..i] == rows[..i];
  }

  /** One worklist row against the store. */
  method RefetchOne(store: Store, api: Provider, t: Table, row: Row)
    modifies store
    ensures store.disk == RefetchRow(api, old(store.disk), t, row)
  {
    var tk := TickerCell(t, row);
    var ep := RowGet(t, row, "function");
    if !ValueTruthy(tk) || !ValueTruthy(ep) {
      return;
    }
    if !(ep.Cell? && ep.j.JStr?) {
      return;
    }
    var endpoint := ep.j.s;
    var ticker := Text(tk);
    var payload := api.json(FunctionName(endpoint), Symbol(ticker));
    if payload.Fail? {
      return;
    }
    var df := JsonToDf(payload.value);
    if df.Fail? {
      return;
    }
    if endpoint in PeriodizedEndpoints {
      store.WriteSplitByPeriod(df.value, endpoint, ticker);
      if PartitionPath(endpoint, ticker) in store.disk {
        store.Unlink(PartitionPath(endpoint, ticker));
      }
    } else {
      store.WriteParquet(df.value, PartitionPath(endpoint, ticker));
    }
  }

  /** `refetch_failures(failures)`: the credentials are loaded, with
      `load_credentials()`'s default candidates under the repository root
      `base`, only once the worklist is known to be non-empty. */
  method RefetchFailures(store: Store, api: Provider, files: map<string, string>, yaml: string -> Option<Json>,
                         base: string, usePaid: bool, failures: Table)
    returns (err: Option<Error>)
    modifies store
    ensures (store.disk, err) == Replay(api, old(store.disk), Config.Load(files, yaml, Config.Candidates(base, None)), usePaid, failures)
  {
    if IsEmpty(failures) {
      return None;
    }
    var creds := Config.LoadCredentials(files, yaml, base, None);
    if creds.Fail? {
      return Some(creds.error);
    }
    var key := ApiKey(creds.value, usePaid);
    if key.Fail? {
      return Some(key.error);
    }
    if key.value.None? || !Truthy(key.value.value) {
      return Some(ValueError);
    }
    var rows := failures.rows;
    var i := 0;
    while i < |rows|
      invariant 0 <= i <= |rows|
      invariant store.disk == RefetchRows(api, old(store.disk), failures, rows[..i])
    {
      RowsStep(api, old(store.disk), failures, rows, i);
      RefetchOne(store, api, failures, rows[i]);
      i := i + 1;
    }
    assert rows[..i] == rows;
    err := None;
  }

  // ------------------------------------------------------------ clean_final_invalid_calls

  /** The final directory so far, the counts removed, and the read error
      that stopped the call, if any. */
  datatype Cleaning = Cleaning(disk: Disk, removed: map<string, nat>, error: Option<Error>)

  function CleanTable(t: Table): Table
  {
    Table(t.columns, KeptRows(t.columns, t.rows))
  }

  /** One dataset: a missing one is skipped, an unreadable one raises, a
      clean one is left alone, and a dirty one is rewritten without its
      flagged rows. */
  function CleanOne(c: Cleaning, name: string): Cleaning
  {
    if c.error.Some? then c
    else
      var p := FinalPath(name);
      if p !in c.disk then c
      else match c.disk[p]
        case Unreadable => Cleaning(c.disk, c.removed, Some(ReadFailure))
        case Readable(t) =>
          var count := |FlaggedRows(t.columns, t.rows)|;
          if count == 0 then c
          else Cleaning(c.disk[p := Readable(CleanTable(t))], c.removed[name := count], None)
  }

  function CleanAll(c: Cleaning, names: seq<string>): Cleaning
    decreases |names|
  {
    if names == [] then c
    else CleanOne(CleanAll(c, names[..|names| - 1]), names[|names| - 1])
  }

  predicate UnreadableAt(disk: Disk, name: string)
  {
    FinalPath(name) in disk && disk[FinalPath(name)].Unreadable?
  }

  /** The number of flagged rows of a readable dataset (0 otherwise). */
  function FlaggedCount(disk: Disk, name: string): nat
  {
    if FinalPath(name) in disk && disk[FinalPath(name)].Readable? then
      var t := disk[FinalPath(name)].t;
      |FlaggedRows(t.columns, t.rows)|
    else 0
  }

  function CleanedFile(f: File): File
  {
    match f
    case Readable(t) => Readable(CleanTable(t))
    case Unreadable => Unreadable
  }

  /** Over distinct dataset names: the call fails exactly when one of them
      is unreadable; otherwise the datasets reported are exactly those with
      flagged rows, each with the number of rows it lost, and only they are
      rewritten (without their flagged rows); every other file is as it
      was. */
  lemma {:induction false} CleanAllSpec(disk: Disk, names: seq<string>)
    requires forall i, j :: 0 <= i < j < |names| ==> names[i] != names[j]
    ensures var r := CleanAll(Cleaning(disk, map[], None), names);
      (r.error.None? <==> forall x :: x in names ==> !UnreadableAt(disk, x)) &&
      (r.error.None? ==> CleanedAs(disk, names, r))
    decreases |names|
  {
    if names != [] {
      var n := |names| - 1;
      var x := names[n];
      CleanAllSpec(disk, names[..n]);
      assert names == names[..n] + [x];
      assert x !in names[..n];
      CleanStep(disk, names[..n], x, CleanAll(Cleaning(disk, map[], None), names[..n]));
    }
  }

  /** After the datasets `names`: the datasets reported are exactly those
      with flagged rows, each with the number of rows it lost, and only they
      are rewritten (without their flagged rows); every other file is as it
      was. */
  ghost predicate CleanedAs(disk: Disk, names: seq<string>, r: Cleaning)
  {
    (forall x :: x in r.removed <==> x in names && FlaggedCount(disk, x) > 0) &&
    (forall x :: x in r.removed ==> r.removed[x] == FlaggedCount(disk, x)) &&
    (forall p :: p in r.disk <==> p in disk) &&
    (forall p :: p in disk ==>
      r.disk[p] == if p.dirs == [] && p.stem in r.removed then CleanedFile(disk[p]) else disk[p])
  }

  /** One more dataset, not among those already cleaned. */
  lemma CleanStep(disk: Disk, front: seq<string>, x: string, before: Cleaning)
    requires x !in front
    requires before.error.None? <==> forall y :: y in front ==> !UnreadableAt(disk, y)
    requires before.error.None? ==> CleanedAs(disk, front, before)
    ensures var r := CleanOne(before, x);
      (r.error.None? <==> forall y :: y in front + [x] ==> !UnreadableAt(disk, y)) &&
      (r.error.None? ==> CleanedAs(disk, front + [x], r))
  {
    assert forall y :: y in front + [x] <==> y in front || y == x;
    if before.error.None? {
      var p := FinalPath(x);
      if p in disk {
        assert before.disk[p] == disk[p];
      }
      if CleanOne(before, x).error.None? {
        CleanStepOk(disk, front, x, before);
      }
    }
  }

  lemma CleanStepOk(disk: Disk, front: seq<string>, x: string, before: Cleaning)
    requires x !in front && before.error.None? && CleanedAs(disk, front, before)
    requires CleanOne(before, x).error.None?
    ensures CleanedAs(disk, front + [x], CleanOne(before, x))
  {
    var p := FinalPath(x);
    assert forall y :: y in front + [x] <==> y in front || y == x;
    assert x !in before.removed;
    if FlaggedCount(disk, x) == 0 {
      assert CleanOne(before, x) == before;
    } else {
      assert before.disk[p] == disk[p];
      var t := disk[p].t;
      var r := Cleaning(before.disk[p := Readable(CleanTable(t))], before.removed[x := FlaggedCount(disk, x)], None);
      assert CleanOne(before, x) == r;
      CleanDiskStep(disk, before.removed, before.disk, x);
    }
  }

  /** The files after rewriting dataset `x` as well. */
  lemma CleanDiskStep(disk: Disk, removed: map<string, nat>, d: Disk, x: string)
    requires forall p :: p in d <==> p in disk
    requires forall p :: p in disk ==>
      d[p] == if p.dirs == [] && p.stem in removed then CleanedFile(disk[p]) else disk[p]
    requires FinalPath(x) in disk && disk[FinalPath(x)].Readable? && x !in removed
    ensures var d' := d[FinalPath(x) := CleanedFile(disk[FinalPath(x)])];
      var removed' := removed[x := FlaggedCount(disk, x)];
      (forall p :: p in d' <==> p in disk) &&
      forall p :: p in disk ==>
        d'[p] == if p.dirs == [] && p.stem in removed' then CleanedFile(disk[p]) else disk[p]
  {
    var p := FinalPath(x);
    forall q | q in disk && q != p
      ensures q.dirs == [] ==> q.stem != x
    {
    }
  }

  /** The dataset a name is cleaned from keeps exactly its unflagged rows,
      in order, and loses as many rows as it had flagged. */
  lemma CleanTableRows(t: Table)
    ensures CleanTable(t).columns == t.columns
    ensures IsSubsequence(CleanTable(t).rows, t.rows)
    ensures |CleanTable(t).rows| + |FlaggedRows(t.columns, t.rows)| == |t.rows|
    ensures forall row :: row in CleanTable(t).rows <==> row in t.rows && !RowFlagged(t.columns, row)
  {
    FlagSplit(t.columns, t.rows);
  }

  /** `clean_final_invalid_calls(dataset)`, given the stems of the final
      directory's listing. */
  method CleanFinalInvalidCalls(store: Store, dataset: string, stems: seq<string>)
    returns (removed: map<string, nat>, err: Option<Error>)
    modifies store
    ensures Cleaning(store.disk, removed, err) ==
            CleanAll(Cleaning(old(store.disk), map[], None), Selection(dataset, stems))
  {
    var names := Selection(dataset, stems);
    ghost var c0 := Cleaning(store.disk, map[], None);
    removed := map[];
    var i := 0;
    while i < |names|
      invariant 0 <= i <= |names|
      invariant CleanAll(c0, names[..i]) == Cleaning(store.disk, removed, None)
    {
      var name := names[i];
      assert names[..i + 1][..i] == names[..i];
      var read := store.ReadParquet(FinalPath(name));
      if read.Fail? && read.error == FileNotFound {
        i := i + 1;
        continue;
      }
      if read.Fail? {
        CleanStops(c0, names, i + 1);
        return removed, Some(ReadFailure);
      }
      var t := read.value;
      var count := |FlaggedRows(t.columns, t.rows)|;
      i := i + 1;
      if count == 0 {
        continue;
      }
      store.WriteParquet(CleanTable(t), FinalPath(name));
      removed := removed[name := count];
    }
    assert names[..i] == names;
    err := None;
  }

  /** Once a read has failed, the later datasets are not visited. */
  lemma {:induction false} CleanStops(c: Cleaning, names: seq<string>, k: nat)
    requires k <= |names| && CleanAll(c, names[..k]).error.Some?
    ensures CleanAll(c, names) == CleanAll(c, names[..k])
    decreases |names|
  {
    if k < |names| {
      var n := |names| - 1;
      assert names[..n][..k] == names[..k];
      CleanStops(c, names[..n], k);
    } else {
      assert names[..k] == names;
    }
  }
}

=== FILE: finaldata.dfy ===
/** Reading the final dataset back (final_data.py): the final price table,
    narrowed to the requested tickers and to an inclusive date range, each
    filter applied only when it is given. */
module FinalData {
  import opened Wrappers
  import opened Frame
  import opened Storage
  import opened Transform

  /** One of the masks `get_final_data` applies. */
  datatype Cond = InTickers(tickers: set<string>) | From(start: Date) | Until(end: Date)

  /** The column a mask reads. */
  function ColumnOf(cond: Cond): string
  {
    if cond.InTickers? then "Ticker" else "Date"
  }

  /** The mask on one cell. `isin` never raises; a date comparison is false
      on a missing value and raises on a value that is not a date. */
  function Test(cond: Cond, v: Value): (r: Result<bool>)
    ensures r.Fail? ==> r.error == TypeError && !cond.InTickers?
    ensures r == Ok(true) <==> match cond
      case InTickers(s) => v.Cell? && v.j.JStr? && v.j.s in s
      case From(d) => v.Day? && v.date >= d
      case Until(d) => v.Day? && v.date <= d
  {
    match cond
    case InTickers(s) => Ok(v.Cell? && v.j.JStr? && v.j.s in s)
    case From(d) =>
      if v.Day? then Ok(v.date >= d) else if IsMissing(v) then Ok(false) else Fail(TypeError)
    case Until(d) =>
      if v.Day? then Ok(v.date <= d) else if IsMissing(v) then Ok(false) else Fail(TypeError)
  }

  predicate Passes(cond: Cond, row: Row)
  {
    Test(cond, At(row, ColumnOf(cond))) == Ok(true)
  }

  /** `df[mask]`: the rows the mask keeps, in order; any cell the mask cannot
      compare makes the whole expression raise. */
  function Apply(rows: seq<Row>, cond: Cond): (r: Result<seq<Row>>)
    ensures r.Fail? <==> exists i :: 0 <= i < |rows| && Test(cond, At(rows[i], ColumnOf(cond))).Fail?
    ensures r.Fail? ==> r.error == TypeError
    ensures r.Ok? ==> IsSubsequence(r.value, rows)
    ensures r.Ok? ==> forall row :: row in r.value <==> row in rows && Passes(cond, row)
  {
    if rows == [] then Ok([])
    else
      match Test(cond, At(rows[0], ColumnOf(cond)))
      case Fail(e) => Fail(e)
      case Ok(keep) =>
        var rest := Apply(rows[1..], cond);
        assert forall i :: 1 <= i < |rows| ==> rows[i] == rows[1..][i - 1];
        if rest.Fail? then
          assert exists i :: 0 <= i < |rows| && Test(cond, At(rows[i], ColumnOf(cond))).Fail? by {
            var i :| 0 <= i < |rows[1..]| && Test(cond, At(rows[1..][i], ColumnOf(cond))).Fail?;
            assert rows[i + 1] == rows[1..][i];
          }
          Fail(rest.error)
        else
          var r := (if keep then [rows[0]] else []) + rest.value;
          assert keep ==> r[1..] == rest.value;
          assert !keep ==> r == rest.value;
          assert forall row :: row in rows <==> row == rows[0] || row in rows[1..];
          Ok(r)
  }

  /** One optional filter on a table: absent, it leaves the table alone; its
      column missing raises `KeyError`. */
  function Narrow(t: Table, cond: Option<Cond>): (r: Result<Table>)
    ensures cond.None? ==> r == Ok(t)
    ensures r.Ok? ==> r.value.columns == t.columns && IsSubsequence(r.value.rows, t.rows)
    ensures r.Ok? && cond.Some? ==> forall row :: row in r.value.rows <==> row in t.rows && Passes(cond.value, row)
    ensures cond.Some? && ColumnOf(cond.value) !in t.columns ==> r == Fail(KeyError)
  {
    match cond
    case None => SubsequenceRefl(t.rows); Ok(t)
    case Some(c) =>
      if ColumnOf(c) !in t.columns then Fail(KeyError)
      else match Apply(t.rows, c)
        case Fail(e) => Fail(e)
        case Ok(rows) => Ok(Table(t.columns, rows))
  }

  /** The masks a call asks for: tickers when the list is not empty, then the
      start and the end date when given. */
  function TickerCond(tickers: seq<string>): Option<Cond>
  {
    if tickers == [] then None else Some(InTickers(set x | x in tickers))
  }

  function StartCond(start: Option<Date>): Option<Cond>
  {
    match start case None => None case Some(d) => Some(From(d))
  }

  function EndCond(end: Option<Date>): Option<Cond>
  {
    match end case None => None case Some(d) => Some(Until(d))
  }

  /** A row the call returns: its ticker is one asked for (when any are), and
      its date lies within the inclusive bounds given. */
  predicate Selected(row: Row, tickers: seq<string>, start: Option<Date>, end: Option<Date>)
  {
    (tickers == [] || (At(row, "Ticker").Cell? && At(row, "Ticker").j.JStr? && At(row, "Ticker").j.s in tickers)) &&
    (start.None? || (At(row, "Date").Day? && At(row, "Date").date >= start.value)) &&
    (end.None? || (At(row, "Date").Day? && At(row, "Date").date <= end.value))
  }

  /** `get_final_data(tickers, start_date, end_date)` over the final
      dataset's file. */
  function GetFinalData(disk: Disk, tickers: seq<string>, start: Option<Date>, end: Option<Date>): Result<Table>
  {
    match ReadTable(disk, FinalPath(PriceDaily))
    case Fail(e) => Fail(e)
    case Ok(t) =>
      match Narrow(t, TickerCond(tickers))
      case Fail(e) => Fail(e)
      case Ok(a) =>
        match Narrow(a, StartCond(start))
        case Fail(e) => Fail(e)
        case Ok(b) => Narrow(b, EndCond(end))
  }

  /** The result keeps the stored columns and is an order-preserving
      subsequence of the stored rows holding exactly the selected ones. */
  lemma GetFinalDataSpec(disk: Disk, tickers: seq<string>, start: Option<Date>, end: Option<Date>)
    requires GetFinalData(disk, tickers, start, end).Ok?
    ensures var t := ReadTable(disk, FinalPath(PriceDaily));
      var r := GetFinalData(disk, tickers, start, end).value;
      t.Ok? && r.columns == t.value.columns && IsSubsequence(r.rows, t.value.rows) &&
      forall row :: row in r.rows <==> row in t.value.rows && Selected(row, tickers, start, end)
  {
    var t := ReadTable(disk, FinalPath(PriceDaily)).value;
    var a := Narrow(t, TickerCond(tickers)).value;
    var b := Narrow(a, StartCond(start)).value;
    var r := Narrow(b, EndCond(end)).value;
    SubsequenceTrans(b.rows, a.rows, t.rows);
    SubsequenceTrans(r.rows, b.rows, t.rows);
    forall row
      ensures row in a.rows <==> (row in t.rows && (tickers == [] ||
        (At(row, "Ticker").Cell? && At(row, "Ticker").j.JStr? && At(row, "Ticker").j.s in tickers)))
    {
    }
  }

  /** With no filter the whole stored table comes back. */
  lemma NoFilters(disk: Disk)
    ensures GetFinalData(disk, [], None, None) == ReadTable(disk, FinalPath(PriceDaily))
  {
  }

  /** Asking for tickers of a table without a `Ticker` column, or for a date
      bound of one without a `Date` column, raises `KeyError`. */
  lemma MissingColumn(disk: Disk, tickers: seq<string>, start: Option<Date>, end: Option<Date>)
    requires ReadTable(disk, FinalPath(PriceDaily)).Ok?
    requires var cols := ReadTable(disk, FinalPath(PriceDaily)).value.columns;
      (tickers != [] && "Ticker" !in cols) || ((start.Some? || end.Some?) && "Date" !in cols)
    ensures GetFinalData(disk, tickers, start, end) == Fail(KeyError)
  {
  }

  lemma SubsequenceRefl<T>(s: seq<T>)
    ensures IsSubsequence(s, s)
  {
  }

  /** A subsequence of a subsequence is a subsequence. */
  lemma {:induction false} SubsequenceTrans<T>(a: seq<T>, b: seq<T>, c: seq<T>)
    requires IsSubsequence(a, b) && IsSubsequence(b, c)
    ensures IsSubsequence(a, c)
    decreases |c|
  {
    if c != [] {
      if IsSubsequence(b, c[1..]) {
        SubsequenceTrans(a, b, c[1..]);
      } else {
        assert b != [] && b[0] == c[0] && IsSubsequence(b[1..], c[1..]);
        if a != [] && a[0] == b[0] && IsSubsequence(a[1..], b[1..]) {
          SubsequenceTrans(a[1..], b[1..], c[1..]);
        } else {
          SubsequenceTrans(a, b[1..], c[1..]);
        }
      }
    }
  }
}

=== FILE: frame.dfy ===
/** The values the pipeline moves around: deserialised provider payloads
    (`Json`), DataFrame cells (`Value`), ordered records (a Python dict being
    built by assignments) and tables (a DataFrame: ordered columns and rows).
    The library parsers and coercions the source calls are not modelled: they
    are the fields of a `Parsers` value that every caller passes in. */
module Frame {
  import opened Wrappers
  import opened Strings

  /** A calendar day as a day number; 0 is 1970-01-01. */
  type Date = int

  /** A deserialised JSON or Python-literal payload. Objects keep their key
      order, as Python dicts do. A number is Python's `int` or `float` by its
      value (a float is a finite real). */
  datatype Json =
    | JNull
    | JBool(b: bool)
    | JNum(n: real)
    | JStr(s: string)
    | JList(items: seq<Json>)
    | JObj(fields: seq<(string, Json)>)

  /** Python truthiness (`if x:` / `x or y`). */
  predicate Truthy(j: Json)
  {
    match j
    case JNull => false
    case JBool(b) => b
    case JNum(n) => n != 0.0
    case JStr(s) => s != []
    case JList(xs) => xs != []
    case JObj(fs) => fs != []
  }

  /** `d.get(k)` on a dict: the value stored under `k`. */
  function Lookup(fields: seq<(string, Json)>, k: string): (r: Option<Json>)
    ensures r.Some? <==> exists i :: 0 <= i < |fields| && fields[i].0 == k
  {
    if fields == [] then None
    else if fields[0].0 == k then Some(fields[0].1)
    else
      var r := Lookup(fields[1..], k);
      assert forall i :: 0 < i < |fields| ==> fields[i] == fields[1..][i - 1];
      r
  }

  predicate HasKey(fields: seq<(string, Json)>, k: string)
  {
    Lookup(fields, k).Some?
  }

  /** `d.get(k)`: None when absent. */
  function GetOrNull(fields: seq<(string, Json)>, k: string): Json
  {
    match Lookup(fields, k) case Some(v) => v case None => JNull
  }

  /** A DataFrame cell: pandas' NaN/NaT, a `datetime.date`, or a Python value
      (`Cell(JNull)` is `None`). */
  datatype Value = NaN | Day(date: Date) | Cell(j: Json)

  /** `pd.isna`. */
  predicate IsMissing(v: Value)
  {
    v.NaN? || v == Cell(JNull)
  }

  /** Python truthiness of a cell; NaN is truthy in Python. */
  predicate ValueTruthy(v: Value)
  {
    match v
    case NaN => true
    case Day(_) => true
    case Cell(j) => Truthy(j)
  }

  // ------------------------------------------------------------ records

  /** A dict built up by `rec[k] = v`: keys in insertion order. */
  type Record = seq<(string, Value)>

  function KeysOf(rec: Record): (r: seq<string>)
    ensures |r| == |rec|
    ensures forall i :: 0 <= i < |rec| ==> r[i] == rec[i].0
  {
    if rec == [] then [] else [rec[0].0] + KeysOf(rec[1..])
  }

  function Get(rec: Record, k: string): (r: Option<Value>)
    ensures r.Some? <==> k in KeysOf(rec)
  {
    if rec == [] then None
    else if rec[0].0 == k then Some(rec[0].1)
    else Get(rec[1..], k)
  }

  /** `rec[k] = v`: an existing key keeps its place, a new key goes last. */
  function Put(rec: Record, k: string, v: Value): (r: Record)
    ensures Get(r, k) == Some(v)
    ensures forall j :: j != k ==> Get(r, j) == Get(rec, j)
    ensures KeysOf(r) == if k in KeysOf(rec) then KeysOf(rec) else KeysOf(rec) + [k]
  {
    if rec == [] then [(k, v)]
    else
      assert rec == [rec[0]] + rec[1..];
      KeysOfCons(rec[0], rec[1..]);
      if rec[0].0 == k then
        var r := [(k, v)] + rec[1..];
        KeysOfCons((k, v), rec[1..]);
        GetCons((k, v), rec[1..], k);
        forall j | j != k
          ensures Get(r, j) == Get(rec, j)
        {
          GetCons((k, v), rec[1..], j);
          GetCons(rec[0], rec[1..], j);
        }
        r
      else
        var tail := Put(rec[1..], k, v);
        var r := [rec[0]] + tail;
        KeysOfCons(rec[0], tail);
        GetCons(rec[0], tail, k);
        forall j | j != k
          ensures Get(r, j) == Get(rec, j)
        {
          GetCons(rec[0], tail, j);
          GetCons(rec[0], rec[1..], j);
        }
        r
  }

  lemma KeysOfCons(a: (string, Value), t: Record)
    ensures KeysOf([a] + t) == [a.0] + KeysOf(t)
  {
    assert ([a] + t)[1..] == t;
  }

  lemma GetCons(a: (string, Value), t: Record, j: string)
    ensures Get([a] + t, j) == if a.0 == j then Some(a.1) else Get(t, j)
  {
    assert ([a] + t)[1..] == t;
  }

  // ------------------------------------------------------------ tables

  type Row = map<string, Value>

  /** A DataFrame. A row that lacks a column holds NaN there. */
  datatype Table = Table(columns: seq<string>, rows: seq<Row>)

  /** The cell of `row` in column `c` (NaN when absent). */
  function At(row: Row, c: string): Value
  {
    if c in row then row[c] else NaN
  }

  /** `row.get(c)` on a row of `t`: None when `t` has no such column. */
  function RowGet(t: Table, row: Row, c: string): Value
  {
    if c in t.columns then At(row, c) else Cell(JNull)
  }

  /** `df.empty`: no rows, or no columns. */
  predicate IsEmpty(t: Table)
  {
    |t.rows| == 0 || |t.columns| == 0
  }

  const EmptyTable := Table([], [])

  /** `pd.DataFrame({col: [v]})`. */
  function SingleCell(col: string, v: Value): (t: Table)
    ensures t.columns == [col] && |t.rows| == 1 && At(t.rows[0], col) == v
  {
    Table([col], [map[col := v]])
  }

  /** `cols` followed by the names of `more` not already present, in order. */
  function AddNames(cols: seq<string>, more: seq<string>): (r: seq<string>)
    ensures forall c :: c in r <==> c in cols || c in more
    ensures |cols| <= |r| && r[..|cols|] == cols
    decreases |more|
  {
    if more == [] then cols
    else if more[0] in cols then AddNames(cols, more[1..])
    else
      var r := AddNames(cols + [more[0]], more[1..]);
      assert (cols + [more[0]])[..|cols|] == cols;
      r
  }

  /** Adding one more name at the end appends it unless it is already there. */
  lemma {:induction false} AddNamesSnoc(cols: seq<string>, more: seq<string>, x: string)
    ensures AddNames(cols, more + [x]) ==
      var a := AddNames(cols, more); if x in a then a else a + [x]
    decreases |more|
  {
    if more != [] {
      assert (more + [x])[1..] == more[1..] + [x];
      if more[0] in cols {
        AddNamesSnoc(cols, more[1..], x);
      } else {
        AddNamesSnoc(cols + [more[0]], more[1..], x);
      }
    }
  }

  function ColumnsOf(recs: seq<Record>): (r: seq<string>)
    ensures forall c :: c in r <==> exists i :: 0 <= i < |recs| && c in KeysOf(recs[i])
  {
    if recs == [] then []
    else
      var r := AddNames(ColumnsOf(recs[..|recs| - 1]), KeysOf(recs[|recs| - 1]));
      assert forall i :: 0 <= i < |recs| - 1 ==> recs[..|recs| - 1][i] == recs[i];
      r
  }

  function RowOf(rec: Record): (r: Row)
    ensures forall k :: k in r <==> k in KeysOf(rec)
    ensures forall k :: k in r ==> Get(rec, k) == Some(r[k])
  {
    map k | k in KeysOf(rec) :: Get(rec, k).value
  }

  /** `pd.DataFrame(records)`: one row per record, columns in order of first
      appearance. */
  function FromRecords(recs: seq<Record>): (t: Table)
    ensures |t.rows| == |recs|
    ensures forall i :: 0 <= i < |recs| ==> t.rows[i] == RowOf(recs[i])
  {
    Table(ColumnsOf(recs), seq(|recs|, i requires 0 <= i < |recs| => RowOf(recs[i])))
  }

  /** `df[c] = v` with a scalar `v`. */
  function SetColumn(t: Table, c: string, v: Value): (r: Table)
    ensures c in r.columns && |r.rows| == |t.rows|
    ensures forall x :: x in r.columns <==> x in t.columns || x == c
    ensures forall i :: 0 <= i < |t.rows| ==> r.rows[i] == t.rows[i][c := v]
  {
    Table(if c in t.columns then t.columns else t.columns + [c],
          seq(|t.rows|, i requires 0 <= i < |t.rows| => t.rows[i][c := v]))
  }

  /** `df.drop(columns=[c], errors="ignore")`. */
  function DropColumn(t: Table, c: string): (r: Table)
    ensures c !in r.columns && |r.rows| == |t.rows|
    ensures forall x :: x in r.columns <==> x in t.columns && x != c
    ensures forall i :: 0 <= i < |t.rows| ==> r.rows[i] == t.rows[i] - {c}
  {
    Table(Filter(t.columns, x => x != c),
          seq(|t.rows|, i requires 0 <= i < |t.rows| => t.rows[i] - {c}))
  }

  /** `pd.concat([a, b], ignore_index=True)`. */
  function Concat(a: Table, b: Table): (r: Table)
    ensures r.rows == a.rows + b.rows
    ensures forall c :: c in r.columns <==> c in a.columns || c in b.columns
  {
    Table(AddNames(a.columns, b.columns), a.rows + b.rows)
  }

  /** `df[mask]` with the mask `keep`. */
  function Where(t: Table, keep: Row -> bool): (r: Table)
    ensures r.columns == t.columns
    ensures forall row :: row in r.rows <==> row in t.rows && keep(row)
    ensures IsSubsequence(r.rows, t.rows)
  {
    FilterIsSubsequence(t.rows, keep);
    Table(t.columns, Filter(t.rows, keep))
  }

  // ------------------------------------------------------------ filtering

  function Filter<T(==,!new)>(s: seq<T>, f: T -> bool): (r: seq<T>)
    ensures |r| <= |s|
    ensures forall x :: x in r <==> x in s && f(x)
    ensures forall i :: 0 <= i < |r| ==> f(r[i])
  {
    if s == [] then [] else (if f(s[0]) then [s[0]] else []) + Filter(s[1..], f)
  }

  /** Prepending an element and its image keeps `ys` the pointwise image of `xs` under `g`. */
  lemma PointwiseCons<T, U>(x: T, xs: seq<T>, ys: seq<U>, g: T -> U)
    requires |ys| == |xs| && forall i :: 0 <= i < |xs| ==> ys[i] == g(xs[i])
    ensures forall i :: 0 <= i < |xs| + 1 ==> ([g(x)] + ys)[i] == g(([x] + xs)[i])
  {
    forall i | 0 <= i < |xs| + 1 ensures ([g(x)] + ys)[i] == g(([x] + xs)[i]) {
      if i > 0 {
        assert ([g(x)] + ys)[i] == ys[i - 1] && ([x] + xs)[i] == xs[i - 1];
      }
    }
  }

  /** Some element of `xs` maps to `Some(y)` under `g`. */
  predicate Produces<T, U(==)>(xs: seq<T>, g: T -> Option<U>, y: U)
  {
    exists i :: 0 <= i < |xs| && g(xs[i]) == Some(y)
  }

  /** What a non-empty sequence produces is what its head or its tail produces. */
  lemma ProducesCons<T, U>(xs: seq<T>, g: T -> Option<U>)
    requires xs != []
    ensures forall y :: Produces(xs, g, y) <==> g(xs[0]) == Some(y) || Produces(xs[1..], g, y)
  {
    forall y
      ensures Produces(xs, g, y) <==> g(xs[0]) == Some(y) || Produces(xs[1..], g, y)
    {
      if Produces(xs, g, y) {
        var i :| 0 <= i < |xs| && g(xs[i]) == Some(y);
        if i > 0 {
          assert xs[1..][i - 1] == xs[i];
        }
      }
      if Produces(xs[1..], g, y) {
        var i :| 0 <= i < |xs[1..]| && g(xs[1..][i]) == Some(y);
        assert xs[i + 1] == xs[1..][i];
      }
    }
  }

  /** `r` is `s` with some elements left out, the rest in their order. */
  predicate IsSubsequence<T(==)>(r: seq<T>, s: seq<T>)
  {
    if s == [] then r == []
    else (r != [] && r[0] == s[0] && IsSubsequence(r[1..], s[1..])) || IsSubsequence(r, s[1..])
  }

  lemma {:induction false} FilterIsSubsequence<T(!new)>(s: seq<T>, f: T -> bool)
    ensures IsSubsequence(Filter(s, f), s)
  {
    if s != [] {
      FilterIsSubsequence(s[1..], f);
      if f(s[0]) {
        assert Filter(s, f)[1..] == Filter(s[1..], f);
      } else {
        assert Filter(s, f) == Filter(s[1..], f);
      }
    }
  }

  /** Rows kept plus rows dropped are all rows: a mask's count is the number
      of rows it removes. */
  lemma {:induction false} FilterSplit<T(!new)>(s: seq<T>, f: T -> bool)
    ensures |Filter(s, f)| + |Filter(s, x => !f(x))| == |s|
  {
    if s != [] {
      FilterSplit(s[1..], f);
    }
  }

  /** The number of elements of `s` that satisfy `f`. */
  function Count<T(==,!new)>(s: seq<T>, f: T -> bool): nat
  {
    |Filter(s, f)|
  }

  lemma {:induction false} CountPositive<T(!new)>(s: seq<T>, f: T -> bool)
    ensures Count(s, f) > 0 <==> exists x :: x in s && f(x)
  {
    if s != [] {
      CountPositive(s[1..], f);
      assert forall x :: x in s <==> x == s[0] || x in s[1..];
    }
  }

  // ------------------------------------------------------------ str()

  /** A two-digit or four-digit zero-padded number. */
  function Pad(s: string, width: nat): string
    decreases width - |s|
  {
    if |s| >= width then s else Pad("0" + s, width)
  }

  /** `str(d)` for a `datetime.date`: ISO `YYYY-MM-DD`, computed with the
      proleptic Gregorian calendar (days-to-civil conversion). */
  function IsoDate(d: Date): string
  {
    var z := d + 719468;
    var era := z / 146097;
    var doe := z - era * 146097;
    var yoe := (doe - doe / 1460 + doe / 36524 - doe / 146096) / 365;
    var doy := doe - (365 * yoe + yoe / 4 - yoe / 100);
    var mp := (5 * doy + 2) / 153;
    var day := doy - (153 * mp + 2) / 5 + 1;
    var month := if mp < 10 then mp + 3 else mp - 9;
    var year := yoe + era * 400 + (if month <= 2 then 1 else 0);
    Pad(IntToString(year), 4) + "-" + Pad(IntToString(month), 2) + "-" + Pad(IntToString(day), 2)
  }

  function Join(parts: seq<string>, sep: string): string
  {
    if parts == [] then "" else if |parts| == 1 then parts[0] else parts[0] + sep + Join(parts[1..], sep)
  }

  /** `repr(j)`; string escapes are not modelled. */
  function Repr(j: Json): string
    decreases j, 1
  {
    match j
    case JStr(s) => "'" + s + "'"
    case _ => Render(j)
  }

  /** `str(j)`. */
  function Render(j: Json): string
    decreases j, 0
  {
    match j
    case JNull => "None"
    case JBool(b) => if b then "True" else "False"
    case JNum(n) => NumberText(n)
    case JStr(s) => s
    case JList(items) => "[" + Join(seq(|items|, i requires 0 <= i < |items| => Repr(items[i])), ", ") + "]"
    case JObj(fields) =>
      "{" + Join(seq(|fields|, i requires 0 <= i < |fields| => "'" + fields[i].0 + "': " + Repr(fields[i].1)), ", ") + "}"
  }

  /** `str(n)` of a number: a whole number prints as its digits; any other
      prints its whole part, a point and its fraction digits, at most 17 of
      them. */
  function NumberText(n: real): string
  {
    if n < 0.0 then "-" + UnsignedText(-n) else UnsignedText(n)
  }

  function UnsignedText(x: real): string
    requires x >= 0.0
  {
    var whole := x.Floor;
    var fraction := x - whole as real;
    if fraction == 0.0 then NatToString(whole) else NatToString(whole) + "." + FractionDigits(fraction, 17)
  }

  /** The first `k` decimal digits of `f`, stopping early once the rest is 0. */
  function FractionDigits(f: real, k: nat): (r: string)
    requires 0.0 <= f < 1.0
    ensures |r| <= k && forall i :: 0 <= i < |r| ==> IsDigit(r[i])
    decreases k
  {
    if k == 0 || f == 0.0 then ""
    else
      var d := (f * 10.0).Floor;
      assert 0 <= d < 10;
      [('0' as int + d) as char] + FractionDigits(f * 10.0 - d as real, k - 1)
  }

  /** A whole number prints as the integer it is, sign included. */
  lemma WholeNumberText(n: int)
    ensures NumberText(n as real) == IntToString(n)
  {
    if n < 0 {
      assert -(n as real) == (-n) as real;
      WholeUnsignedText(-n);
    } else {
      WholeUnsignedText(n);
    }
  }

  lemma WholeUnsignedText(k: nat)
    ensures UnsignedText(k as real) == NatToString(k)
  {
    assert (k as real).Floor == k;
  }

  /** `str(v)`, as `df.astype(str)` produces it. */
  function Text(v: Value): string
  {
    match v
    case NaN => "nan"
    case Day(d) => IsoDate(d)
    case Cell(j) => Render(j)
  }

  // ------------------------------------------------------------ library parsers

  /** The library parsers and coercions, left uninterpreted. */
  datatype Parsers = Parsers(
    json: string -> Option<Json>,      // json.loads; None = JSONDecodeError
    literal: string -> Option<Json>,   // ast.literal_eval; None = any exception
    csv: string -> Option<Table>,      // pd.read_csv(StringIO(text)); None = any exception
    date: Json -> Option<Date>,        // pd.to_datetime(x).date() of a non-null value
    number: string -> Option<real>     // pd.to_numeric of a string
  )

  /** `pd.to_datetime(v).date()` of one cell; missing values stay missing. */
  function AsDate(p: Parsers, v: Value): Option<Value>
  {
    match v
    case NaN => Some(NaN)
    case Day(_) => Some(v)
    case Cell(j) =>
      if j.JNull? then Some(NaN)
      else match p.date(j) case Some(d) => Some(Day(d)) case None => None
  }

  /** `pd.to_numeric(j, errors="ignore")` of one scalar. */
  function NumericOrSame(p: Parsers, j: Json): Json
  {
    match j
    case JStr(s) => (match p.number(s) case Some(n) => JNum(n) case None => j)
    case _ => j
  }

  /** `df[c] = pd.to_datetime(df[c]).dt.date`: every cell converts or the
      call raises. */
  function CoerceDates(p: Parsers, rows: seq<Row>, c: string): (r: Option<seq<Row>>)
    ensures r.Some? ==> |r.value| == |rows|
    ensures r.Some? ==> forall i :: 0 <= i < |rows| ==>
      AsDate(p, At(rows[i], c)) == Some(At(r.value[i], c)) && r.value[i] == rows[i][c := At(r.value[i], c)]
    ensures r.None? <==> exists i :: 0 <= i < |rows| && AsDate(p, At(rows[i], c)).None?
  {
    if rows == [] then Some([])
    else
      match AsDate(p, At(rows[0], c))
      case None => None
      case Some(d) =>
        match CoerceDates(p, rows[1..], c)
        case None => None
        case Some(rest) =>
          var r := [rows[0][c := d]] + rest;
          assert forall i :: 1 <= i < |rows| ==> rows[i] == rows[1..][i - 1];
          Some(r)
  }

  /** The report periods and the column that tags a row with one. */
  const Annual := "annual"
  const Quarterly := "quarterly"
  const PeriodColumn := "period_type"

  /** The date columns, in the order they are looked for. */
  const DateColumns: seq<string> := ["date", "timestamp", "datetime"]

  /** The first of "date", "timestamp", "datetime" that `columns` holds. */
  function DateColumn(columns: seq<string>): (r: Option<string>)
    ensures r.Some? ==> r.value in DateColumns && r.value in columns
    ensures r.None? <==> forall c :: c in DateColumns ==> c !in columns
    ensures r.Some? && r.value != "date" ==> "date" !in columns
    ensures r == Some("datetime") ==> "timestamp" !in columns
  {
    if "date" in columns then Some("date")
    else if "timestamp" in columns then Some("timestamp")
    else if "datetime" in columns then Some("datetime")
    else None
  }

  /** Column `c` of `t` converted to dates in place; `ValueError` when some cell
      does not parse. */
  function CoerceDateColumn(p: Parsers, t: Table, c: string): (r: Result<Table>)
    ensures r.Ok? <==> forall i :: 0 <= i < |t.rows| ==> AsDate(p, At(t.rows[i], c)).Some?
    ensures r.Fail? ==> r.error == ValueError
    ensures r.Ok? ==> r.value.columns == t.columns && |r.value.rows| == |t.rows|
    ensures r.Ok? ==> forall i :: 0 <= i < |t.rows| ==>
      r.value.rows[i] == t.rows[i][c := AsDate(p, At(t.rows[i], c)).value]
  {
    match CoerceDates(p, t.rows, c)
    case Some(rows) => Ok(Table(t.columns, rows))
    case None => Fail(ValueError)
  }
}

=== FILE: ingestion.dfy ===
/** The driver of ingestion.py (`run_ingestion`): the ticker list is cleaned,
    then every ticker runs its time-series and fundamentals endpoints and
    finally the economic indicators run once each. A partition that is already
    populated is skipped when resuming. Nothing catches a failed fetch, so the
    first failure ends the run with the files written so far. */
module Ingestion {
  import opened Wrappers
  import opened Strings
  import opened Frame
  import opened Reports
  import opened Storage

  // ------------------------------------------------------------ endpoints

  /** `REST_FUNCTION_MAP`. */
  const RestFunctionMap: map<string, string> := map[
    "COMPANY_OVERVIEW" := "OVERVIEW",
    "INCOME_STATEMENT" := "INCOME_STATEMENT",
    "BALANCE_SHEET" := "BALANCE_SHEET",
    "CASH_FLOW" := "CASH_FLOW",
    "EARNINGS" := "EARNINGS",
    "EARNINGS_ESTIMATES" := "EARNINGS_ESTIMATES",
    "DIVIDENDS" := "DIVIDENDS",
    "SPLITS" := "SPLITS",
    "SYMBOL_SEARCH" := "SYMBOL_SEARCH"
  ]

  /** `REST_FUNCTION_MAP.get(endpoint, endpoint)`. */
  function FunctionName(endpoint: string): string
  {
    if endpoint in RestFunctionMap then RestFunctionMap[endpoint] else endpoint
  }

  /** The API function is the endpoint's own name for every endpoint except
      the company overview, which is requested as "OVERVIEW". */
  lemma FunctionNameRenamesOnlyOverview(endpoint: string)
    ensures FunctionName(endpoint) != endpoint <==> endpoint == "COMPANY_OVERVIEW"
    ensures FunctionName("COMPANY_OVERVIEW") == "OVERVIEW"
  {
  }

  /** The endpoints whose responses are split into annual and quarterly
      partitions. */
  const PeriodizedEndpoints: set<string> :=
    {"INCOME_STATEMENT", "BALANCE_SHEET", "CASH_FLOW", "EARNINGS", "EARNINGS_ESTIMATES"}

  /** The endpoints that take the ticker as `symbol`. */
  const SymbolEndpoints: set<string> :=
    {"COMPANY_OVERVIEW", "INCOME_STATEMENT", "BALANCE_SHEET", "CASH_FLOW", "EARNINGS",
     "EARNINGS_ESTIMATES", "DIVIDENDS", "SPLITS", "ETF_PROFILE"}

  const SymbolSearch := "SYMBOL_SEARCH"

  /** `FULL_HISTORY_ENDPOINTS_DEFAULT`. */
  const DefaultFundamentals: seq<string> :=
    ["COMPANY_OVERVIEW", "INCOME_STATEMENT", "BALANCE_SHEET", "CASH_FLOW", "EARNINGS",
     "EARNINGS_ESTIMATES", "DIVIDENDS", "SPLITS", "SYMBOL_SEARCH"]

  /** The query parameters of a fundamentals request besides the function. */
  datatype Params = NoParams | Symbol(symbol: string) | Keywords(keywords: string)

  function ParamsFor(endpoint: string, ticker: string): Params
  {
    if endpoint in SymbolEndpoints then Symbol(ticker)
    else if endpoint == SymbolSearch then Keywords(ticker)
    else NoParams
  }

  /** A request names the ticker exactly when the endpoint is a symbol
      endpoint or the symbol search; every periodized endpoint is a symbol
      endpoint, and every default fundamentals endpoint names the ticker. */
  lemma ParamsNameTheTicker(endpoint: string, ticker: string)
    ensures ParamsFor(endpoint, ticker) != NoParams <==> endpoint in SymbolEndpoints || endpoint == SymbolSearch
    ensures ParamsFor(endpoint, ticker) == Symbol(ticker) || ParamsFor(endpoint, ticker) == Keywords(ticker)
            || ParamsFor(endpoint, ticker) == NoParams
    ensures PeriodizedEndpoints <= SymbolEndpoints
    ensures endpoint in DefaultFundamentals ==> ParamsFor(endpoint, ticker) != NoParams
  {
  }

  // ------------------------------------------------------------ tickers

  const BadTokens: set<string> := {"<na>", "nan", "none", ""}

  /** One ticker cell after `notna`, `astype(str).str.strip()` and the
      bad-token test; `None` when the row is dropped. */
  function CleanTicker(v: Value): (r: Option<string>)
    ensures r.None? <==> IsMissing(v) || Lower(Strip(Text(v))) in BadTokens
    ensures r.Some? ==> r.value == Strip(Text(v)) && Lower(r.value) !in BadTokens
    ensures r.Some? ==> r.value != [] && r.value[0] !in Whitespace && r.value[|r.value| - 1] !in Whitespace
  {
    if IsMissing(v) then None
    else
      var s := Strip(Text(v));
      if Lower(s) in BadTokens then None else Some(s)
  }

  /** A constituent row keeps its place when its ticker cleans to a string. */
  predicate Survives(row: Row)
  {
    CleanTicker(At(row, "ticker")).Some?
  }

  /** A surviving row with its ticker cell replaced by the stripped string; any other row as it is. */
  function CleanRow(row: Row): (r: Row)
    ensures Survives(row) ==> "ticker" in r && r["ticker"] == Cell(JStr(CleanTicker(At(row, "ticker")).value))
    ensures forall k :: k != "ticker" ==> (k in r <==> k in row) && (k in row ==> r[k] == row[k])
  {
    if Survives(row) then row["ticker" := Cell(JStr(CleanTicker(At(row, "ticker")).value))] else row
  }

  /** The constituent rows that survive cleaning, in order, each cleaned. */
  function CleanRows(rows: seq<Row>): (r: seq<Row>)
    ensures |r| == |Filter(rows, Survives)| <= |rows|
    ensures forall i :: 0 <= i < |r| ==> r[i] == CleanRow(Filter(rows, Survives)[i])
    decreases |rows|
  {
    if rows == [] then []
    else
      var rest := CleanRows(rows[1..]);
      if Survives(rows[0]) then
        assert Filter(rows, Survives) == [rows[0]] + Filter(rows[1..], Survives);
        PointwiseCons(rows[0], Filter(rows[1..], Survives), rest, CleanRow);
        [CleanRow(rows[0])] + rest
      else
        assert Filter(rows, Survives) == Filter(rows[1..], Survives);
        rest
  }

  /** The cleaned ticker of a constituent row, if it survives. */
  function RowTicker(row: Row): Option<string>
  {
    CleanTicker(At(row, "ticker"))
  }

  /** Some row's ticker cleans to `x`. */
  predicate CleansTo(rows: seq<Row>, x: string)
  {
    Produces(rows, RowTicker, x)
  }

  /** The tickers of the surviving rows, in row order. */
  function TickerStrings(rows: seq<Row>): (r: seq<string>)
    ensures forall x :: x in r <==> CleansTo(rows, x)
  {
    if rows == [] then []
    else
      var rest := TickerStrings(rows[1..]);
      ProducesCons(rows, RowTicker);
      match RowTicker(rows[0])
      case Some(s) => [s] + rest
      case None => rest
  }

  /** `sorted(constituents["ticker"].unique())`. */
  function DrivingTickers(rows: seq<Row>): (r: seq<string>)
    ensures StrictlySorted(r)
    ensures forall x :: x in r <==> CleansTo(rows, x)
  {
    SortedUnique(TickerStrings(rows))
  }

  /** The driving tickers are sorted without duplicates; each is non-empty,
      has no surrounding whitespace and is none of the bad tokens in any
      letter case; and they are exactly the cleaned non-null input tickers. */
  lemma DrivingTickersClean(rows: seq<Row>)
    ensures var ts := DrivingTickers(rows);
      StrictlySorted(ts) &&
      (forall i, j :: 0 <= i < |ts| && 0 <= j < |ts| && i != j ==> ts[i] != ts[j]) &&
      (forall x :: x in ts <==> exists i :: 0 <= i < |rows| && !IsMissing(At(rows[i], "ticker"))
                                  && x == Strip(Text(At(rows[i], "ticker"))) && Lower(x) !in BadTokens) &&
      (forall x :: x in ts ==> x != [] && x[0] !in Whitespace && x[|x| - 1] !in Whitespace)
  {
    var ts := DrivingTickers(rows);
    StrictlySortedNoDuplicates(ts);
  }

  // ------------------------------------------------------------ the run

  /** The REST client: `fetch_time_series_csv(function, symbol)` (already
      lower-cased and tagged with the symbol) and `fetch_json(function,
      params)`. */
  datatype Provider = Provider(
    timeSeries: (string, string) -> Result<Table>,
    json: (string, Params) -> Result<seq<(string, Json)>>
  )

  /** The endpoint lists, the date window and the resume flag of one run. */
  datatype Settings = Settings(
    timeSeries: seq<string>, fundamentals: seq<string>, economic: seq<string>,
    start: Date, end: Date, resume: bool)

  datatype Env = Env(p: Parsers, api: Provider, s: Settings)

  /** The disk so far and the error that stopped the run, if any. */
  datatype Outcome = Outcome(disk: Disk, error: Option<Error>)

  /** One call of the nested loops. */
  datatype Unit =
    | TimeSeriesUnit(endpoint: string, ticker: string)
    | FundamentalUnit(endpoint: string, ticker: string)
    | EconomicUnit(endpoint: string)

  const ConstituentsPath := Path([], "wrds_sp500_constituents")
  const UniqueTickersPath := Path([], "wrds_sp500_unique_tickers")

  function GlobalPath(endpoint: string): Path
  {
    Path([endpoint], "global")
  }

  /** Whether resuming skips the unit. */
  predicate Skipped(disk: Disk, s: Settings, u: Unit)
  {
    s.resume &&
    match u
    case TimeSeriesUnit(e, t) => Populated(disk, PartitionPath(e, t))
    case FundamentalUnit(e, t) =>
      if e in PeriodizedEndpoints then PeriodsPopulated(disk, e, t) else Populated(disk, PartitionPath(e, t))
    case EconomicUnit(e) => Populated(disk, GlobalPath(e))
  }

  /** The table a unit fetches, flattened and filtered to the date window. */
  function Fetch(env: Env, u: Unit): Result<Table>
  {
    var fetched := match u
      case TimeSeriesUnit(e, t) => env.api.timeSeries(e, t)
      case FundamentalUnit(e, t) =>
        (match env.api.json(FunctionName(e), ParamsFor(e, t))
         case Ok(payload) => JsonToDf(payload)
         case Fail(err) => Fail(err))
      case EconomicUnit(e) =>
        (match env.api.json(FunctionName(e), NoParams)
         case Ok(payload) => JsonToDf(payload)
         case Fail(err) => Fail(err));
    match fetched
    case Ok(t) => FilterDate(env.p, t, env.s.start, env.s.end)
    case Fail(err) => Fail(err)
  }

  /** Where a fetched table goes. */
  function Place(disk: Disk, u: Unit, t: Table): Disk
  {
    match u
    case TimeSeriesUnit(e, tk) => disk[PartitionPath(e, tk) := Readable(t)]
    case FundamentalUnit(e, tk) => SplitByPeriod(disk, t, e, tk)
    case EconomicUnit(e) => disk[GlobalPath(e) := Readable(t)]
  }

  /** One unit on a disk: a skipped unit changes nothing, a failed fetch
      reports its error and leaves the disk as it was, and a fetched table is
      placed. */
  function RunUnit(env: Env, disk: Disk, u: Unit): (r: Outcome)
    ensures Skipped(disk, env.s, u) ==> r == Outcome(disk, None)
    ensures r.error.Some? ==> r.disk == disk && Fetch(env, u).Fail? && r.error.value == Fetch(env, u).error
    ensures r.error.None? && !Skipped(disk, env.s, u) ==> Fetch(env, u).Ok? && r.disk == Place(disk, u, Fetch(env, u).value)
  {
    if Skipped(disk, env.s, u) then Outcome(disk, None)
    else match Fetch(env, u)
      case Ok(t) => Outcome(Place(disk, u, t), None)
      case Fail(err) => Outcome(disk, Some(err))
  }

  /** One unit after the run so far; nothing runs after a failure. */
  function Step(env: Env, o: Outcome, u: Unit): Outcome
  {
    if o.error.Some? then o else RunUnit(env, o.disk, u)
  }

  function RunUnits(env: Env, o: Outcome, units: seq<Unit>): Outcome
    decreases |units|
  {
    if units == [] then o
    else Step(env, RunUnits(env, o, units[..|units| - 1]), units[|units| - 1])
  }

  /** The units of one ticker's endpoint loop, one per endpoint, in order. */
  function TimeSeriesUnits(endpoints: seq<string>, ticker: string): (r: seq<Unit>)
    ensures |r| == |endpoints|
    ensures forall i :: 0 <= i < |endpoints| ==> r[i] == TimeSeriesUnit(endpoints[i], ticker)
  {
    seq(|endpoints|, i requires 0 <= i < |endpoints| => TimeSeriesUnit(endpoints[i], ticker))
  }

  /** The units of one ticker's fundamentals loop, one per endpoint, in order. */
  function FundamentalUnits(endpoints: seq<string>, ticker: string): (r: seq<Unit>)
    ensures |r| == |endpoints|
    ensures forall i :: 0 <= i < |endpoints| ==> r[i] == FundamentalUnit(endpoints[i], ticker)
  {
    seq(|endpoints|, i requires 0 <= i < |endpoints| => FundamentalUnit(endpoints[i], ticker))
  }

  /** The units of the economic-indicator loop, one per indicator, in order. */
  function EconomicUnits(endpoints: seq<string>): (r: seq<Unit>)
    ensures |r| == |endpoints|
    ensures forall i :: 0 <= i < |endpoints| ==> r[i] == EconomicUnit(endpoints[i])
  {
    seq(|endpoints|, i requires 0 <= i < |endpoints| => EconomicUnit(endpoints[i]))
  }

  /** One ticker's time-series endpoints, then its fundamentals. */
  function RunTicker(env: Env, o: Outcome, ticker: string): Outcome
  {
    RunUnits(env, RunUnits(env, o, TimeSeriesUnits(env.s.timeSeries, ticker)),
             FundamentalUnits(env.s.fundamentals, ticker))
  }

  function RunTickers(env: Env, o: Outcome, tickers: seq<string>): Outcome
    decreases |tickers|
  {
    if tickers == [] then o
    else RunTicker(env, RunTickers(env, o, tickers[..|tickers| - 1]), tickers[|tickers| - 1])
  }

  /** The table of `pd.DataFrame({"ticker": tickers})`. */
  function TickerTable(tickers: seq<string>): (t: Table)
    ensures t.columns == ["ticker"] && |t.rows| == |tickers|
    ensures forall i :: 0 <= i < |tickers| ==>
      t.rows[i].Keys == {"ticker"} && t.rows[i]["ticker"] == Cell(JStr(tickers[i]))
  {
    Table(["ticker"], seq(|tickers|, i requires 0 <= i < |tickers| => map["ticker" := Cell(JStr(tickers[i]))]))
  }

  /** The whole of `run_ingestion` after the constituents are known. Without
      a ticker column it raises before writing anything; otherwise the
      cleaned constituents and the driving tickers are on disk at the end,
      whatever the units did, since every unit writes below its endpoint. */
  function Ingest(env: Env, disk: Disk, constituents: Table): (r: Outcome)
    ensures "ticker" !in constituents.columns ==> r == Outcome(disk, Some(KeyError))
    ensures "ticker" in constituents.columns ==>
      ConstituentsPath in r.disk && r.disk[ConstituentsPath] == Readable(Table(constituents.columns, CleanRows(constituents.rows))) &&
      UniqueTickersPath in r.disk && r.disk[UniqueTickersPath] == Readable(TickerTable(DrivingTickers(constituents.rows)))
  {
    if "ticker" !in constituents.columns then Outcome(disk, Some(KeyError))
    else
      var tickers := DrivingTickers(constituents.rows);
      var d0 := disk[ConstituentsPath := Readable(Table(constituents.columns, CleanRows(constituents.rows)))]
                    [UniqueTickersPath := Readable(TickerTable(tickers))];
      var o := RunTickers(env, Outcome(d0, None), tickers);
      TickersKeepTop(env, Outcome(d0, None), tickers, ConstituentsPath);
      TickersKeepTop(env, Outcome(d0, None), tickers, UniqueTickersPath);
      UnitsKeepTop(env, o, EconomicUnits(env.s.economic), ConstituentsPath);
      UnitsKeepTop(env, o, EconomicUnits(env.s.economic), UniqueTickersPath);
      RunUnits(env, o, EconomicUnits(env.s.economic))
  }

  /** A run of units leaves a file at the top of the data directory as it
      found it. */
  lemma {:induction false} UnitsKeepTop(env: Env, o: Outcome, units: seq<Unit>, path: Path)
    requires path.dirs == []
    ensures var d := RunUnits(env, o, units).disk;
      (path in d <==> path in o.disk) && (path in o.disk ==> d[path] == o.disk[path])
    decreases |units|
  {
    if units != [] {
      var n := |units| - 1;
      UnitsKeepTop(env, o, units[..n], path);
      var prev := RunUnits(env, o, units[..n]);
      if prev.error.None? {
        UnitFrame(env, prev.disk, units[n], path);
      }
    }
  }

  /** And so does a run of tickers. */
  lemma {:induction false} TickersKeepTop(env: Env, o: Outcome, tickers: seq<string>, path: Path)
    requires path.dirs == []
    ensures var d := RunTickers(env, o, tickers).disk;
      (path in d <==> path in o.disk) && (path in o.disk ==> d[path] == o.disk[path])
    decreases |tickers|
  {
    if tickers != [] {
      var n := |tickers| - 1;
      TickersKeepTop(env, o, tickers[..n], path);
      var prev := RunTickers(env, o, tickers[..n]);
      var series := TimeSeriesUnits(env.s.timeSeries, tickers[n]);
      UnitsKeepTop(env, prev, series, path);
      UnitsKeepTop(env, RunUnits(env, prev, series), FundamentalUnits(env.s.fundamentals, tickers[n]), path);
    }
  }

  // ------------------------------------------------------------ properties

  /** The files the resume test of a unit reads: both period partitions of a
      periodized endpoint, otherwise the one file the unit writes. */
  function ResumePaths(u: Unit): seq<Path>
  {
    match u
    case TimeSeriesUnit(e, t) => [PartitionPath(e, t)]
    case FundamentalUnit(e, t) =>
      if e in PeriodizedEndpoints then [PeriodPath(e, Annual, t), PeriodPath(e, Quarterly, t)]
      else [PartitionPath(e, t)]
    case EconomicUnit(e) => [GlobalPath(e)]
  }

  /** A unit is skipped exactly when resuming finds each of its files on disk,
      readable and non-empty; a skipped unit leaves the disk alone and fetches
      nothing, whatever the provider would answer. Otherwise it fetches, and
      either writes or stops the run. */
  lemma ResumeRule(env: Env, disk: Disk, u: Unit)
    ensures Skipped(disk, env.s, u) <==>
      env.s.resume && forall path :: path in ResumePaths(u) ==>
        path in disk && disk[path].Readable? && |disk[path].t.rows| > 0 && |disk[path].t.columns| > 0
    ensures Skipped(disk, env.s, u) ==>
      forall api :: RunUnit(Env(env.p, api, env.s), disk, u) == Outcome(disk, None)
    ensures !Skipped(disk, env.s, u) ==>
      RunUnit(env, disk, u) == (if Fetch(env, u).Ok? then Outcome(Place(disk, u, Fetch(env, u).value), None)
                                else Outcome(disk, Some(Fetch(env, u).error)))
    ensures !env.s.resume ==> !Skipped(disk, env.s, u)
  {
    var paths := ResumePaths(u);
    if u.FundamentalUnit? && u.endpoint in PeriodizedEndpoints {
      assert paths[0] in paths && paths[1] in paths;
    } else {
      assert paths[0] in paths;
    }
  }

  /** Resuming right after a successful non-empty time-series or economic
      fetch skips it: the partition it wrote is populated. */
  lemma ResumeAfterWrite(env: Env, disk: Disk, u: Unit)
    requires env.s.resume && !u.FundamentalUnit?
    requires RunUnit(env, disk, u).error.None?
    requires !Skipped(disk, env.s, u) ==> !IsEmpty(Fetch(env, u).value)
    ensures Skipped(RunUnit(env, disk, u).disk, env.s, u)
  {
  }

  /** The same for a periodized endpoint once both of its period subsets were
      non-empty. */
  lemma ResumeAfterSplit(env: Env, disk: Disk, e: string, ticker: string)
    requires env.s.resume && e in PeriodizedEndpoints
    requires !Skipped(disk, env.s, FundamentalUnit(e, ticker))
    requires Fetch(env, FundamentalUnit(e, ticker)).Ok?
    requires var t := Fetch(env, FundamentalUnit(e, ticker)).value;
      PeriodColumn in t.columns && !IsEmpty(PeriodSubset(t, Annual)) && !IsEmpty(PeriodSubset(t, Quarterly))
    ensures Skipped(RunUnit(env, disk, FundamentalUnit(e, ticker)).disk, env.s, FundamentalUnit(e, ticker))
  {
    var t := Fetch(env, FundamentalUnit(e, ticker)).value;
    SplitWrites(disk, t, e, ticker);
  }

  /** After a failure nothing else runs. */
  lemma {:induction false} FailureSticks(env: Env, o: Outcome, units: seq<Unit>)
    requires o.error.Some?
    ensures RunUnits(env, o, units) == o
    decreases |units|
  {
    if units != [] {
      FailureSticks(env, o, units[..|units| - 1]);
    }
  }

  lemma {:induction false} FailureSticksTickers(env: Env, o: Outcome, tickers: seq<string>)
    requires o.error.Some?
    ensures RunTickers(env, o, tickers) == o
    decreases |tickers|
  {
    if tickers != [] {
      FailureSticksTickers(env, o, tickers[..|tickers| - 1]);
      TickerSticks(env, RunTickers(env, o, tickers[..|tickers| - 1]), tickers[|tickers| - 1]);
    }
  }

  lemma TickerSticks(env: Env, o: Outcome, ticker: string)
    requires o.error.Some?
    ensures RunTicker(env, o, ticker) == o
  {
    FailureSticks(env, o, TimeSeriesUnits(env.s.timeSeries, ticker));
    FailureSticks(env, o, FundamentalUnits(env.s.fundamentals, ticker));
  }

  /** A run whose first `k` units fail is the run of those `k` units. */
  lemma {:induction false} PrefixFailure(env: Env, o: Outcome, units: seq<Unit>, k: nat)
    requires k <= |units| && RunUnits(env, o, units[..k]).error.Some?
    ensures RunUnits(env, o, units) == RunUnits(env, o, units[..k])
    decreases |units|
  {
    if k < |units| {
      var n := |units| - 1;
      assert units[..n][..k] == units[..k];
      PrefixFailure(env, o, units[..n], k);
    } else {
      assert units[..k] == units;
    }
  }

  lemma {:induction false} PrefixFailureTickers(env: Env, o: Outcome, tickers: seq<string>, k: nat)
    requires k <= |tickers| && RunTickers(env, o, tickers[..k]).error.Some?
    ensures RunTickers(env, o, tickers) == RunTickers(env, o, tickers[..k])
    decreases |tickers|
  {
    if k < |tickers| {
      var n := |tickers| - 1;
      assert tickers[..n][..k] == tickers[..k];
      PrefixFailureTickers(env, o, tickers[..n], k);
      TickerSticks(env, RunTickers(env, o, tickers[..n]), tickers[n]);
    } else {
      assert tickers[..k] == tickers;
    }
  }

  lemma UnitsStep(env: Env, o: Outcome, units: seq<Unit>, k: nat)
    requires k < |units|
    ensures RunUnits(env, o, units[..k + 1]) == Step(env, RunUnits(env, o, units[..k]), units[k])
  {
    assert units[..k + 1][..k] == units[..k];
  }

  /** A unit only writes below its own endpoint: a path under another
      directory is untouched. */
  lemma UnitFrame(env: Env, disk: Disk, u: Unit, path: Path)
    requires |path.dirs| == 0 || path.dirs[0] != u.endpoint
    ensures var d := RunUnit(env, disk, u).disk;
      (path in d <==> path in disk) && (path in disk ==> d[path] == disk[path])
  {
    if !Skipped(disk, env.s, u) && Fetch(env, u).Ok? && u.FundamentalUnit? {
      SplitWrites(disk, Fetch(env, u).value, u.endpoint, u.ticker);
    }
  }

  // ------------------------------------------------------------ the method

  /** One unit against the store. */
  method RunOne(store: Store, env: Env, u: Unit) returns (err: Option<Error>)
    modifies store
    ensures store.disk == RunUnit(env, old(store.disk), u).disk
    ensures err == RunUnit(env, old(store.disk), u).error
  {
    var skip := false;
    if env.s.resume {
      match u
      case TimeSeriesUnit(e, t) => skip := store.IsPopulated(PartitionPath(e, t));
      case FundamentalUnit(e, t) =>
        if e in PeriodizedEndpoints {
          skip := store.AllPeriodFilesExist(e, t);
        } else {
          skip := store.IsPopulated(PartitionPath(e, t));
        }
      case EconomicUnit(e) => skip := store.IsPopulated(GlobalPath(e));
    }
    if skip {
      return None;
    }
    var fetched := Fetch(env, u);
    if fetched.Fail? {
      return Some(fetched.error);
    }
    match u {
      case TimeSeriesUnit(e, t) => store.WriteParquet(fetched.value, PartitionPath(e, t));
      case FundamentalUnit(e, t) => store.WriteSplitByPeriod(fetched.value, e, t);
      case EconomicUnit(e) => store.WriteParquet(fetched.value, GlobalPath(e));
    }
    err := None;
  }

  /** A loop over endpoints (`for endpoint in ...`), stopping at the first
      failure. */
  method RunLoop(store: Store, env: Env, units: seq<Unit>) returns (err: Option<Error>)
    modifies store
    ensures Outcome(store.disk, err) == RunUnits(env, Outcome(old(store.disk), None), units)
  {
    ghost var o := Outcome(store.disk, None);
    var j := 0;
    while j < |units|
      invariant 0 <= j <= |units|
      invariant RunUnits(env, o, units[..j]) == Outcome(store.disk, None)
    {
      UnitsStep(env, o, units, j);
      err := RunOne(store, env, units[j]);
      if err.Some? {
        PrefixFailure(env, o, units, j + 1);
        return;
      }
      j := j + 1;
    }
    assert units[..j] == units;
    err := None;
  }

  /** The body of the ticker loop: time series, then fundamentals. */
  method RunTickerBody(store: Store, env: Env, ticker: string) returns (err: Option<Error>)
    modifies store
    ensures Outcome(store.disk, err) == RunTicker(env, Outcome(old(store.disk), None), ticker)
  {
    ghost var o := Outcome(store.disk, None);
    err := RunLoop(store, env, TimeSeriesUnits(env.s.timeSeries, ticker));
    if err.Some? {
      FailureSticks(env, RunUnits(env, o, TimeSeriesUnits(env.s.timeSeries, ticker)),
                    FundamentalUnits(env.s.fundamentals, ticker));
      return;
    }
    err := RunLoop(store, env, FundamentalUnits(env.s.fundamentals, ticker));
  }

  /** The loops of `run_ingestion` from the ticker cleaning on. */
  method RunIngestion(store: Store, env: Env, constituents: Table) returns (err: Option<Error>)
    modifies store
    ensures Outcome(store.disk, err) == Ingest(env, old(store.disk), constituents)
  {
    if "ticker" !in constituents.columns {
      return Some(KeyError);
    }
    store.WriteParquet(Table(constituents.columns, CleanRows(constituents.rows)), ConstituentsPath);
    var tickers := DrivingTickers(constituents.rows);
    store.WriteParquet(TickerTable(tickers), UniqueTickersPath);
    ghost var o0 := Outcome(store.disk, None);
    var economic := EconomicUnits(env.s.economic);
    assert Ingest(env, old(store.disk), constituents) == RunUnits(env, RunTickers(env, o0, tickers), economic);
    var i := 0;
    while i < |tickers|
      invariant 0 <= i <= |tickers|
      invariant RunTickers(env, o0, tickers[..i]) == Outcome(store.disk, None)
    {
      TickersStep(env, o0, tickers, i);
      err := RunTickerBody(store, env, tickers[i]);
      if err.Some? {
        PrefixFailureTickers(env, o0, tickers, i + 1);
        FailureSticks(env, RunTickers(env, o0, tickers), economic);
        return;
      }
      i := i + 1;
    }
    assert tickers[..i] == tickers;
    err := RunLoop(store, env, economic);
  }

  lemma TickersStep(env: Env, o: Outcome, tickers: seq<string>, k: nat)
    requires k < |tickers|
    ensures RunTickers(env, o, tickers[..k + 1]) == RunTicker(env, RunTickers(env, o, tickers[..k]), tickers[k])
  {
    assert tickers[..k + 1][..k] == tickers[..k];
  }
}

=== FILE: normalize.dfy ===
/** `pd.json_normalize` with its default arguments, as far as the pipeline
    uses it: nested dicts are flattened into dotted column names, every other
    value is kept as one cell. */
module JsonNormalize {
  import opened Wrappers
  import opened Frame

  /** The dotted name of `key` under `prefix` (no dot at the top level). */
  function DottedKey(prefix: string, key: string): string
  {
    if prefix == "" then key else prefix + "." + key
  }

  /** The leaves of `j` under `prefix`: a non-dict is a leaf, a dict
      contributes the leaves of its values, depth first in key order (an empty
      dict contributes nothing). No leaf is a dict. */
  function Leaves(prefix: string, j: Json): (r: seq<(string, Json)>)
    ensures forall i :: 0 <= i < |r| ==> !r[i].1.JObj?
    ensures !j.JObj? ==> r == [(prefix, j)]
    decreases j, 1, 0
  {
    match j
    case JObj(fields) => FieldLeaves(prefix, fields, 0)
    case _ => [(prefix, j)]
  }

  function FieldLeaves(prefix: string, fields: seq<(string, Json)>, i: nat): (r: seq<(string, Json)>)
    ensures forall n :: 0 <= n < |r| ==> !r[n].1.JObj?
    decreases JObj(fields), 0, |fields| - i
  {
    if i >= |fields| then []
    else
      assert fields[i] in fields;
      Leaves(DottedKey(prefix, fields[i].0), fields[i].1) + FieldLeaves(prefix, fields, i + 1)
  }

  /** `pairs[i]` is the last pair named `k`. */
  predicate LastNamed(pairs: seq<(string, Json)>, k: string, i: int)
  {
    0 <= i < |pairs| && pairs[i].0 == k && forall n :: i < n < |pairs| ==> pairs[n].0 != k
  }

  /** The value of the last pair named `k`, if there is one. */
  function LastValue(pairs: seq<(string, Json)>, k: string): (r: Option<Json>)
    ensures r.None? <==> forall i :: 0 <= i < |pairs| ==> pairs[i].0 != k
    ensures r.Some? ==> exists i :: LastNamed(pairs, k, i) && pairs[i].1 == r.value
  {
    if pairs == [] then None
    else if pairs[|pairs| - 1].0 == k then
      assert LastNamed(pairs, k, |pairs| - 1);
      Some(pairs[|pairs| - 1].1)
    else
      var r := LastValue(pairs[..|pairs| - 1], k);
      LastValueStep(pairs, k, r);
      r
  }

  lemma LastValueStep(pairs: seq<(string, Json)>, k: string, r: Option<Json>)
    requires pairs != [] && pairs[|pairs| - 1].0 != k
    requires var front := pairs[..|pairs| - 1];
      (r.None? <==> forall i :: 0 <= i < |front| ==> front[i].0 != k) &&
      (r.Some? ==> exists i :: LastNamed(front, k, i) && front[i].1 == r.value)
    ensures r.None? <==> forall i :: 0 <= i < |pairs| ==> pairs[i].0 != k
    ensures r.Some? ==> exists i :: LastNamed(pairs, k, i) && pairs[i].1 == r.value
  {
    var front := pairs[..|pairs| - 1];
    assert forall i :: 0 <= i < |front| ==> front[i] == pairs[i];
    if r.Some? {
      var i :| LastNamed(front, k, i) && front[i].1 == r.value;
      assert LastNamed(pairs, k, i);
    }
  }

  /** Stores each pair with `rec[k] = v`, left to right: a key ends up with the
      value of its last pair. */
  function PutAll(rec: Record, pairs: seq<(string, Json)>): (r: Record)
    ensures forall k :: Get(r, k) == if LastValue(pairs, k).Some? then Some(Cell(LastValue(pairs, k).value)) else Get(rec, k)
    decreases |pairs|
  {
    if pairs == [] then rec
    else
      var last := pairs[|pairs| - 1];
      Put(PutAll(rec, pairs[..|pairs| - 1]), last.0, Cell(last.1))
  }

  /** The pairs a dict flattens to: its non-dict values, then the dotted
      leaves of its dict values. */
  function FlatPairs(fields: seq<(string, Json)>): (r: seq<(string, Json)>)
    ensures forall i :: 0 <= i < |r| ==> !r[i].1.JObj?
  {
    var top := Filter(fields, (f: (string, Json)) => !f.1.JObj?);
    var nested := Filter(fields, (f: (string, Json)) => f.1.JObj?);
    top + FieldLeaves("", nested, 0)
  }

  /** One dict flattened into one record. */
  function FlattenObject(fields: seq<(string, Json)>): Record
  {
    PutAll([], FlatPairs(fields))
  }

  /** A list element: a dict is flattened, anything else becomes an empty
      record. */
  function ElementRecord(j: Json): Record
  {
    match j
    case JObj(fields) => FlattenObject(fields)
    case _ => []
  }

  /** `row` is the flattening of `j`: a key for each flattened name, holding the
      value of the last pair with that name; nothing for a non-dict. */
  ghost predicate Flattens(row: Row, j: Json)
  {
    (forall k :: k in row <==> j.JObj? && LastValue(FlatPairs(j.fields), k).Some?) &&
    (forall k :: k in row ==> j.JObj? && row[k] == Cell(LastValue(FlatPairs(j.fields), k).value))
  }

  /** `pd.json_normalize(j)` of a list or a dict: one row per list element,
      one row for a dict; no cell holds a dict. */
  function Normalize(j: Json): (t: Table)
    requires j.JList? || j.JObj?
    ensures j.JList? ==> |t.rows| == |j.items| && forall i :: 0 <= i < |j.items| ==> Flattens(t.rows[i], j.items[i])
    ensures j.JObj? ==> |t.rows| == 1 && Flattens(t.rows[0], j)
    ensures forall i, k :: 0 <= i < |t.rows| && k in t.rows[i] ==> t.rows[i][k].Cell? && !t.rows[i][k].j.JObj?
  {
    match j
    case JList(items) =>
      var recs := seq(|items|, i requires 0 <= i < |items| => ElementRecord(items[i]));
      var t := FromRecords(recs);
      forall i | 0 <= i < |items| ensures Flattens(t.rows[i], items[i]) {
        ElementFlattens(items[i]);
      }
      t
    case JObj(fields) =>
      ElementFlattens(j);
      FromRecords([FlattenObject(fields)])
  }

  lemma ElementFlattens(j: Json)
    ensures Flattens(RowOf(ElementRecord(j)), j)
  {
    if j.JObj? {
      var pairs := FlatPairs(j.fields);
      var row := RowOf(ElementRecord(j));
      forall k ensures k in row <==> LastValue(pairs, k).Some? {
        assert Get(ElementRecord(j), k) == if LastValue(pairs, k).Some? then Some(Cell(LastValue(pairs, k).value)) else Get([], k);
      }
    }
  }
}

=== FILE: partitions.dfy ===
/** The raw and final Parquet trees as a map from paths to files, the
    partition writer (`_write_parquet`, `_write_split_by_period`), the resume
    tests (`_all_period_files_exist` and the exists-and-non-empty checks) and
    the date window (`_filter_date`) of ingestion.py. */
module Storage {
  import opened Wrappers
  import opened Strings
  import opened Frame

  /** A Parquet file's location below the data directory: its directories
      and its stem (the `.parquet` suffix is implied). */
  datatype Path = Path(dirs: seq<string>, stem: string)

  /** A stored file: a table, or bytes that cannot be read back as one. */
  datatype File = Readable(t: Table) | Unreadable

  type Disk = map<Path, File>

  const Periods: seq<string> := [Annual, Quarterly]

  /** `<endpoint>/<ticker>.parquet`. */
  function PartitionPath(endpoint: string, ticker: string): Path
  {
    Path([endpoint], ticker)
  }

  /** `<endpoint>/<period>/<ticker>.parquet`. */
  function PeriodPath(endpoint: string, period: string, ticker: string): Path
  {
    Path([endpoint, period], ticker)
  }

  /** The names of the data directory and of the raw tree below it. */
  const DataDirName := "data"
  const RawDirName := "data-raw"

  /** `path.parent.name` of a raw partition. */
  function ParentName(p: Path): string
  {
    if p.dirs == [] then RawDirName else p.dirs[|p.dirs| - 1]
  }

  /** `final_dataset_path(name)`: `<name>.parquet` directly in the final
      directory. */
  function FinalPath(name: string): Path
  {
    Path([], name)
  }

  /** The datasets a maintenance call visits: for "all", the sorted stems of
      the final directory's listing; otherwise just the named one. */
  function Selection(dataset: string, stems: seq<string>): (r: seq<string>)
    ensures dataset == "all" ==> StrictlySorted(r) && forall x :: x in r <==> x in stems
    ensures dataset != "all" ==> r == [dataset]
    ensures forall i, j :: 0 <= i < j < |r| ==> r[i] != r[j]
  {
    if dataset == "all" then
      var r := SortedUnique(stems);
      StrictlySortedNoDuplicates(r);
      r
    else [dataset]
  }

  /** `pd.read_parquet(path)`. */
  function ReadTable(disk: Disk, path: Path): (r: Result<Table>)
    ensures r.Ok? <==> path in disk && disk[path].Readable?
  {
    if path !in disk then Fail(FileNotFound)
    else match disk[path]
      case Readable(t) => Ok(t)
      case Unreadable => Fail(ReadFailure)
  }

  /** The resume test: the file exists, reads back, and is not empty. */
  predicate Populated(disk: Disk, path: Path)
  {
    ReadTable(disk, path).Ok? && !IsEmpty(ReadTable(disk, path).value)
  }

  /** `_all_period_files_exist`. */
  predicate PeriodsPopulated(disk: Disk, endpoint: string, ticker: string)
  {
    Populated(disk, PeriodPath(endpoint, Annual, ticker)) && Populated(disk, PeriodPath(endpoint, Quarterly, ticker))
  }

  // ------------------------------------------------------------ split by period

  predicate TaggedWith(row: Row, period: string)
  {
    At(row, PeriodColumn) == Cell(JStr(period))
  }

  /** `df[df["period_type"] == period]`: the rows tagged `period`, in order. */
  function RowsTagged(rows: seq<Row>, period: string): (r: seq<Row>)
    ensures |r| <= |rows|
    ensures forall row :: row in r <==> row in rows && TaggedWith(row, period)
    ensures IsSubsequence(r, rows)
  {
    if rows == [] then []
    else
      var rest := RowsTagged(rows[1..], period);
      if TaggedWith(rows[0], period) then
        assert ([rows[0]] + rest)[1..] == rest;
        [rows[0]] + rest
      else rest
  }

  /** The rows tagged neither "annual" nor "quarterly". */
  function RowsUntagged(rows: seq<Row>): (r: seq<Row>)
    ensures forall row :: row in r <==> row in rows && !TaggedWith(row, Annual) && !TaggedWith(row, Quarterly)
  {
    if rows == [] then []
    else (if !TaggedWith(rows[0], Annual) && !TaggedWith(rows[0], Quarterly) then [rows[0]] else [])
         + RowsUntagged(rows[1..])
  }

  /** `df[df["period_type"] == period].drop(columns=["period_type"])`: the
      rows tagged `period`, in order, each without its tag. */
  function PeriodSubset(t: Table, period: string): (r: Table)
    ensures PeriodColumn !in r.columns
    ensures forall x :: x in r.columns <==> x in t.columns && x != PeriodColumn
    ensures |r.rows| == |RowsTagged(t.rows, period)|
    ensures forall i :: 0 <= i < |r.rows| ==> r.rows[i] == RowsTagged(t.rows, period)[i] - {PeriodColumn}
  {
    DropColumn(Table(t.columns, RowsTagged(t.rows, period)), PeriodColumn)
  }

  /** The writes of the loop over `periods`: non-empty subsets only. */
  function WritePeriods(disk: Disk, t: Table, endpoint: string, ticker: string, periods: seq<string>): Disk
    decreases |periods|
  {
    if periods == [] then disk
    else
      var n := |periods| - 1;
      var before := WritePeriods(disk, t, endpoint, ticker, periods[..n]);
      var sub := PeriodSubset(t, periods[n]);
      if IsEmpty(sub) then before else before[PeriodPath(endpoint, periods[n], ticker) := Readable(sub)]
  }

  /** The disk after `_write_split_by_period(df, base, endpoint, ticker)`. */
  function SplitByPeriod(disk: Disk, t: Table, endpoint: string, ticker: string): Disk
  {
    if PeriodColumn !in t.columns then disk[PartitionPath(endpoint, ticker) := Readable(t)]
    else WritePeriods(disk, t, endpoint, ticker, Periods)
  }

  /** Without a `period_type` column exactly the unqualified partition is
      (re)written. With one, exactly the annual and quarterly partitions are
      written, each holding the rows of its period without the tag, and only
      when that subset is not empty; every other file is left as it was. */
  lemma SplitWrites(disk: Disk, t: Table, endpoint: string, ticker: string)
    ensures var d := SplitByPeriod(disk, t, endpoint, ticker);
      PeriodColumn !in t.columns ==>
        PartitionPath(endpoint, ticker) in d && d[PartitionPath(endpoint, ticker)] == Readable(t) &&
        forall path :: path != PartitionPath(endpoint, ticker) ==>
          (path in d <==> path in disk) && (path in disk ==> d[path] == disk[path])
    ensures var d := SplitByPeriod(disk, t, endpoint, ticker);
      PeriodColumn in t.columns ==>
        (forall period :: period in Periods ==>
          var path := PeriodPath(endpoint, period, ticker);
          if IsEmpty(PeriodSubset(t, period)) then (path in d <==> path in disk) && (path in disk ==> d[path] == disk[path])
          else path in d && d[path] == Readable(PeriodSubset(t, period))) &&
        forall path :: path != PeriodPath(endpoint, Annual, ticker) && path != PeriodPath(endpoint, Quarterly, ticker) ==>
          (path in d <==> path in disk) && (path in disk ==> d[path] == disk[path])
  {
    if PeriodColumn in t.columns {
      var pa, pq := PeriodPath(endpoint, Annual, ticker), PeriodPath(endpoint, Quarterly, ticker);
      var sa, sq := PeriodSubset(t, Annual), PeriodSubset(t, Quarterly);
      assert Periods[..1][..0] == [] && Periods[..1][0] == Annual && |Periods[..1]| == 1;
      assert WritePeriods(disk, t, endpoint, ticker, []) == disk;
      var d1 := WritePeriods(disk, t, endpoint, ticker, Periods[..1]);
      assert d1 == if IsEmpty(sa) then disk else disk[pa := Readable(sa)];
      assert Periods[..2][..1] == Periods[..1];
      assert Periods[..2] == Periods;
      var d2 := WritePeriods(disk, t, endpoint, ticker, Periods);
      assert d2 == if IsEmpty(sq) then d1 else d1[pq := Readable(sq)];
      assert pa != pq;
    }
  }

  /** Each row lands in at most one period partition: the two partitions
      hold all rows exactly when every row is tagged "annual" or
      "quarterly", and rows with any other tag are written nowhere. */
  lemma {:induction false} PeriodRowsPartition(rows: seq<Row>)
    ensures |RowsTagged(rows, Annual)| + |RowsTagged(rows, Quarterly)| + |RowsUntagged(rows)| == |rows|
    ensures (forall row :: row in rows ==> TaggedWith(row, Annual) || TaggedWith(row, Quarterly)) <==>
            |RowsTagged(rows, Annual)| + |RowsTagged(rows, Quarterly)| == |rows|
  {
    if rows != [] {
      PeriodRowsPartition(rows[1..]);
      var u := RowsUntagged(rows);
      if u != [] { assert u[0] in u; }
    }
  }

  // ------------------------------------------------------------ _filter_date

  predicate InWindow(v: Value, start: Date, end: Date)
  {
    v.Day? && start <= v.date <= end
  }

  /** `_filter_date(df, start, end)`: the first date column is coerced and
      the rows inside the window are kept, unless that keeps none. */
  function FilterDate(p: Parsers, t: Table, start: Date, end: Date): (r: Result<Table>)
    ensures DateColumn(t.columns).None? ==> r == Ok(t)
    ensures r.Ok? ==> r.value.columns == t.columns && |r.value.rows| <= |t.rows|
    ensures r.Fail? <==> DateColumn(t.columns).Some? && CoerceDateColumn(p, t, DateColumn(t.columns).value).Fail?
  {
    match DateColumn(t.columns)
    case None => Ok(t)
    case Some(c) =>
      match CoerceDateColumn(p, t, c)
      case Fail(e) => Fail(e)
      case Ok(coerced) =>
        var kept := Where(coerced, row => InWindow(At(row, c), start, end));
        assert |kept.rows| <= |coerced.rows|;
        Ok(if !IsEmpty(kept) then kept else coerced)
  }

  /** When some row falls in the window, exactly the rows in the window are
      kept, in order; when none does, every row is kept. */
  lemma FilterDateWindow(p: Parsers, t: Table, start: Date, end: Date)
    requires DateColumn(t.columns).Some? && FilterDate(p, t, start, end).Ok?
    ensures var c := DateColumn(t.columns).value;
      var coerced := CoerceDateColumn(p, t, c).value;
      var r := FilterDate(p, t, start, end).value;
      ((exists i :: 0 <= i < |coerced.rows| && InWindow(At(coerced.rows[i], c), start, end)) ==>
         IsSubsequence(r.rows, coerced.rows) &&
         forall row :: row in r.rows <==> row in coerced.rows && InWindow(At(row, c), start, end)) &&
      ((forall i :: 0 <= i < |coerced.rows| ==> !InWindow(At(coerced.rows[i], c), start, end)) ==>
         r == coerced)
  {
    var c := DateColumn(t.columns).value;
    var coerced := CoerceDateColumn(p, t, c).value;
    var kept := Where(coerced, row => InWindow(At(row, c), start, end));
    if exists i :: 0 <= i < |coerced.rows| && InWindow(At(coerced.rows[i], c), start, end) {
      var i :| 0 <= i < |coerced.rows| && InWindow(At(coerced.rows[i], c), start, end);
      assert coerced.rows[i] in kept.rows;
      assert c in t.columns;
    } else {
      assert forall row :: row in coerced.rows ==> !InWindow(At(row, c), start, end);
    }
  }

  // ------------------------------------------------------------ the store

  /** A data directory whose files the pipeline writes, reads and deletes. */
  class Store {
    var disk: Disk

    constructor (initial: Disk)
      ensures disk == initial
    {
      disk := initial;
    }

    /** `_write_parquet(df, path)`: replaces whatever was there. */
    method WriteParquet(t: Table, path: Path)
      modifies this
      ensures disk == old(disk)[path := Readable(t)]
    {
      disk := disk[path := Readable(t)];
    }

    /** `path.unlink(missing_ok=True)`. */
    method Unlink(path: Path)
      modifies this
      ensures disk == old(disk) - {path}
    {
      disk := disk - {path};
    }

    /** `pd.read_parquet(path)`. */
    method ReadParquet(path: Path) returns (r: Result<Table>)
      ensures r == ReadTable(disk, path)
      ensures r.Ok? ==> path in disk && disk[path] == Readable(r.value)
    {
      if path !in disk {
        return Fail(FileNotFound);
      }
      match disk[path]
      case Readable(t) => r := Ok(t);
      case Unreadable => r := Fail(ReadFailure);
    }

    /** The resume test for one file. */
    method IsPopulated(path: Path) returns (b: bool)
      ensures b == Populated(disk, path)
    {
      var existing := ReadParquet(path);
      b := existing.Ok? && !IsEmpty(existing.value);
    }

    /** `_all_period_files_exist(base, endpoint, ticker)`. */
    method AllPeriodFilesExist(endpoint: string, ticker: string) returns (b: bool)
      ensures b == PeriodsPopulated(disk, endpoint, ticker)
    {
      var a := ReadParquet(PeriodPath(endpoint, Annual, ticker));
      var q := ReadParquet(PeriodPath(endpoint, Quarterly, ticker));
      if a.Fail? || q.Fail? {
        return false;
      }
      b := !IsEmpty(a.value) && !IsEmpty(q.value);
    }

    /** `_write_split_by_period(df, base, endpoint, ticker)`. */
    method WriteSplitByPeriod(t: Table, endpoint: string, ticker: string)
      modifies this
      ensures disk == SplitByPeriod(old(disk), t, endpoint, ticker)
    {
      if PeriodColumn !in t.columns {
        WriteParquet(t, PartitionPath(endpoint, ticker));
        return;
      }
      var i := 0;
      while i < |Periods|
        invariant 0 <= i <= |Periods|
        invariant disk == WritePeriods(old(disk), t, endpoint, ticker, Periods[..i])
      {
        assert Periods[..i + 1][..i] == Periods[..i];
        var sub := PeriodSubset(t, Periods[i]);
        if !IsEmpty(sub) {
          WriteParquet(sub, PeriodPath(endpoint, Periods[i], ticker));
        }
        i := i + 1;
      }
      assert Periods[..i] == Periods;
    }
  }
}

=== FILE: quality.dfy ===
/** The quality checks (quality.py): for each final dataset, the number of
    rows with a missing cell and the columns with the most missing cells,
    the rows whose prices are out of order, and the rows with a negative
    volume. The checks only read the final directory. */
module Quality {
  import opened Wrappers
  import opened Strings
  import opened Frame
  import opened Storage

  // ------------------------------------------------------------ row tests

  /** The missing-value tests whose counts are reported. */
  datatype Test =
    | HasMissing(columns: seq<string>)   // some column is missing
    | MissingIn(c: string)               // the column is missing

  predicate Holds(k: Test, row: Row)
  {
    match k
    case HasMissing(cols) => exists c :: c in cols && IsMissing(At(row, c))
    case MissingIn(c) => IsMissing(At(row, c))
  }

  /** `mask.sum()` / `len(df[mask])`. */
  function CountOf(k: Test, rows: seq<Row>): (r: nat)
    ensures r <= |rows|
  {
    if rows == [] then 0 else (if Holds(k, rows[0]) then 1 else 0) + CountOf(k, rows[1..])
  }

  /** A count is positive exactly when some row passes the test. */
  lemma {:induction false} CountOfPositive(k: Test, rows: seq<Row>)
    ensures CountOf(k, rows) > 0 <==> exists i :: 0 <= i < |rows| && Holds(k, rows[i])
  {
    if rows != [] {
      CountOfPositive(k, rows[1..]);
      assert forall i :: 1 <= i < |rows| ==> rows[i] == rows[1..][i - 1];
    }
  }

  // ------------------------------------------------------------ _missing_detail

  /** A column and its number of missing cells. */
  type Entry = (string, nat)

  /** `df.isna().sum()`. */
  function MissingCounts(t: Table): (r: seq<Entry>)
    ensures |r| == |t.columns|
    ensures forall i :: 0 <= i < |r| ==> r[i] == (t.columns[i], CountOf(MissingIn(t.columns[i]), t.rows))
  {
    seq(|t.columns|, i requires 0 <= i < |t.columns| => (t.columns[i], CountOf(MissingIn(t.columns[i]), t.rows)))
  }

  /** `na_counts[na_counts > 0]`. */
  function NonZero(s: seq<Entry>): (r: seq<Entry>)
    ensures forall e :: e in r <==> e in s && e.1 > 0
  {
    if s == [] then [] else (if s[0].1 > 0 then [s[0]] else []) + NonZero(s[1..])
  }

  /** Counts in non-increasing order. */
  predicate Descending(s: seq<Entry>)
  {
    forall i, j :: 0 <= i < j < |s| ==> s[i].1 >= s[j].1
  }

  /** `x` placed before the first entry with a smaller count. */
  function InsertDescending(x: Entry, s: seq<Entry>): (r: seq<Entry>)
    requires Descending(s)
    ensures Descending(r)
    ensures multiset(r) == multiset(s) + multiset{x}
    ensures r[0] == x || (s != [] && r[0] == s[0])
  {
    if s == [] || x.1 >= s[0].1 then [x] + s
    else
      DescendingTail(s);
      var rest := InsertDescending(x, s[1..]);
      assert s == [s[0]] + s[1..];
      assert multiset([s[0]] + rest) == multiset{s[0]} + multiset(rest);
      BoundedByHead(s, x, rest);
      ConsDescending(s[0], rest);
      [s[0]] + rest
  }

  /** Every entry of the insertion into the tail of `s` is no larger than
      the head of `s`, when `x` is not. */
  lemma BoundedByHead(s: seq<Entry>, x: Entry, rest: seq<Entry>)
    requires s != [] && Descending(s) && x.1 <= s[0].1
    requires multiset(rest) == multiset(s[1..]) + multiset{x}
    ensures forall k :: 0 <= k < |rest| ==> rest[k].1 <= s[0].1
  {
    forall k | 0 <= k < |rest| ensures rest[k].1 <= s[0].1 {
      assert rest[k] in multiset(rest);
      if rest[k] != x {
        assert rest[k] in multiset(s[1..]);
        var m :| 0 <= m < |s[1..]| && s[1..][m] == rest[k];
        assert s[m + 1] == rest[k];
      }
    }
  }

  lemma DescendingTail(s: seq<Entry>)
    requires s != [] && Descending(s)
    ensures Descending(s[1..])
  {
    forall i, j | 0 <= i < j < |s| - 1 ensures s[1..][i].1 >= s[1..][j].1 {
      assert s[1..][i] == s[i + 1] && s[1..][j] == s[j + 1];
    }
  }

  lemma ConsDescending(h: Entry, rest: seq<Entry>)
    requires Descending(rest)
    requires forall k :: 0 <= k < |rest| ==> rest[k].1 <= h.1
    ensures Descending([h] + rest)
  {
    var r := [h] + rest;
    forall i, j | 0 <= i < j < |r| ensures r[i].1 >= r[j].1 {
      if i > 0 {
        assert r[i] == rest[i - 1] && r[j] == rest[j - 1];
      }
    }
  }

  /** `sort_values(ascending=False)`; ties keep the column order. */
  function SortDescending(s: seq<Entry>): (r: seq<Entry>)
    ensures Descending(r)
    ensures multiset(r) == multiset(s)
  {
    if s == [] then []
    else
      assert s == [s[0]] + s[1..];
      InsertDescending(s[0], SortDescending(s[1..]))
  }

  /** `series.head(n)`: the first `n` entries, or all but the last `-n` when
      `n` is negative. */
  function Head(s: seq<Entry>, n: int): (r: seq<Entry>)
    ensures |r| <= |s| && r == s[..|r|]
    ensures n >= 0 ==> |r| == if n < |s| then n else |s|
    ensures n < 0 ==> |r| == if |s| + n > 0 then |s| + n else 0
  {
    if n >= 0 then (if n < |s| then s[..n] else s)
    else if |s| + n > 0 then s[..|s| + n] else []
  }

  /** `_missing_detail(df, top_n)`, as column/count pairs. */
  function TopMissing(t: Table, topN: int): seq<Entry>
  {
    if |t.rows| == 0 then [] else Head(SortDescending(NonZero(MissingCounts(t))), topN)
  }

  lemma SortedMembers(s: seq<Entry>)
    ensures |SortDescending(s)| == |s|
    ensures forall e :: e in SortDescending(s) <==> e in s
  {
    var r := SortDescending(s);
    assert |multiset(r)| == |multiset(s)|;
    forall e ensures e in r <==> e in s {
      assert e in r <==> e in multiset(r);
      assert e in s <==> e in multiset(s);
    }
  }

  /** The non-zero counts are the columns with missing cells, each with its
      count. */
  lemma NonZeroCounts(t: Table)
    ensures forall e :: e in NonZero(MissingCounts(t)) <==>
      e.0 in t.columns && e.1 > 0 && e.1 == CountOf(MissingIn(e.0), t.rows)
  {
    var counts := MissingCounts(t);
    forall e: Entry | e.0 in t.columns && e.1 > 0 && e.1 == CountOf(MissingIn(e.0), t.rows)
      ensures e in counts
    {
      var k :| 0 <= k < |t.columns| && t.columns[k] == e.0;
      assert counts[k] == e;
    }
  }

  /** The first `n` of the sorted entries are entries of `s`, in
      non-increasing order, and none left out has a larger count than one
      kept; with room for all, all are kept. */
  lemma HeadOfSorted(s: seq<Entry>, n: int)
    ensures var r := Head(SortDescending(s), n);
      Descending(r) &&
      (n >= 0 ==> |r| <= n) &&
      (forall i :: 0 <= i < |r| ==> r[i] in s) &&
      (forall e :: e in s && e !in r ==> forall i :: 0 <= i < |r| ==> r[i].1 >= e.1) &&
      (n >= |s| ==> forall e :: e in s ==> e in r)
  {
    SortedMembers(s);
    HeadOfDescending(SortDescending(s), s, n);
  }

  /** The same for any descending arrangement `sorted` of `s`. */
  lemma HeadOfDescending(sorted: seq<Entry>, s: seq<Entry>, n: int)
    requires Descending(sorted) && |sorted| == |s|
    requires forall e :: e in sorted <==> e in s
    ensures var r := Head(sorted, n);
      Descending(r) &&
      (n >= 0 ==> |r| <= n) &&
      (forall i :: 0 <= i < |r| ==> r[i] in s) &&
      (forall e :: e in s && e !in r ==> forall i :: 0 <= i < |r| ==> r[i].1 >= e.1) &&
      (n >= |s| ==> forall e :: e in s ==> e in r)
  {
    var r := Head(sorted, n);
    forall i | 0 <= i < |r| ensures r[i] in s {
      assert r[i] == sorted[i];
    }
    forall e | e in s && e !in r
      ensures forall i :: 0 <= i < |r| ==> r[i].1 >= e.1
    {
      var j :| 0 <= j < |sorted| && sorted[j] == e;
      assert j >= |r|;
    }
    if n >= |s| {
      assert r == sorted;
    }
  }

  /** The detail lists nothing for an empty table; otherwise only columns
      of the table with missing cells, each with its count, in
      non-increasing order of count, at most `topN` of them, and no column
      left out has more missing cells than one listed. With enough room
      every column with a missing cell is listed. */
  lemma TopMissingSpec(t: Table, topN: int)
    ensures |t.rows| == 0 ==> TopMissing(t, topN) == []
    ensures var r := TopMissing(t, topN);
      Descending(r) &&
      (topN >= 0 ==> |r| <= topN) &&
      (forall i :: 0 <= i < |r| ==>
        r[i].0 in t.columns && r[i].1 > 0 && r[i].1 == CountOf(MissingIn(r[i].0), t.rows)) &&
      (forall c :: c in t.columns && CountOf(MissingIn(c), t.rows) > 0 && (c, CountOf(MissingIn(c), t.rows)) !in r ==>
        forall i :: 0 <= i < |r| ==> r[i].1 >= CountOf(MissingIn(c), t.rows)) &&
      (|t.rows| > 0 && topN >= |t.columns| ==>
        forall c :: c in t.columns && CountOf(MissingIn(c), t.rows) > 0 ==> (c, CountOf(MissingIn(c), t.rows)) in r)
  {
    if |t.rows| > 0 {
      var nz := NonZero(MissingCounts(t));
      HeadOfSorted(nz, topN);
      NonZeroCounts(t);
      NonZeroLength(MissingCounts(t));
    }
  }

  lemma {:induction false} NonZeroLength(s: seq<Entry>)
    ensures |NonZero(s)| <= |s|
  {
    if s != [] {
      NonZeroLength(s[1..]);
    }
  }

  // ------------------------------------------------------------ the checks

  /** One entry of an issue list, with its count. */
  datatype Issue = MissingRows(count: nat) | OpenAboveHigh(count: nat) | LowAboveClose(count: nat) | NegativeVolume(count: nat)

  /** The four lists reported for a dataset. */
  datatype Issues = Issues(missing: seq<Issue>, consistency: seq<Issue>, bounds: seq<Issue>, missingDetail: seq<Entry>)

  predicate HasPrices(t: Table)
  {
    "open" in t.columns && "high" in t.columns && "low" in t.columns && "close" in t.columns
  }

  /** An entry for a non-zero count only. */
  function IfPositive(n: nat, issue: Issue): seq<Issue>
  {
    if n > 0 then [issue] else []
  }

  // ------------------------------------------------------------ comparisons

  /** A number or a boolean: Python compares these by value. */
  predicate IsNumeric(j: Json)
  {
    j.JNum? || j.JBool?
  }

  function NumericValue(j: Json): real
    requires IsNumeric(j)
  {
    match j
    case JNum(n) => n
    case JBool(b) => if b then 1.0 else 0.0
  }

  /** `a > b` on two cells, as pandas applies Python's `>` to object columns
      cell by cell: a missing cell compares false; numbers and booleans compare
      by value, strings in lexicographic order of code points, dates by day;
      any other pair raises `TypeError`. */
  function Greater(a: Value, b: Value): (r: Result<bool>)
    ensures r.Fail? ==> r.error == TypeError
    ensures IsMissing(a) || IsMissing(b) ==> r == Ok(false)
  {
    if IsMissing(a) || IsMissing(b) then Ok(false)
    else match (a, b)
      case (Day(x), Day(y)) => Ok(x > y)
      case (Cell(x), Cell(y)) =>
        if IsNumeric(x) && IsNumeric(y) then Ok(NumericValue(x) > NumericValue(y))
        else if x.JStr? && y.JStr? then Ok(Less(y.s, x.s))
        else Fail(TypeError)
      case _ => Fail(TypeError)
  }

  /** `>` is a strict order where it is defined: never both ways, never on
      equal cells, and a pair that raises raises either way round. */
  lemma GreaterAsymmetric(a: Value, b: Value)
    ensures Greater(a, b) == Ok(true) ==> Greater(b, a) == Ok(false)
    ensures Greater(a, a).Ok? ==> Greater(a, a) == Ok(false)
    ensures Greater(a, b).Fail? <==> Greater(b, a).Fail?
  {
    if a.Cell? && a.j.JStr? {
      LessIrreflexive(a.j.s);
      if b.Cell? && b.j.JStr? && Less(b.j.s, a.j.s) && Less(a.j.s, b.j.s) {
        LessTransitive(a.j.s, b.j.s, a.j.s);
      }
    }
  }

  /** The cell comparisons a check makes. */
  datatype Comparison =
    | Above(a: string, b: string)        // `df[a] > df[b]`
    | Negative(c: string)                // `df[c] < 0`

  function Compared(k: Comparison, row: Row): Result<bool>
  {
    match k
    case Above(a, b) => Greater(At(row, a), At(row, b))
    case Negative(c) => Greater(Cell(JNum(0.0)), At(row, c))
  }

  /** Comparison `k` raises on some row. */
  predicate Raises(k: Comparison, rows: seq<Row>)
  {
    exists i :: 0 <= i < |rows| && Compared(k, rows[i]).Fail?
  }

  /** `len(df[mask])` for a comparison mask: the rows where it is true; the
      whole mask raises when one cell comparison does. */
  function CountTrue(k: Comparison, rows: seq<Row>): (r: Result<nat>)
    ensures r.Ok? <==> forall i :: 0 <= i < |rows| ==> Compared(k, rows[i]).Ok?
    ensures r.Fail? <==> Raises(k, rows)
    ensures r.Fail? ==> r.error == TypeError
    ensures r.Ok? ==> r.value <= |rows|
  {
    if rows == [] then Ok(0)
    else
      assert forall i :: 1 <= i < |rows| ==> rows[i] == rows[1..][i - 1];
      match Compared(k, rows[0])
      case Fail(e) => Fail(e)
      case Ok(here) =>
        match CountTrue(k, rows[1..])
        case Fail(e) => Fail(e)
        case Ok(n) => Ok((if here then 1 else 0) + n)
  }

  /** A count is positive exactly when the comparison holds on some row. */
  lemma {:induction false} CountTruePositive(k: Comparison, rows: seq<Row>)
    requires CountTrue(k, rows).Ok?
    ensures CountTrue(k, rows).value > 0 <==> exists i :: 0 <= i < |rows| && Compared(k, rows[i]) == Ok(true)
  {
    if rows != [] {
      assert forall i :: 1 <= i < |rows| ==> rows[i] == rows[1..][i - 1];
      CountTruePositive(k, rows[1..]);
    }
  }

  /** The ordering checks, run only when all four price columns exist. */
  function ConsistencyIssues(t: Table): Result<seq<Issue>>
  {
    if HasPrices(t) then
      match CountTrue(Above("open", "high"), t.rows)
      case Fail(e) => Fail(e)
      case Ok(oh) =>
        match CountTrue(Above("low", "close"), t.rows)
        case Fail(e) => Fail(e)
        case Ok(lc) => Ok(IfPositive(oh, OpenAboveHigh(oh)) + IfPositive(lc, LowAboveClose(lc)))
    else Ok([])
  }

  /** The volume check, run only when the column exists. */
  function BoundsIssues(t: Table): Result<seq<Issue>>
  {
    if "volume" in t.columns then
      match CountTrue(Negative("volume"), t.rows)
      case Fail(e) => Fail(e)
      case Ok(neg) => Ok(IfPositive(neg, NegativeVolume(neg)))
    else Ok([])
  }

  /** Some comparison the checks of `t` make raises. */
  predicate ComparisonRaises(t: Table)
  {
    (HasPrices(t) && (Raises(Above("open", "high"), t.rows) || Raises(Above("low", "close"), t.rows))) ||
    ("volume" in t.columns && Raises(Negative("volume"), t.rows))
  }

  /** The checks of one loaded dataset; `TypeError` when a price or volume
      comparison raises. The date coercion on the loaded copy comes after the
      missing-value counts and touches no column another check reads, so it
      does not show here. */
  function CheckTable(t: Table, topN: int): (r: Result<Issues>)
    ensures r.Fail? <==> ComparisonRaises(t)
    ensures r.Fail? ==> r.error == TypeError
  {
    var withMissing := CountOf(HasMissing(t.columns), t.rows);
    match ConsistencyIssues(t)
    case Fail(e) => Fail(e)
    case Ok(consistency) =>
      match BoundsIssues(t)
      case Fail(e) => Fail(e)
      case Ok(bounds) =>
        Ok(Issues(IfPositive(withMissing, MissingRows(withMissing)), consistency, bounds,
                  if withMissing > 0 then TopMissing(t, topN) else []))
  }

  /** When the checks run through, the missing entry appears exactly when some
      cell is missing, and then counts the rows with a missing cell; the
      detail is listed only with it. */
  lemma MissingCheckSpec(t: Table, topN: int)
    ensures CheckTable(t, topN).Ok? <==> !ComparisonRaises(t)
    ensures var r := CheckTable(t, topN); r.Ok? ==>
      (r.value.missing != [] <==> exists i, c :: 0 <= i < |t.rows| && c in t.columns && IsMissing(At(t.rows[i], c))) &&
      (r.value.missing != [] ==> r.value.missing == [MissingRows(CountOf(HasMissing(t.columns), t.rows))] &&
                                 CountOf(HasMissing(t.columns), t.rows) > 0) &&
      (r.value.missing == [] ==> r.value.missingDetail == [])
  {
    CountOfPositive(HasMissing(t.columns), t.rows);
  }

  /** The ordering entries appear only when all four price columns exist,
      each exactly when `>` holds on some row, with the number of such rows;
      a comparison that raises makes the whole check raise. */
  lemma ConsistencyCheckSpec(t: Table, topN: int)
    ensures var r := CheckTable(t, topN);
      (HasPrices(t) && exists i :: 0 <= i < |t.rows| && Compared(Above("open", "high"), t.rows[i]).Fail?) ==>
        r == Fail(TypeError)
    ensures var r := CheckTable(t, topN);
      r.Ok? && !HasPrices(t) ==> r.value.consistency == []
    ensures var r := CheckTable(t, topN);
      var oh := CountTrue(Above("open", "high"), t.rows);
      var lc := CountTrue(Above("low", "close"), t.rows);
      r.Ok? && HasPrices(t) ==>
        oh.Ok? && lc.Ok? &&
        r.value.consistency == IfPositive(oh.value, OpenAboveHigh(oh.value)) + IfPositive(lc.value, LowAboveClose(lc.value)) &&
        (oh.value > 0 <==> exists i :: 0 <= i < |t.rows| && Greater(At(t.rows[i], "open"), At(t.rows[i], "high")) == Ok(true)) &&
        (lc.value > 0 <==> exists i :: 0 <= i < |t.rows| && Greater(At(t.rows[i], "low"), At(t.rows[i], "close")) == Ok(true))
  {
    var r := CheckTable(t, topN);
    if r.Ok? && HasPrices(t) {
      assert ConsistencyIssues(t).Ok?;
      CountTruePositive(Above("open", "high"), t.rows);
      CountTruePositive(Above("low", "close"), t.rows);
    }
  }

  /** The volume entry appears exactly when the column exists and some
      volume is below zero, with the number of such rows; a volume that
      cannot be compared with 0 (a string, a date) makes the check raise. */
  lemma BoundsCheckSpec(t: Table, topN: int)
    ensures var r := CheckTable(t, topN);
      ("volume" in t.columns && exists i :: 0 <= i < |t.rows| && Compared(Negative("volume"), t.rows[i]).Fail?) ==>
        r == Fail(TypeError)
    ensures var r := CheckTable(t, topN);
      var neg := CountTrue(Negative("volume"), t.rows);
      r.Ok? ==>
        (r.value.bounds != [] <==>
          ("volume" in t.columns &&
           exists i :: 0 <= i < |t.rows| && Greater(Cell(JNum(0.0)), At(t.rows[i], "volume")) == Ok(true))) &&
        (r.value.bounds != [] ==> neg.Ok? && r.value.bounds == [NegativeVolume(neg.value)] && neg.value > 0)
  {
    var r := CheckTable(t, topN);
    if r.Ok? && "volume" in t.columns {
      assert BoundsIssues(t).Ok?;
      CountTruePositive(Negative("volume"), t.rows);
    }
  }

  /** A string volume never counts as negative: comparing it with 0 raises. */
  lemma StringVolumeRaises(s: string)
    ensures Greater(Cell(JNum(0.0)), Cell(JStr(s))) == Fail(TypeError)
  {
  }

  /** Strings compare as text: "9.5" is above "10.1". */
  lemma StringPricesCompareAsText()
    ensures Greater(Cell(JStr("9.5")), Cell(JStr("10.1"))) == Ok(true)
  {
    assert "9.5"[0] == '9' && "10.1"[0] == '1';
  }

  // ------------------------------------------------------------ run_quality_checks

  /** The reports over `names`: a missing dataset is left out; an unreadable
      one, or one whose checks raise, stops the call. */
  function QualityReports(disk: Disk, names: seq<string>, topN: int): Result<map<string, Issues>>
    decreases |names|
  {
    if names == [] then Ok(map[])
    else
      var n := |names| - 1;
      match QualityReports(disk, names[..n], topN)
      case Fail(e) => Fail(e)
      case Ok(m) =>
        match ReadTable(disk, FinalPath(names[n]))
        case Ok(t) =>
          (match CheckTable(t, topN)
           case Ok(issues) => Ok(m[names[n] := issues])
           case Fail(e) => Fail(e))
        case Fail(e) => if e == FileNotFound then Ok(m) else Fail(e)
  }

  /** A selected dataset that exists can be checked: it reads back and none of
      its comparisons raises. */
  predicate Checkable(disk: Disk, x: string, topN: int)
  {
    FinalPath(x) in disk ==> disk[FinalPath(x)].Readable? && CheckTable(disk[FinalPath(x)].t, topN).Ok?
  }

  /** The call fails exactly when a selected dataset cannot be read or its
      checks raise; otherwise every selected dataset that exists is reported,
      with the checks of its table, and nothing else is. */
  lemma {:induction false} QualityReportsSpec(disk: Disk, names: seq<string>, topN: int)
    ensures var r := QualityReports(disk, names, topN);
      (r.Ok? <==> forall x :: x in names ==> Checkable(disk, x, topN)) &&
      (r.Ok? ==>
        (forall x :: x in r.value <==> x in names && FinalPath(x) in disk) &&
        (forall x :: x in r.value ==> r.value[x] == CheckTable(disk[FinalPath(x)].t, topN).value))
    decreases |names|
  {
    if names != [] {
      var n := |names| - 1;
      QualityReportsSpec(disk, names[..n], topN);
      assert names == names[..n] + [names[n]];
      assert forall x :: x in names <==> x in names[..n] || x == names[n];
      var prev := QualityReports(disk, names[..n], topN);
      if prev.Ok? && !Checkable(disk, names[n], topN) {
        assert QualityReports(disk, names, topN).Fail?;
      }
    }
  }

  /** `run_quality_checks(dataset, top_missing)`, given the stems of the
      final directory's listing. It has no `modifies` clause: the data is
      left as it was. */
  method RunQualityChecks(store: Store, dataset: string, stems: seq<string>, topN: int)
    returns (r: Result<map<string, Issues>>)
    ensures r == QualityReports(store.disk, Selection(dataset, stems), topN)
  {
    var names := Selection(dataset, stems);
    var reports: map<string, Issues> := map[];
    var i := 0;
    while i < |names|
      invariant 0 <= i <= |names|
      invariant QualityReports(store.disk, names[..i], topN) == Ok(reports)
    {
      assert names[..i + 1][..i] == names[..i];
      var read := store.ReadParquet(FinalPath(names[i]));
      if read.Fail? && read.error != FileNotFound {
        QualityStops(store.disk, names, topN, i + 1);
        return Fail(read.error);
      }
      if read.Ok? {
        var issues := CheckTable(read.value, topN);
        if issues.Fail? {
          QualityStops(store.disk, names, topN, i + 1);
          return Fail(issues.error);
        }
        reports := reports[names[i] := issues.value];
      }
      i := i + 1;
    }
    assert names[..i] == names;
    r := Ok(reports);
  }

  /** Once a read has failed, the later datasets are not visited. */
  lemma {:induction false} QualityStops(disk: Disk, names: seq<string>, topN: int, k: nat)
    requires k <= |names| && QualityReports(disk, names[..k], topN).Fail?
    ensures QualityReports(disk, names, topN) == QualityReports(disk, names[..k], topN)
    decreases |names|
  {
    if k < |names| {
      var n := |names| - 1;
      assert names[..n][..k] == names[..k];
      QualityStops(disk, names[..n], topN, k);
    } else {
      assert names[..k] == names;
    }
  }
}

=== FILE: reports.dfy ===
/** The fundamentals flattener (`_json_to_df` in ingestion.py): paired
    annual/quarterly collections become one table tagged with `period_type`;
    other payloads fall back to their first list, then to the whole dict. */
module Reports {
  import opened Wrappers
  import opened Frame
  import opened JsonNormalize

  /** The annual/quarterly key pairs, in the order they are tried. */
  const PairedKeys: seq<(string, string)> := [
    ("annualReports", "quarterlyReports"),
    ("annualEarnings", "quarterlyEarnings"),
    ("annualEarningsEstimates", "quarterlyEarningsEstimates")
  ]

  /** The keys whose list value is flattened when no pair matched. */
  const ListKeys: seq<string> := ["annualReports", "quarterlyReports", "bestMatches", "data"]

  /** `pd.json_normalize(v)` on any value: a scalar is not supported. */
  function NormalizeValue(j: Json): (r: Result<Table>)
    ensures r.Ok? <==> j.JList? || j.JObj?
    ensures j.JList? ==> r.Ok? && |r.value.rows| == |j.items|
  {
    if j.JList? || j.JObj? then Ok(Normalize(j)) else Fail(NotImplementedError)
  }

  /** `df["period_type"] = period`. */
  function Tag(t: Table, period: string): (r: Table)
    ensures PeriodColumn in r.columns && |r.rows| == |t.rows|
    ensures forall i :: 0 <= i < |r.rows| ==> At(r.rows[i], PeriodColumn) == Cell(JStr(period))
  {
    SetColumn(t, PeriodColumn, Cell(JStr(period)))
  }

  /** The frame of one side of a pair: none when the value is falsy. */
  function SideFrames(fields: seq<(string, Json)>, key: string, period: string): Result<seq<Table>>
  {
    var v := GetOrNull(fields, key);
    if !Truthy(v) then Ok([])
    else match NormalizeValue(v)
      case Ok(t) => Ok([Tag(t, period)])
      case Fail(e) => Fail(e)
  }

  /** The frames of one pair: annual first, then quarterly. */
  function PairFrames(fields: seq<(string, Json)>, annualKey: string, quarterlyKey: string): Result<seq<Table>>
  {
    match SideFrames(fields, annualKey, Annual)
    case Fail(e) => Fail(e)
    case Ok(a) =>
      match SideFrames(fields, quarterlyKey, Quarterly)
      case Fail(e) => Fail(e)
      case Ok(q) => Ok(a + q)
  }

  /** The number of rows in the frames before frame `f`. */
  function RowsBefore(frames: seq<Table>, f: nat): nat
    requires f <= |frames|
  {
    if f == 0 then 0 else RowsBefore(frames, f - 1) + |frames[f - 1].rows|
  }

  /** Some frame has column `c`. */
  predicate InSomeFrame(frames: seq<Table>, c: string)
  {
    exists f :: 0 <= f < |frames| && c in frames[f].columns
  }

  /** `pd.concat(frames, ignore_index=True)`: the rows of every frame, one
      frame after the other (`ConcatAllRows`), under the union of their
      columns. */
  function ConcatAll(frames: seq<Table>): (r: Table)
    requires frames != []
    ensures |r.rows| == RowsBefore(frames, |frames|)
    ensures forall c :: c in r.columns <==> InSomeFrame(frames, c)
    ensures |frames| == 1 ==> r == frames[0]
    ensures |frames| == 2 ==> r.rows == frames[0].rows + frames[1].rows
    decreases |frames|
  {
    var n := |frames| - 1;
    if n == 0 then
      assert forall c :: InSomeFrame(frames, c) <==> c in frames[0].columns;
      frames[0]
    else
      var front := ConcatAll(frames[..n]);
      RowsBeforeSame(frames[..n], frames, n);
      assert forall c :: InSomeFrame(frames, c) <==> InSomeFrame(frames[..n], c) || c in frames[n].columns by {
        forall c ensures InSomeFrame(frames, c) <==> InSomeFrame(frames[..n], c) || c in frames[n].columns {
          InSomeFrameSnoc(frames, c);
        }
      }
      Concat(front, frames[n])
  }

  lemma InSomeFrameSnoc(frames: seq<Table>, c: string)
    requires frames != []
    ensures var n := |frames| - 1; InSomeFrame(frames, c) <==> InSomeFrame(frames[..n], c) || c in frames[n].columns
  {
    var n := |frames| - 1;
    if InSomeFrame(frames, c) {
      var f :| 0 <= f < |frames| && c in frames[f].columns;
      if f < n {
        assert frames[..n][f] == frames[f];
      }
    }
    if InSomeFrame(frames[..n], c) {
      var f :| 0 <= f < n && c in frames[..n][f].columns;
      assert frames[..n][f] == frames[f];
    }
  }

  /** Row `i` of frame `f` sits in the concatenation after the rows of the
      frames before `f`. */
  lemma {:induction false} ConcatAllRows(frames: seq<Table>, f: nat, i: nat)
    requires f < |frames| && i < |frames[f].rows|
    ensures RowsBefore(frames, f) + i < |ConcatAll(frames).rows|
    ensures ConcatAll(frames).rows[RowsBefore(frames, f) + i] == frames[f].rows[i]
    decreases |frames|
  {
    var n := |frames| - 1;
    if n > 0 {
      var front := ConcatAll(frames[..n]);
      assert ConcatAll(frames).rows == front.rows + frames[n].rows;
      if f < n {
        ConcatAllRows(frames[..n], f, i);
        RowsBeforeSame(frames[..n], frames, f);
        assert frames[..n][f] == frames[f];
      } else {
        RowsBeforeSame(frames[..n], frames, n);
      }
    }
  }

  lemma {:induction false} RowsBeforeSame(a: seq<Table>, b: seq<Table>, f: nat)
    requires f <= |a| && f <= |b|
    requires forall g :: 0 <= g < f ==> a[g] == b[g]
    ensures RowsBefore(a, f) == RowsBefore(b, f)
  {
    if f > 0 {
      RowsBeforeSame(a, b, f - 1);
    }
  }

  /** The pair checks from pair `i` on; the first pair that has a key and
      yields a frame decides. */
  function Paired(fields: seq<(string, Json)>, i: nat): Result<Table>
    decreases |PairedKeys| - i
  {
    if i >= |PairedKeys| then Ok(Unpaired(fields))
    else
      var (a, q) := PairedKeys[i];
      if HasKey(fields, a) || HasKey(fields, q) then
        match PairFrames(fields, a, q)
        case Fail(e) => Fail(e)
        case Ok(frames) => if frames != [] then Ok(ConcatAll(frames)) else Paired(fields, i + 1)
      else Paired(fields, i + 1)
  }

  /** `keys` has a list value in `fields`. */
  predicate ListAt(fields: seq<(string, Json)>, key: string)
  {
    Lookup(fields, key).Some? && Lookup(fields, key).value.JList?
  }

  /** `keys[k]` is the first of `keys` with a list value. */
  predicate FirstListKey(fields: seq<(string, Json)>, keys: seq<string>, k: int)
  {
    0 <= k < |keys| && ListAt(fields, keys[k]) && forall j :: 0 <= j < k ==> !ListAt(fields, keys[j])
  }

  /** The value under the first of `keys` that holds a list. */
  function FirstListAt(fields: seq<(string, Json)>, keys: seq<string>): (r: Option<Json>)
    ensures r.Some? <==> exists k :: 0 <= k < |keys| && ListAt(fields, keys[k])
    ensures r.Some? ==> r.value.JList? && exists k :: FirstListKey(fields, keys, k) && Lookup(fields, keys[k]) == r
  {
    if keys == [] then None
    else if ListAt(fields, keys[0]) then
      assert FirstListKey(fields, keys, 0);
      Lookup(fields, keys[0])
    else
      var r := FirstListAt(fields, keys[1..]);
      FirstListAtStep(fields, keys, r);
      r
  }

  lemma FirstListAtStep(fields: seq<(string, Json)>, keys: seq<string>, r: Option<Json>)
    requires keys != [] && !ListAt(fields, keys[0])
    requires r.Some? <==> exists k :: 0 <= k < |keys[1..]| && ListAt(fields, keys[1..][k])
    requires r.Some? ==> exists k :: FirstListKey(fields, keys[1..], k) && Lookup(fields, keys[1..][k]) == r
    ensures r.Some? <==> exists k :: 0 <= k < |keys| && ListAt(fields, keys[k])
    ensures r.Some? ==> exists k :: FirstListKey(fields, keys, k) && Lookup(fields, keys[k]) == r
  {
    if r.Some? {
      var k :| FirstListKey(fields, keys[1..], k) && Lookup(fields, keys[1..][k]) == r;
      assert keys[k + 1] == keys[1..][k];
      forall j | 0 <= j < k + 1 ensures !ListAt(fields, keys[j]) {
        if j > 0 {
          assert keys[j] == keys[1..][j - 1];
        }
      }
      assert FirstListKey(fields, keys, k + 1);
    } else {
      forall k | 0 <= k < |keys| ensures !ListAt(fields, keys[k]) {
        if k > 0 {
          assert keys[k] == keys[1..][k - 1];
        }
      }
    }
  }

  /** The first value of the dict that is a list. */
  function FirstListValue(fields: seq<(string, Json)>): (r: Option<Json>)
    ensures r.Some? ==> r.value.JList? && exists i :: 0 <= i < |fields| && fields[i].1 == r.value
    ensures r.None? <==> forall i :: 0 <= i < |fields| ==> !fields[i].1.JList?
  {
    if fields == [] then None
    else if fields[0].1.JList? then Some(fields[0].1)
    else
      var r := FirstListValue(fields[1..]);
      assert forall i :: 0 < i < |fields| ==> fields[i] == fields[1..][i - 1];
      r
  }

  /** The fallbacks: a list under one of the common keys, else the first list
      value, else the whole dict as one row. */
  function Unpaired(fields: seq<(string, Json)>): Table
  {
    match FirstListAt(fields, ListKeys)
    case Some(l) => Normalize(l)
    case None =>
      match FirstListValue(fields)
      case Some(l) => Normalize(l)
      case None => Normalize(JObj(fields))
  }

  /** `_json_to_df(payload)` for a JSON object payload. */
  function JsonToDf(fields: seq<(string, Json)>): Result<Table>
  {
    Paired(fields, 0)
  }

  // ------------------------------------------------------------ properties

  /** Pair `j` decides the result: one of its two values is truthy. */
  predicate Decides(fields: seq<(string, Json)>, j: nat)
    requires j < |PairedKeys|
  {
    Truthy(GetOrNull(fields, PairedKeys[j].0)) || Truthy(GetOrNull(fields, PairedKeys[j].1))
  }

  /** The rows one side of a pair contributes: none for a falsy value,
      otherwise its flattened rows tagged with the period. */
  function SideRows(v: Json, period: string): seq<Row>
    requires !Truthy(v) || v.JList? || v.JObj?
  {
    if !Truthy(v) then []
    else
      var t := Normalize(v);
      seq(|t.rows|, i requires 0 <= i < |t.rows| => t.rows[i][PeriodColumn := Cell(JStr(period))])
  }

  /** Pairs that do not decide are passed over, whether their keys are absent
      or hold falsy values. */
  lemma {:induction false} SkipFalsyPairs(fields: seq<(string, Json)>, i: nat, k: nat)
    requires i <= k <= |PairedKeys|
    requires forall j :: i <= j < k ==> !Decides(fields, j)
    ensures Paired(fields, i) == Paired(fields, k)
    decreases k - i
  {
    if i < k {
      SkipFalsyPair(fields, i);
      SkipFalsyPairs(fields, i + 1, k);
    }
  }

  lemma SkipFalsyPair(fields: seq<(string, Json)>, i: nat)
    requires i < |PairedKeys| && !Decides(fields, i)
    ensures Paired(fields, i) == Paired(fields, i + 1)
  {
    var a, q := PairedKeys[i].0, PairedKeys[i].1;
    SideFramesOf(fields, a, Annual);
    SideFramesOf(fields, q, Quarterly);
    assert SideFrames(fields, a, Annual) == Ok([]);
    assert SideFrames(fields, q, Quarterly) == Ok([]);
    var none: seq<Table> := [];
    assert none + none == none;
  }

  /** One side of a pair: nothing when falsy, its tagged frame when it is a
      list or a dict, `NotImplementedError` for any other truthy value. */
  lemma SideFramesOf(fields: seq<(string, Json)>, key: string, period: string)
    ensures var v := GetOrNull(fields, key);
      SideFrames(fields, key, period) ==
        if !Truthy(v) then Ok([])
        else if v.JList? || v.JObj? then Ok([Tag(Normalize(v), period)])
        else Fail(NotImplementedError)
  {
  }

  /** The first pair with a truthy value decides: it fails when a truthy value
      is neither a list nor a dict; otherwise its rows are the flattened annual
      rows tagged "annual" followed by the flattened quarterly rows tagged
      "quarterly", each side only when truthy. */
  lemma PairedRows(fields: seq<(string, Json)>, k: nat)
    requires k < |PairedKeys|
    requires forall j :: 0 <= j < k ==> !Decides(fields, j)
    requires Decides(fields, k)
    ensures var av := GetOrNull(fields, PairedKeys[k].0);
      var qv := GetOrNull(fields, PairedKeys[k].1);
      JsonToDf(fields).Ok? <==> (!Truthy(av) || av.JList? || av.JObj?) && (!Truthy(qv) || qv.JList? || qv.JObj?)
    ensures JsonToDf(fields).Fail? ==> JsonToDf(fields).error == NotImplementedError
    ensures JsonToDf(fields).Ok? ==>
      var av := GetOrNull(fields, PairedKeys[k].0);
      var qv := GetOrNull(fields, PairedKeys[k].1);
      (!Truthy(av) || av.JList? || av.JObj?) && (!Truthy(qv) || qv.JList? || qv.JObj?) &&
      JsonToDf(fields).value.rows == SideRows(av, Annual) + SideRows(qv, Quarterly)
  {
    SkipFalsyPairs(fields, 0, k);
    var (ak, qk) := PairedKeys[k];
    assert HasKey(fields, ak) || HasKey(fields, qk);
    PairFramesRows(fields, ak, qk);
  }

  /** The frames of a pair with a truthy side, and the rows they concatenate to. */
  lemma PairFramesRows(fields: seq<(string, Json)>, ak: string, qk: string)
    requires Truthy(GetOrNull(fields, ak)) || Truthy(GetOrNull(fields, qk))
    ensures var av, qv := GetOrNull(fields, ak), GetOrNull(fields, qk);
      PairFrames(fields, ak, qk).Ok? <==> (!Truthy(av) || av.JList? || av.JObj?) && (!Truthy(qv) || qv.JList? || qv.JObj?)
    ensures PairFrames(fields, ak, qk).Fail? ==> PairFrames(fields, ak, qk).error == NotImplementedError
    ensures PairFrames(fields, ak, qk).Ok? ==>
      var av, qv := GetOrNull(fields, ak), GetOrNull(fields, qk);
      PairFrames(fields, ak, qk).value != [] &&
      ConcatAll(PairFrames(fields, ak, qk).value).rows == SideRows(av, Annual) + SideRows(qv, Quarterly)
  {
    var av, qv := GetOrNull(fields, ak), GetOrNull(fields, qk);
    SideFramesOf(fields, ak, Annual);
    SideFramesOf(fields, qk, Quarterly);
    var pf := PairFrames(fields, ak, qk);
    if pf.Ok? {
      var frames := pf.value;
      var a := if Truthy(av) then [Tag(Normalize(av), Annual)] else [];
      var q := if Truthy(qv) then [Tag(Normalize(qv), Quarterly)] else [];
      assert frames == a + q;
      if Truthy(av) {
        TagRows(av, Annual);
      }
      if Truthy(qv) {
        TagRows(qv, Quarterly);
      }
      if Truthy(av) && Truthy(qv) {
        assert ConcatAll(frames).rows == a[0].rows + q[0].rows;
      } else if Truthy(av) {
        assert frames == a;
      } else {
        assert frames == q;
      }
    }
  }

  lemma TagRows(v: Json, period: string)
    requires Truthy(v) && (v.JList? || v.JObj?)
    ensures Tag(Normalize(v), period).rows == SideRows(v, period)
  {
  }

  /** With no pair deciding, the fallbacks apply in order: the list under the
      first of "annualReports", "quarterlyReports", "bestMatches", "data" that
      holds one; else the first list value; else the whole dict as one row.
      None of them fails. */
  lemma UnpairedPayload(fields: seq<(string, Json)>)
    requires forall j :: 0 <= j < |PairedKeys| ==> !Decides(fields, j)
    ensures JsonToDf(fields).Ok?
    ensures FirstListAt(fields, ListKeys).Some? ==>
      JsonToDf(fields) == Ok(Normalize(FirstListAt(fields, ListKeys).value))
    ensures FirstListAt(fields, ListKeys).None? && FirstListValue(fields).Some? ==>
      JsonToDf(fields) == Ok(Normalize(FirstListValue(fields).value))
    ensures FirstListAt(fields, ListKeys).None? && FirstListValue(fields).None? ==>
      JsonToDf(fields) == Ok(Normalize(JObj(fields))) && |JsonToDf(fields).value.rows| == 1
    ensures (forall i :: 0 <= i < |fields| ==> !fields[i].1.JList?) ==> |JsonToDf(fields).value.rows| == 1
  {
    SkipFalsyPairs(fields, 0, |PairedKeys|);
    if forall i :: 0 <= i < |fields| ==> !fields[i].1.JList? {
      assert FirstListAt(fields, ListKeys) == None by {
        FirstListAtIsValue(fields, ListKeys);
      }
    }
  }

  /** A list found under one of the keys is one of the dict's values. */
  lemma {:induction false} FirstListAtIsValue(fields: seq<(string, Json)>, keys: seq<string>)
    ensures FirstListAt(fields, keys).Some? ==>
      exists i :: 0 <= i < |fields| && fields[i].1 == FirstListAt(fields, keys).value
  {
    if keys != [] {
      if ListAt(fields, keys[0]) {
        LookupIsValue(fields, keys[0]);
      } else {
        FirstListAtIsValue(fields, keys[1..]);
      }
    }
  }

  lemma {:induction false} LookupIsValue(fields: seq<(string, Json)>, k: string)
    requires Lookup(fields, k).Some?
    ensures exists i :: 0 <= i < |fields| && fields[i] == (k, Lookup(fields, k).value)
  {
    if fields[0].0 != k {
      LookupIsValue(fields[1..], k);
      var i :| 0 <= i < |fields[1..]| && fields[1..][i] == (k, Lookup(fields[1..], k).value);
      assert fields[i + 1] == fields[1..][i];
    }
  }
}

=== FILE: shapes.dfy ===
/** The response shape classifier and flattener (`_content_to_df` in
    ingestion.py): a deserialised MCP/REST payload is sorted into one of nine
    shapes, first match wins, and flattened into a table. Python's recursion
    limit is the `fuel` parameter: running out of it is a `RecursionError`,
    which is an ordinary exception where the source catches `Exception`. */
module Shapes {
  import opened Wrappers
  import opened Strings
  import opened Frame
  import opened JsonNormalize

  // ------------------------------------------------------------ _strip_prefix

  /** `_strip_prefix`: "4. close" -> "close", when the part before the first
      ". " is digits once its dots are removed. */
  function StripPrefix(col: string): string
  {
    match Find(col, ". ")
    case Some(i) => if IsDigits(RemoveChar(col[..i], '.')) then col[i + 2..] else col
    case None => col
  }

  /** No ". " starts inside a label made of digits and dots. */
  lemma NoSeparatorInside(d: string, rest: string)
    requires forall k :: 0 <= k < |d| ==> IsDigit(d[k]) || d[k] == '.'
    ensures Find(d + ". " + rest, ". ") == Some(|d|)
  {
    var col := d + ". " + rest;
    assert col[|d|..|d| + 2] == ". ";
    forall j | 0 <= j < |d| ensures !OccursAt(col, ". ", j) {
      if j + 1 < |d| { assert col[j + 1] == d[j + 1]; } else { assert col[j + 1] == '.'; }
      assert col[j..j + 2][1] == col[j + 1];
    }
    FindFirst(col, ". ", |d|);
  }

  lemma StripAt(col: string, i: nat)
    requires Find(col, ". ") == Some(i)
    requires IsDigits(RemoveChar(col[..i], '.'))
    ensures StripPrefix(col) == col[i + 2..]
  {
  }

  /** A numbered label loses its number. */
  lemma StripNumbered(col: string, d: string, rest: string)
    requires col == d + ". " + rest
    requires IsDigits(RemoveChar(d, '.'))
    requires forall k :: 0 <= k < |d| ==> IsDigit(d[k]) || d[k] == '.'
    ensures StripPrefix(col) == rest
  {
    NoSeparatorInside(d, rest);
    assert col[..|d|] == d;
    StripAt(col, |d|);
    assert col[|d| + 2..] == rest;
  }

  /** And any label that changes was a numbered one. */
  lemma StripOnlyNumbered(col: string)
    requires StripPrefix(col) != col
    ensures exists d, rest :: col == d + ". " + rest && IsDigits(RemoveChar(d, '.'))
                            && StripPrefix(col) == rest
  {
    var i := Find(col, ". ").value;
    var d, rest := col[..i], col[i + 2..];
    assert col == d + ". " + rest;
  }

  /** The quote's "01. symbol" label strips to "symbol". */
  lemma StripSymbol()
    ensures StripPrefix("01. symbol") == "symbol"
  {
    assert "01. symbol" == "01" + ". " + "symbol";
    StripNumbered("01. symbol", "01", "symbol");
  }

  // ------------------------------------------------------------ classification

  /** The shapes `_content_to_df` recognises. */
  datatype Shape =
    | TextBlocks                    // list whose first element is a dict with "text"
    | ListOfMaps                    // any other list
    | PreviewCsv                    // {preview: truthy, data_type: "csv", sample_data: ...}
    | TimeSeries(key: string)       // a key containing "Time Series"
    | TechnicalAnalysis(key: string) // a key containing "Technical Analysis"
    | GlobalQuote                   // a "Global Quote" key
    | GenericMap                    // any other dict
    | PlainText                     // a string
    | Scalar                        // anything else

  /** `next((k for k in keys if word in k), None)`. */
  function FirstKeyContaining(fields: seq<(string, Json)>, word: string): (r: Option<string>)
    ensures r.Some? ==> HasKey(fields, r.value) && Contains(r.value, word)
    ensures r.None? <==> forall i :: 0 <= i < |fields| ==> !Contains(fields[i].0, word)
    ensures r.Some? ==> exists i :: 0 <= i < |fields| && fields[i].0 == r.value &&
                          forall j :: 0 <= j < i ==> !Contains(fields[j].0, word)
  {
    if fields == [] then None
    else if Contains(fields[0].0, word) then Some(fields[0].0)
    else
      var r := FirstKeyContaining(fields[1..], word);
      assert forall i :: 0 < i < |fields| ==> fields[i] == fields[1..][i - 1];
      if r.Some? then
        var i :| 0 <= i < |fields[1..]| && fields[1..][i].0 == r.value &&
                 forall j :: 0 <= j < i ==> !Contains(fields[1..][j].0, word);
        assert fields[i + 1].0 == r.value;
        r
      else r
  }

  predicate IsTextBlockList(items: seq<Json>)
  {
    |items| > 0 && items[0].JObj? && HasKey(items[0].fields, "text")
  }

  predicate IsPreview(fields: seq<(string, Json)>)
  {
    Truthy(GetOrNull(fields, "preview")) && Lookup(fields, "data_type") == Some(JStr("csv"))
    && HasKey(fields, "sample_data")
  }

  function TimeSeriesKey(fields: seq<(string, Json)>): Option<string>
  {
    FirstKeyContaining(fields, "Time Series")
  }

  function TechnicalKey(fields: seq<(string, Json)>): Option<string>
  {
    FirstKeyContaining(fields, "Technical Analysis")
  }

  /** The dispatch of `_content_to_df`, first match wins. */
  function Classify(c: Json): (s: Shape)
    ensures s.TimeSeries? ==> c.JObj? && TimeSeriesKey(c.fields) == Some(s.key)
    ensures s.TechnicalAnalysis? ==> c.JObj? && TechnicalKey(c.fields) == Some(s.key)
  {
    match c
    case JList(items) => if IsTextBlockList(items) then TextBlocks else ListOfMaps
    case JObj(fields) =>
      if IsPreview(fields) then PreviewCsv
      else if TimeSeriesKey(fields).Some? then TimeSeries(TimeSeriesKey(fields).value)
      else if TechnicalKey(fields).Some? then TechnicalAnalysis(TechnicalKey(fields).value)
      else if HasKey(fields, "Global Quote") then GlobalQuote
      else GenericMap
    case JStr(_) => PlainText
    case _ => Scalar
  }

  /** The precedence among dict shapes: preview CSV over "Time Series" over
      "Technical Analysis" over "Global Quote" over generic flattening. */
  lemma ClassifyPrecedence(fields: seq<(string, Json)>)
    ensures IsPreview(fields) ==> Classify(JObj(fields)) == PreviewCsv
    ensures !IsPreview(fields) && (exists i :: 0 <= i < |fields| && Contains(fields[i].0, "Time Series"))
            ==> Classify(JObj(fields)).TimeSeries?
    ensures !IsPreview(fields) && TimeSeriesKey(fields).None?
            && (exists i :: 0 <= i < |fields| && Contains(fields[i].0, "Technical Analysis"))
            ==> Classify(JObj(fields)).TechnicalAnalysis?
    ensures !IsPreview(fields) && TimeSeriesKey(fields).None? && TechnicalKey(fields).None?
            ==> (Classify(JObj(fields)) == GlobalQuote <==> HasKey(fields, "Global Quote"))
    ensures Classify(JObj(fields)) == GenericMap ==>
            !IsPreview(fields) && TimeSeriesKey(fields).None? && TechnicalKey(fields).None?
            && !HasKey(fields, "Global Quote")
  {
  }

  // ------------------------------------------------------------ time series

  /** The column names the fields of a payload receive. */
  function StrippedKeys(fields: seq<(string, Json)>): (r: seq<string>)
    ensures |r| == |fields|
    ensures forall i :: 0 <= i < |fields| ==> r[i] == StripPrefix(fields[i].0)
  {
    seq(|fields|, i requires 0 <= i < |fields| => StripPrefix(fields[i].0))
  }

  lemma StrippedKeysSnoc(fields: seq<(string, Json)>)
    requires fields != []
    ensures var n := |fields| - 1;
      StrippedKeys(fields) == StrippedKeys(fields[..n]) + [StripPrefix(fields[n].0)]
  {
  }

  /** Each field under its stripped label, its value through `pd.to_numeric(v, errors="ignore")`. */
  function Labelled(p: Parsers, fields: seq<(string, Json)>): (r: seq<(string, Json)>)
    ensures |r| == |fields|
    ensures forall i :: 0 <= i < |fields| ==> r[i] == (StripPrefix(fields[i].0), NumericOrSame(p, fields[i].1))
  {
    seq(|fields|, i requires 0 <= i < |fields| => (StripPrefix(fields[i].0), NumericOrSame(p, fields[i].1)))
  }

  /** `rec[_strip_prefix(k)] = pd.to_numeric(v, errors="ignore")` for each field:
      new labels join the keys in order of first appearance, and a label ends
      up with the value of the last field carrying it. */
  function PutFields(p: Parsers, rec: Record, fields: seq<(string, Json)>): (r: Record)
    ensures KeysOf(r) == AddNames(KeysOf(rec), StrippedKeys(fields))
    ensures r == PutAll(rec, Labelled(p, fields))
    decreases |fields|
  {
    if fields == [] then rec
    else
      var n := |fields| - 1;
      var prev := PutFields(p, rec, fields[..n]);
      PutFieldsKeys(rec, fields, KeysOf(prev), StripPrefix(fields[n].0));
      PutFieldsStep(p, rec, fields, prev);
      Put(prev, StripPrefix(fields[n].0), Cell(NumericOrSame(p, fields[n].1)))
  }

  /** One more field is one more `Put`. */
  lemma PutFieldsSnoc(p: Parsers, rec: Record, fields: seq<(string, Json)>, j: nat)
    requires j < |fields|
    ensures PutFields(p, rec, fields[..j + 1]) ==
            Put(PutFields(p, rec, fields[..j]), StripPrefix(fields[j].0), Cell(NumericOrSame(p, fields[j].1)))
  {
    assert fields[..j + 1][..j] == fields[..j];
  }

  lemma PutFieldsKeys(rec: Record, fields: seq<(string, Json)>, prevKeys: seq<string>, k: string)
    requires fields != [] && k == StripPrefix(fields[|fields| - 1].0)
    requires prevKeys == AddNames(KeysOf(rec), StrippedKeys(fields[..|fields| - 1]))
    ensures (if k in prevKeys then prevKeys else prevKeys + [k]) == AddNames(KeysOf(rec), StrippedKeys(fields))
  {
    StrippedKeysSnoc(fields);
    AddNamesSnoc(KeysOf(rec), StrippedKeys(fields[..|fields| - 1]), k);
  }

  lemma PutFieldsStep(p: Parsers, rec: Record, fields: seq<(string, Json)>, prev: Record)
    requires fields != [] && prev == PutAll(rec, Labelled(p, fields[..|fields| - 1]))
    ensures Put(prev, StripPrefix(fields[|fields| - 1].0), Cell(NumericOrSame(p, fields[|fields| - 1].1)))
            == PutAll(rec, Labelled(p, fields))
  {
    var n := |fields| - 1;
    assert Labelled(p, fields)[..n] == Labelled(p, fields[..n]);
  }

  /** `meta.get("2. Symbol") or meta.get("1. Symbol")`. */
  function SymbolOf(meta: seq<(string, Json)>): (r: Json)
    ensures Truthy(GetOrNull(meta, "2. Symbol")) ==> r == GetOrNull(meta, "2. Symbol")
    ensures !Truthy(GetOrNull(meta, "2. Symbol")) ==> r == GetOrNull(meta, "1. Symbol")
    ensures Truthy(r) <==> Truthy(GetOrNull(meta, "2. Symbol")) || Truthy(GetOrNull(meta, "1. Symbol"))
  {
    var s2 := GetOrNull(meta, "2. Symbol");
    if Truthy(s2) then s2 else GetOrNull(meta, "1. Symbol")
  }

  /** The record for one timestamp entry of a time series. */
  function TimeSeriesRecord(p: Parsers, stamp: string, vals: Json, symbol: Json): Result<Record>
  {
    match p.date(JStr(stamp))
    case None => Fail(ValueError)
    case Some(d) =>
      if !vals.JObj? then Fail(AttributeError)
      else
        var rec := PutFields(p, [("date", Day(d))], vals.fields);
        Ok(if Truthy(symbol) then Put(rec, "symbol", Cell(symbol)) else rec)
  }

  /** `f` over `xs`, in order, stopping at the first failure. */
  function Collect<X, T>(f: X -> Result<T>, xs: seq<X>): Result<seq<T>>
    decreases |xs|
  {
    if xs == [] then Ok([])
    else
      var n := |xs| - 1;
      match Collect(f, xs[..n])
      case Fail(e) => Fail(e)
      case Ok(ys) =>
        match f(xs[n])
        case Fail(e) => Fail(e)
        case Ok(y) => Ok(ys + [y])
  }

  /** Collecting succeeds exactly when every element does, and then yields
      one result per element, in order. */
  lemma {:induction false} CollectAll<X, T>(f: X -> Result<T>, xs: seq<X>)
    ensures Collect(f, xs).Ok? <==> forall i :: 0 <= i < |xs| ==> f(xs[i]).Ok?
    ensures Collect(f, xs).Ok? ==>
      |Collect(f, xs).value| == |xs| && forall i :: 0 <= i < |xs| ==> f(xs[i]) == Ok(Collect(f, xs).value[i])
    decreases |xs|
  {
    if xs != [] {
      var n := |xs| - 1;
      var front := xs[..n];
      CollectAll(f, front);
      var prev := Collect(f, front);
      if prev.Fail? {
        var i :| 0 <= i < n && f(front[i]).Fail?;
        assert front[i] == xs[i];
      } else if f(xs[n]).Ok? {
        var ys := prev.value + [f(xs[n]).value];
        assert Collect(f, xs) == Ok(ys);
        forall i | 0 <= i < |xs|
          ensures f(xs[i]) == Ok(ys[i])
        {
          if i < n {
            assert front[i] == xs[i];
          }
        }
      }
    }
  }

  /** The first element that fails decides the error. */
  lemma {:induction false} CollectFirstFailure<X, T>(f: X -> Result<T>, xs: seq<X>, i: nat)
    requires i < |xs|
    requires Collect(f, xs[..i]).Ok?
    requires f(xs[i]).Fail?
    ensures Collect(f, xs) == Fail(f(xs[i]).error)
    decreases |xs|
  {
    var n := |xs| - 1;
    if n == i {
      assert xs[..n] == xs[..i];
    } else {
      assert xs[..n][..i] == xs[..i];
      CollectFirstFailure(f, xs[..n], i);
    }
  }

  lemma CollectStep<X, T>(f: X -> Result<T>, xs: seq<X>, i: nat, ys: seq<T>, y: T)
    requires i < |xs|
    requires Collect(f, xs[..i]) == Ok(ys)
    requires f(xs[i]) == Ok(y)
    ensures Collect(f, xs[..i + 1]) == Ok(ys + [y])
  {
    assert xs[..i + 1][..i] == xs[..i];
  }

  /** The records of the entries, in order; the first bad entry raises. */
  function TimeSeriesRecords(p: Parsers, entries: seq<(string, Json)>, symbol: Json): Result<seq<Record>>
  {
    Collect((e: (string, Json)) => TimeSeriesRecord(p, e.0, e.1, symbol), entries)
  }

  /** `_parse_time_series(payload, meta)`. */
  function TimeSeriesTable(p: Parsers, payload: Json, meta: Json): Result<Table>
  {
    if !meta.JObj? || !payload.JObj? then Fail(AttributeError)
    else
      match TimeSeriesRecords(p, payload.fields, SymbolOf(meta.fields))
      case Ok(recs) => Ok(FromRecords(recs))
      case Fail(e) => Fail(e)
  }

  /** An entry that parses has a date stamp and a dict of values. Its record
      has the keys "date", then the new stripped labels in order of first
      appearance, then "symbol" when the symbol is truthy (in place if a label
      already stripped to it). A label holds the converted value of the last
      field carrying it -- overwriting the date when it strips to "date" --
      and a truthy symbol is written last. */
  lemma TimeSeriesRecordShape(p: Parsers, stamp: string, vals: Json, symbol: Json)
    requires TimeSeriesRecord(p, stamp, vals, symbol).Ok?
    ensures vals.JObj? && p.date(JStr(stamp)).Some?
    ensures var rec := TimeSeriesRecord(p, stamp, vals, symbol).value;
      var keys := AddNames(["date"], StrippedKeys(vals.fields));
      KeysOf(rec) == keys + (if Truthy(symbol) && "symbol" !in keys then ["symbol"] else [])
    ensures var rec := TimeSeriesRecord(p, stamp, vals, symbol).value;
      var last := LastValue(Labelled(p, vals.fields), "date");
      Get(rec, "date") == (if last.Some? then Some(Cell(last.value)) else Some(Day(p.date(JStr(stamp)).value)))
    ensures var rec := TimeSeriesRecord(p, stamp, vals, symbol).value;
      forall k :: k != "date" && !(Truthy(symbol) && k == "symbol") ==>
        Get(rec, k) == (if LastValue(Labelled(p, vals.fields), k).Some?
                        then Some(Cell(LastValue(Labelled(p, vals.fields), k).value)) else None)
    ensures Truthy(symbol) ==> Get(TimeSeriesRecord(p, stamp, vals, symbol).value, "symbol") == Some(Cell(symbol))
  {
    var d := p.date(JStr(stamp)).value;
    var start: Record := [("date", Day(d))];
    assert KeysOf(start) == ["date"];
    forall k | k != "date" ensures Get(start, k) == None {
      assert start[1..] == [];
    }
  }

  /** Every entry yields exactly one record, in order; the table fails as a
      whole when one entry does. */
  lemma TimeSeriesRecordsAreEntries(p: Parsers, entries: seq<(string, Json)>, symbol: Json)
    ensures TimeSeriesRecords(p, entries, symbol).Ok? <==>
      forall i :: 0 <= i < |entries| ==> TimeSeriesRecord(p, entries[i].0, entries[i].1, symbol).Ok?
    ensures TimeSeriesRecords(p, entries, symbol).Ok? ==>
      var recs := TimeSeriesRecords(p, entries, symbol).value;
      |recs| == |entries| &&
      forall i :: 0 <= i < |entries| ==> TimeSeriesRecord(p, entries[i].0, entries[i].1, symbol) == Ok(recs[i])
  {
    CollectAll((e: (string, Json)) => TimeSeriesRecord(p, e.0, e.1, symbol), entries);
  }

  /** The body of the loop in `_parse_time_series`: one entry's record, built
      field by field. */
  method EntryRecord(p: Parsers, stamp: string, vals: Json, symbol: Json) returns (r: Result<Record>)
    ensures r == TimeSeriesRecord(p, stamp, vals, symbol)
  {
    var d := p.date(JStr(stamp));
    if d.None? {
      return Fail(ValueError);
    }
    if !vals.JObj? {
      return Fail(AttributeError);
    }
    var rec: Record := [("date", Day(d.value))];
    var j := 0;
    while j < |vals.fields|
      invariant 0 <= j <= |vals.fields|
      invariant rec == PutFields(p, [("date", Day(d.value))], vals.fields[..j])
    {
      PutFieldsSnoc(p, [("date", Day(d.value))], vals.fields, j);
      rec := Put(rec, StripPrefix(vals.fields[j].0), Cell(NumericOrSame(p, vals.fields[j].1)));
      j := j + 1;
    }
    assert vals.fields[..j] == vals.fields;
    if Truthy(symbol) {
      rec := Put(rec, "symbol", Cell(symbol));
    }
    return Ok(rec);
  }

  /** `_parse_time_series` as the source writes it: a loop over the entries
      that appends one record each. */
  method ParseTimeSeries(p: Parsers, payload: Json, meta: Json) returns (r: Result<Table>)
    ensures r == TimeSeriesTable(p, payload, meta)
    ensures r.Ok? ==> payload.JObj? && |r.value.rows| == |payload.fields|
  {
    if !meta.JObj? || !payload.JObj? {
      return Fail(AttributeError);
    }
    var symbol := SymbolOf(meta.fields);
    var entries := payload.fields;
    ghost var f := (e: (string, Json)) => TimeSeriesRecord(p, e.0, e.1, symbol);
    var records: seq<Record> := [];
    var i := 0;
    while i < |entries|
      invariant 0 <= i <= |entries|
      invariant Collect(f, entries[..i]) == Ok(records)
    {
      var rec := EntryRecord(p, entries[i].0, entries[i].1, symbol);
      if rec.Fail? {
        CollectFirstFailure(f, entries, i);
        return Fail(rec.error);
      }
      CollectStep(f, entries, i, records, rec.value);
      records := records + [rec.value];
      i := i + 1;
    }
    assert entries[..i] == entries;
    TimeSeriesRecordsAreEntries(p, entries, symbol);
    r := Ok(FromRecords(records));
  }

  // ------------------------------------------------------------ global quote

  /** `{_strip_prefix(k): v for k, v in payload.items()}`. */
  function StripAll(fields: seq<(string, Json)>): (r: Record)
    ensures forall k :: k in KeysOf(r) <==> k in StrippedKeys(fields)
    decreases |fields|
  {
    if fields == [] then []
    else
      var n := |fields| - 1;
      var prev := StripAll(fields[..n]);
      StrippedKeysSnoc(fields);
      Put(prev, StripPrefix(fields[n].0), Cell(fields[n].1))
  }

  /** `_parse_global_quote(payload)`. */
  function GlobalQuoteTable(payload: Json): Result<Table>
  {
    if !payload.JObj? then Fail(AttributeError)
    else
      var rec := StripAll(payload.fields);
      var rec' := if "symbol" !in KeysOf(rec) && HasKey(payload.fields, "01. symbol")
                  then Put(rec, "symbol", Cell(GetOrNull(payload.fields, "01. symbol")))
                  else rec;
      Ok(FromRecords([rec']))
  }

  /** The quote is one row, and it has a "symbol" column whenever the payload
      has "01. symbol" -- already through prefix stripping, so the explicit
      fallback assignment in the source never runs. */
  lemma GlobalQuoteShape(payload: Json)
    requires payload.JObj?
    ensures var t := GlobalQuoteTable(payload).value;
      |t.rows| == 1 &&
      (HasKey(payload.fields, "01. symbol") ==> "symbol" in t.columns && "symbol" in t.rows[0])
    ensures HasKey(payload.fields, "01. symbol") ==> "symbol" in KeysOf(StripAll(payload.fields))
  {
    var fields := payload.fields;
    if HasKey(fields, "01. symbol") {
      StripSymbol();
      var i :| 0 <= i < |fields| && fields[i].0 == "01. symbol";
      assert StripPrefix(fields[i].0) == "symbol";
      var rec := StripAll(fields);
      assert "symbol" in KeysOf(rec);
      var t := FromRecords([rec]);
      assert "symbol" in KeysOf([rec][0]);
    }
  }

  // ------------------------------------------------------------ preview CSV

  /** The preview wrapper: its CSV sample, tagged with the sibling symbol;
      an unreadable sample becomes a single "text" row. */
  function PreviewTable(p: Parsers, fields: seq<(string, Json)>): Table
    requires HasKey(fields, "sample_data")
  {
    var sample := Lookup(fields, "sample_data").value;
    var fallback := SingleCell("text", Cell(sample));
    match sample
    case JStr(s) =>
      (match p.csv(s)
       case Some(t) => if HasKey(fields, "symbol") then SetColumn(t, "symbol", Cell(GetOrNull(fields, "symbol"))) else t
       case None => fallback)
    case _ => fallback
  }

  // ------------------------------------------------------------ _content_to_df

  /** `ast.literal_eval(x)`: only a string can be evaluated. */
  function LiteralOf(p: Parsers, v: Value): Option<Json>
  {
    match v
    case Cell(JStr(s)) => p.literal(s)
    case _ => None
  }

  /** `_content_to_df(content)`. */
  function ContentToDf(p: Parsers, c: Json, fuel: nat): Result<Table>
    decreases fuel, 2
  {
    if fuel == 0 then Fail(RecursionError)
    else
      match Classify(c)
      case TextBlocks => FromTextBlock(p, Lookup(c.items[0].fields, "text").value, fuel)
      case ListOfMaps => Ok(Normalize(c))
      case PreviewCsv => Ok(PreviewTable(p, c.fields))
      case TimeSeries(k) => TimeSeriesTable(p, Lookup(c.fields, k).value, GetMeta(c.fields))
      case TechnicalAnalysis(k) => TimeSeriesTable(p, Lookup(c.fields, k).value, GetMeta(c.fields))
      case GlobalQuote => GlobalQuoteTable(Lookup(c.fields, "Global Quote").value)
      case GenericMap => Ok(Normalize(c))
      case PlainText => TryParseText(p, c, fuel)
      case Scalar => Ok(SingleCell("value", Cell(c)))
  }

  /** `content.get("Meta Data", {})`. */
  function GetMeta(fields: seq<(string, Json)>): Json
  {
    match Lookup(fields, "Meta Data") case Some(m) => m case None => JObj([])
  }

  /** The list-of-text-blocks branch: a literal parse of the text, else
      `_try_parse_text`, then one more reparse of a lone "text" row. */
  function FromTextBlock(p: Parsers, txt: Json, fuel: nat): Result<Table>
    requires fuel > 0
    decreases fuel, 1
  {
    var first := match LiteralOf(p, Cell(txt))
                 case Some(parsed) => ContentToDf(p, parsed, fuel - 1)
                 case None => Fail(ValueError);
    if first.Ok? then first
    else
      match TryParseText(p, txt, fuel)
      case Fail(e) => Fail(e)
      case Ok(t) => Ok(MaybeReparse(p, if IsEmpty(t) then SingleCell("text", Cell(txt)) else t, fuel))
  }

  /** `_try_parse_text(text)`: JSON, then a Python literal, then CSV, then a
      single "text" row. Only a JSON decode error is caught around the JSON
      attempt, so a failure while flattening parsed JSON propagates. */
  function TryParseText(p: Parsers, txt: Json, fuel: nat): (r: Result<Table>)
    requires fuel > 0
    ensures !txt.JStr? ==> r == Fail(TypeError)
    ensures txt.JStr? && p.json(txt.s).None? ==> r.Ok?
    ensures txt.JStr? && p.json(txt.s).None? && p.literal(txt.s).None? && p.csv(txt.s).None? ==>
      r == Ok(SingleCell("text", Cell(txt)))
    decreases fuel, 0
  {
    match txt
    case JStr(s) =>
      (match p.json(s)
       case Some(parsed) => ContentToDf(p, parsed, fuel - 1)
       case None =>
         var viaLiteral := match p.literal(s)
                           case Some(parsed) => ContentToDf(p, parsed, fuel - 1)
                           case None => Fail(ValueError);
         if viaLiteral.Ok? then viaLiteral
         else Ok(match p.csv(s) case Some(t) => t case None => SingleCell("text", Cell(txt))))
    case _ => Fail(TypeError)   // json.loads of a non-string
  }

  /** `_maybe_reparse_text_df(df)`: never raises. */
  function MaybeReparse(p: Parsers, df: Table, fuel: nat): Table
    requires fuel > 0
    decreases fuel, 0
  {
    if df.columns == ["text"] && |df.rows| == 1 then
      match LiteralOf(p, At(df.rows[0], "text"))
      case Some(parsed) => (match ContentToDf(p, parsed, fuel - 1) case Ok(t) => t case Fail(_) => df)
      case None => df
    else df
  }

  // ------------------------------------------------------------ properties

  /** A scalar payload is one row `{value: content}`. */
  lemma ScalarIsOneValueRow(p: Parsers, c: Json, fuel: nat)
    requires fuel > 0 && (c.JNull? || c.JBool? || c.JNum?)
    ensures ContentToDf(p, c, fuel) == Ok(Table(["value"], [map["value" := Cell(c)]]))
  {
  }

  /** A text that is not JSON never makes `_try_parse_text` raise: the
      literal attempt catches everything and CSV has a fallback. */
  lemma NonJsonTextNeverFails(p: Parsers, s: string, fuel: nat)
    requires fuel > 0 && p.json(s).None?
    ensures TryParseText(p, JStr(s), fuel).Ok?
    ensures p.literal(s).None? && p.csv(s).None? ==>
            TryParseText(p, JStr(s), fuel) == Ok(SingleCell("text", Cell(JStr(s))))
  {
  }

  /** In the text-block branch, when neither the literal nor the text
      parsers produce rows, the single `{text: txt}` row comes back unchanged:
      the one extra reparse attempt fails in the same way. */
  lemma TextBlockFallbackIsStable(p: Parsers, s: string, fuel: nat)
    requires fuel > 0 && p.literal(s).None?
    requires TryParseText(p, JStr(s), fuel).Ok? && IsEmpty(TryParseText(p, JStr(s), fuel).value)
    ensures FromTextBlock(p, JStr(s), fuel) == Ok(SingleCell("text", Cell(JStr(s))))
  {
    var t := SingleCell("text", Cell(JStr(s)));
    assert At(t.rows[0], "text") == Cell(JStr(s));
    assert MaybeReparse(p, t, fuel) == t;
  }

  /** A list of dicts without a text wrapper gives one row per element. */
  lemma ListOfMapsRows(p: Parsers, items: seq<Json>, fuel: nat)
    requires fuel > 0 && !IsTextBlockList(items)
    ensures ContentToDf(p, JList(items), fuel).Ok?
    ensures |ContentToDf(p, JList(items), fuel).value.rows| == |items|
  {
  }

  /** A time-series or technical-analysis payload yields exactly one row per
      timestamp key. */
  lemma TimeSeriesOneRowPerKey(p: Parsers, fields: seq<(string, Json)>, fuel: nat)
    requires fuel > 0
    requires Classify(JObj(fields)).TimeSeries? || Classify(JObj(fields)).TechnicalAnalysis?
    requires ContentToDf(p, JObj(fields), fuel).Ok?
    ensures var key := Classify(JObj(fields)).key;
      var series := Lookup(fields, key).value;
      series.JObj? && |ContentToDf(p, JObj(fields), fuel).value.rows| == |series.fields|
  {
    var key := Classify(JObj(fields)).key;
    var series := Lookup(fields, key).value;
    var meta := GetMeta(fields);
    SeriesBranch(p, JObj(fields), fuel, key);
    TimeSeriesRows(p, series, meta);
  }

  /** A payload classified as a time series goes to `_parse_time_series`. */
  lemma SeriesBranch(p: Parsers, c: Json, fuel: nat, k: string)
    requires fuel > 0
    requires Classify(c) == TimeSeries(k) || Classify(c) == TechnicalAnalysis(k)
    ensures ContentToDf(p, c, fuel) == TimeSeriesTable(p, Lookup(c.fields, k).value, GetMeta(c.fields))
  {
  }

  /** A time-series table has one row per entry. */
  lemma TimeSeriesRows(p: Parsers, payload: Json, meta: Json)
    requires TimeSeriesTable(p, payload, meta).Ok?
    ensures payload.JObj? && |TimeSeriesTable(p, payload, meta).value.rows| == |payload.fields|
  {
    TimeSeriesRecordsAreEntries(p, payload.fields, SymbolOf(meta.fields));
  }
}

=== FILE: strings.dfy ===
/** The `str` methods the pipeline relies on: search, split, strip, lower-case,
    digit tests, Python's ordering of strings and `sorted(set(...))`. */
module Strings {
  import opened Wrappers

  // ---------------------------------------------------------------- search

  /** `sub` occurs in `s` starting at index `i`. */
  predicate OccursAt(s: string, sub: string, i: int)
  {
    0 <= i && i + |sub| <= |s| && s[i..i + |sub|] == sub
  }

  /** The first index at or after `from` where `sub` occurs (`str.find`). */
  function FindFrom(s: string, sub: string, from: nat): (r: Option<nat>)
    decreases |s| - from
    ensures r.Some? ==> from <= r.value && OccursAt(s, sub, r.value)
    ensures r.Some? ==> forall j :: from <= j < r.value ==> !OccursAt(s, sub, j)
    ensures r.None? ==> forall j :: from <= j ==> !OccursAt(s, sub, j)
  {
    if from + |sub| > |s| then None
    else if s[from..from + |sub|] == sub then Some(from)
    else FindFrom(s, sub, from + 1)
  }

  function Find(s: string, sub: string): Option<nat>
  {
    FindFrom(s, sub, 0)
  }

  /** Python's `sub in s`. */
  predicate Contains(s: string, sub: string)
  {
    Find(s, sub).Some?
  }

  lemma ContainsIff(s: string, sub: string)
    ensures Contains(s, sub) <==> exists i :: OccursAt(s, sub, i)
  {
  }

  /** An occurrence with none before it is what `str.find` returns. */
  lemma FindFirst(s: string, sub: string, i: nat)
    requires OccursAt(s, sub, i)
    requires forall j :: 0 <= j < i ==> !OccursAt(s, sub, j)
    ensures Find(s, sub) == Some(i)
  {
  }

  predicate StartsWith(s: string, prefix: string)
  {
    |prefix| <= |s| && s[..|prefix|] == prefix
  }

  // ---------------------------------------------------------------- strip

  /** The characters `str.strip()` removes: those for which `str.isspace`
      holds. */
  const Whitespace: set<char> :=
    {' ', '\t', '\n', '\r', '\U{000B}', '\U{000C}', '\U{001C}', '\U{001D}', '\U{001E}', '\U{001F}',
     '\U{0085}', '\U{00A0}', '\U{1680}', '\U{2000}', '\U{2001}', '\U{2002}', '\U{2003}', '\U{2004}',
     '\U{2005}', '\U{2006}', '\U{2007}', '\U{2008}', '\U{2009}', '\U{200A}', '\U{2028}', '\U{2029}',
     '\U{202F}', '\U{205F}', '\U{3000}'}

  /** Neither quote character is whitespace. */
  lemma QuotesAreNotSpace()
    ensures '"' !in Whitespace && '\'' !in Whitespace
  {
  }

  /** How many characters at the front of `s` are in `cs`. */
  function Leading(s: string, cs: set<char>): (n: nat)
    ensures n <= |s| && (n == |s| || s[n] !in cs)
    ensures forall k :: 0 <= k < n ==> s[k] in cs
  {
    if |s| > 0 && s[0] in cs then
      var n := 1 + Leading(s[1..], cs);
      assert forall k :: 1 <= k < n ==> s[k] == s[1..][k - 1];
      n
    else 0
  }

  /** How many characters at the back of `s` are in `cs`. */
  function Trailing(s: string, cs: set<char>): (n: nat)
    ensures n <= |s| && (n == |s| || s[|s| - n - 1] !in cs)
    ensures forall k :: |s| - n <= k < |s| ==> s[k] in cs
  {
    if |s| > 0 && s[|s| - 1] in cs then 1 + Trailing(s[..|s| - 1], cs) else 0
  }

  /** `r` is `s[i..j]` and everything outside that slice is one of `cs`. */
  predicate Trims(s: string, cs: set<char>, r: string, i: int, j: int)
  {
    0 <= i <= j <= |s| && r == s[i..j] &&
    (forall k :: 0 <= k < i ==> s[k] in cs) && (forall k :: j <= k < |s| ==> s[k] in cs)
  }

  /** Python's `s.strip(chars)`: the longest middle part that neither starts
      nor ends with one of `cs`, after removing only characters of `cs`. */
  function StripChars(s: string, cs: set<char>): (r: string)
    ensures exists i, j :: Trims(s, cs, r, i, j)
    ensures r == [] || (r[0] !in cs && r[|r| - 1] !in cs)
  {
    var i := Leading(s, cs);
    var j := |s| - Trailing(s[i..], cs);
    TrimsBetween(s, cs, i, j);
    s[i..j]
  }

  lemma TrimsBetween(s: string, cs: set<char>, i: nat, j: int)
    requires i == Leading(s, cs) && j == |s| - Trailing(s[i..], cs)
    ensures i <= j && Trims(s, cs, s[i..j], i, j)
  {
    forall k | j <= k < |s|
      ensures s[k] in cs
    {
      assert s[k] == s[i..][k - i];
    }
  }

  /** `strip(chars)` is the only cut of `s` by `cs` whose ends are not in
      `cs`: any such cut is the result. */
  lemma StripCharsUnique(s: string, cs: set<char>, r: string, i: int, j: int)
    requires Trims(s, cs, r, i, j) && (r == [] || (r[0] !in cs && r[|r| - 1] !in cs))
    ensures StripChars(s, cs) == r
  {
    var n := Leading(s, cs);
    if r == [] {
      assert n == |s|;
    } else {
      assert s[i] == r[0];
      assert n == i;
      var m := Trailing(s[i..], cs);
      assert s[i..][|s| - i - (|s| - j) - 1] == s[j - 1] == r[|r| - 1];
      assert forall k :: |s| - i - (|s| - j) <= k < |s| - i ==> s[i..][k] == s[i + k];
      assert m == |s| - j;
    }
  }

  /** A string whose ends are outside `cs` is its own `strip(chars)`. */
  lemma StripCharsFixed(s: string, cs: set<char>)
    ensures s == [] || (s[0] !in cs && s[|s| - 1] !in cs) ==> StripChars(s, cs) == s
  {
    if s == [] || (s[0] !in cs && s[|s| - 1] !in cs) {
      StripCharsUnique(s, cs, s, 0, |s|);
    }
  }

  /** `strip(chars)` takes one character of `cs` off each end of `w`. */
  lemma StripCharsEnclosed(w: string, q: char, cs: set<char>)
    requires q in cs && w != [] && w[0] !in cs && w[|w| - 1] !in cs
    ensures StripChars([q] + w + [q], cs) == w
  {
    var s := [q] + w + [q];
    assert s[1..|s| - 1] == w;
    StripCharsUnique(s, cs, w, 1, |s| - 1);
  }

  /** Cutting by `a` and then by `b` is one cut by any set holding both. */
  lemma TrimsCompose(s: string, a: set<char>, m: string, i: int, j: int, b: set<char>, r: string, k: int, l: int, c: set<char>)
    requires Trims(s, a, m, i, j) && Trims(m, b, r, k, l) && a <= c && b <= c
    ensures Trims(s, c, r, i + k, i + l)
  {
    assert r == s[i + k..i + l] by {
      forall t | 0 <= t < l - k
        ensures r[t] == s[i + k + t]
      {
        assert r[t] == m[k + t];
      }
    }
    forall t | i <= t < i + k
      ensures s[t] in b
    {
      assert s[t] == m[t - i];
    }
    forall t | i + l <= t < j
      ensures s[t] in b
    {
      assert s[t] == m[t - i];
    }
  }

  /** Python's `s.strip()`: only whitespace is cut, at both ends, and what is
      left neither starts nor ends with whitespace. */
  function Strip(s: string): (r: string)
    ensures |r| <= |s|
    ensures exists i, j :: Trims(s, Whitespace, r, i, j)
    ensures r == [] || (r[0] !in Whitespace && r[|r| - 1] !in Whitespace)
  {
    StripChars(s, Whitespace)
  }

  // ---------------------------------------------------------------- case

  function LowerChar(c: char): char
  {
    if 'A' <= c <= 'Z' then (c as int + 32) as char else c
  }

  /** Python's `s.lower()` on ASCII letters. */
  function Lower(s: string): (r: string)
    ensures |r| == |s|
    ensures forall i :: 0 <= i < |s| ==> r[i] == LowerChar(s[i])
  {
    if s == [] then [] else [LowerChar(s[0])] + Lower(s[1..])
  }

  // ---------------------------------------------------------------- digits

  predicate IsDigit(c: char)
  {
    '0' <= c <= '9'
  }

  /** Python's `s.isdigit()`: non-empty and all digits. */
  predicate IsDigits(s: string)
  {
    |s| > 0 && forall i :: 0 <= i < |s| ==> IsDigit(s[i])
  }

  /** Python's `s.replace(c, "")`. */
  function RemoveChar(s: string, c: char): (r: string)
    ensures c !in r
    ensures forall x :: x in r <==> x in s && x != c
  {
    if s == [] then [] else (if s[0] == c then [] else [s[0]]) + RemoveChar(s[1..], c)
  }

  /** The number a string of decimal digits spells, most significant digit first. */
  function DigitsValue(s: string): nat
    requires forall i :: 0 <= i < |s| ==> IsDigit(s[i])
  {
    if s == [] then 0
    else
      assert IsDigit(s[|s| - 1]);
      DigitsValue(s[..|s| - 1]) * 10 + (s[|s| - 1] as int - '0' as int)
  }

  /** Python's `str(n)` for `n >= 0`: the decimal digits of `n`, without leading zeros. */
  function NatToString(n: nat): (r: string)
    ensures |r| > 0
    ensures forall i :: 0 <= i < |r| ==> IsDigit(r[i])
    ensures DigitsValue(r) == n
    ensures r[0] == '0' ==> r == "0"
    decreases n
  {
    var d := ['0' + (n % 10) as char];
    if n < 10 then d
    else
      var r := NatToString(n / 10) + d;
      assert r[..|r| - 1] == NatToString(n / 10);
      r
  }

  /** Python's `str(n)` for an integer. */
  function IntToString(n: int): string
  {
    if n < 0 then "-" + NatToString(-n) else NatToString(n)
  }

  // ---------------------------------------------------------------- order

  /** Python's `a < b` on strings: lexicographic by code point. */
  predicate Less(a: string, b: string)
  {
    if |a| == 0 then |b| > 0
    else if |b| == 0 then false
    else if a[0] != b[0] then a[0] < b[0]
    else Less(a[1..], b[1..])
  }

  lemma {:induction false} LessIrreflexive(a: string)
    ensures !Less(a, a)
  {
    if |a| > 0 {
      LessIrreflexive(a[1..]);
    }
  }

  lemma {:induction false} LessTransitive(a: string, b: string, c: string)
    requires Less(a, b) && Less(b, c)
    ensures Less(a, c)
  {
    if |a| > 0 && |b| > 0 && |c| > 0 && a[0] == b[0] && b[0] == c[0] {
      LessTransitive(a[1..], b[1..], c[1..]);
    }
  }

  lemma {:induction false} LessTotal(a: string, b: string)
    requires a != b
    ensures Less(a, b) || Less(b, a)
  {
    if |a| > 0 && |b| > 0 && a[0] == b[0] {
      assert a == [a[0]] + a[1..] && b == [b[0]] + b[1..];
      LessTotal(a[1..], b[1..]);
    }
  }

  predicate StrictlySorted(s: seq<string>)
  {
    forall i, j :: 0 <= i < j < |s| ==> Less(s[i], s[j])
  }

  /** Inserts `x` into a strictly sorted list unless it is already there. */
  function Insert(x: string, s: seq<string>): (r: seq<string>)
    requires StrictlySorted(s)
    ensures StrictlySorted(r)
    ensures forall y :: y in r <==> y == x || y in s
  {
    if s == [] then [x]
    else if x == s[0] then s
    else if Less(x, s[0]) then
      assert forall j :: 0 < j < |s| ==> Less(x, s[j]) by {
        forall j | 0 < j < |s| ensures Less(x, s[j]) { LessTransitive(x, s[0], s[j]); }
      }
      [x] + s
    else
      LessTotal(x, s[0]);
      var rest := Insert(x, s[1..]);
      assert forall y :: y in rest ==> Less(s[0], y) by {
        forall y | y in rest ensures Less(s[0], y) {
          if y != x {
            var j :| 0 <= j < |s[1..]| && s[1..][j] == y;
            assert s[j + 1] == y;
          }
        }
      }
      var r := [s[0]] + rest;
      assert forall i, j :: 0 <= i < j < |r| ==> Less(r[i], r[j]) by {
        forall i, j | 0 <= i < j < |r| ensures Less(r[i], r[j]) {
          if i == 0 { assert r[j] == rest[j - 1] && r[j] in rest; }
          else { assert r[i] == rest[i - 1] && r[j] == rest[j - 1]; }
        }
      }
      r
  }

  /** Python's `sorted(set(xs))`: strictly ascending, same elements. */
  function SortedUnique(xs: seq<string>): (r: seq<string>)
    ensures StrictlySorted(r)
    ensures forall y :: y in r <==> y in xs
  {
    if xs == [] then [] else Insert(xs[0], SortedUnique(xs[1..]))
  }

  lemma {:induction false} StrictlySortedNoDuplicates(s: seq<string>)
    requires StrictlySorted(s)
    ensures forall i, j :: 0 <= i < |s| && 0 <= j < |s| && i != j ==> s[i] != s[j]
  {
    forall i, j | 0 <= i < |s| && 0 <= j < |s| && i != j ensures s[i] != s[j] {
      if i < j { LessIrreflexive(s[i]); } else { LessIrreflexive(s[j]); }
    }
  }
}

=== FILE: transform.dfy ===
/** The wide-to-long transform (transform.py): every raw partition is melted
    into `(Ticker, Date, Data_Source, Metric_Name, Value)` rows, one per cell
    outside the date column, and the rows of all partitions become the final
    price dataset. */
module Transform {
  import opened Wrappers
  import opened Frame
  import opened Reports
  import opened Storage

  /** `_extract_meta(path)`: the ticker is the file's stem and the data
      source its directory. */
  function ExtractMeta(p: Path): (r: (string, string))
    ensures r.0 == p.stem
    ensures p.dirs != [] ==> r.1 == p.dirs[|p.dirs| - 1]
  {
    (p.stem, ParentName(p))
  }

  const LongColumns: seq<string> := ["Ticker", "Date", "Data_Source", "Metric_Name", "Value"]

  /** The column a file without a date column gets, holding NaT. */
  const DateName := "Date"

  /** `[c for c in df.columns if c != date_col]`. */
  function Without(columns: seq<string>, d: string): (r: seq<string>)
    ensures |r| <= |columns|
    ensures forall c :: c in r <==> c in columns && c != d
  {
    if columns == [] then []
    else (if columns[0] != d then [columns[0]] else []) + Without(columns[1..], d)
  }

  predicate Distinct(s: seq<string>)
  {
    forall i, j :: 0 <= i < j < |s| ==> s[i] != s[j]
  }

  /** Without duplicates, leaving out one present column leaves one fewer;
      leaving out an absent one leaves them all. */
  lemma {:induction false} WithoutLength(columns: seq<string>, d: string)
    requires Distinct(columns)
    ensures |Without(columns, d)| == if d in columns then |columns| - 1 else |columns|
  {
    if columns != [] {
      WithoutLength(columns[1..], d);
      assert forall i :: 1 <= i < |columns| ==> columns[i] == columns[1..][i - 1];
      if columns[0] == d {
        assert d !in columns[1..];
      }
    }
  }

  /** One long row. */
  function LongRow(ticker: string, source: string, date: Value, metric: string, value: Value): Row
  {
    map["Ticker" := Cell(JStr(ticker)), "Date" := date, "Data_Source" := Cell(JStr(source)),
        "Metric_Name" := Cell(JStr(metric)), "Value" := value]
  }

  /** The long rows of one value column: one per wide row, in row order. */
  function Block(rows: seq<Row>, dateCol: string, c: string, ticker: string, source: string): (r: seq<Row>)
    ensures |r| == |rows|
    ensures forall i :: 0 <= i < |rows| ==> r[i] == LongRow(ticker, source, At(rows[i], dateCol), c, At(rows[i], c))
  {
    seq(|rows|, i requires 0 <= i < |rows| => LongRow(ticker, source, At(rows[i], dateCol), c, At(rows[i], c)))
  }

  /** `df.melt(id_vars=[date_col], value_vars=value_cols)` with the
      constant columns added: the block of the first value column, then
      the blocks of the others. */
  function Melt(rows: seq<Row>, dateCol: string, valueCols: seq<string>, ticker: string, source: string): seq<Row>
    decreases |valueCols|
  {
    if valueCols == [] then []
    else Block(rows, dateCol, valueCols[0], ticker, source) + Melt(rows, dateCol, valueCols[1..], ticker, source)
  }

  /** Where the block of the `j`-th value column starts: after `j` blocks of
      `n` rows. */
  function Offset(n: nat, j: nat): nat
  {
    if j == 0 then 0 else n + Offset(n, j - 1)
  }

  /** `j` blocks of `n` rows are `n * j` rows. */
  lemma {:induction false} OffsetProduct(n: nat, j: nat)
    ensures Offset(n, j) == n * j
  {
    if j > 0 {
      OffsetProduct(n, j - 1);
      assert n * j == n + n * (j - 1);
    }
  }

  /** The melt has one row per (value column, wide row) pair. */
  lemma {:induction false} MeltLength(rows: seq<Row>, dateCol: string, valueCols: seq<string>, ticker: string, source: string)
    ensures |Melt(rows, dateCol, valueCols, ticker, source)| == Offset(|rows|, |valueCols|)
    decreases |valueCols|
  {
    if valueCols != [] {
      MeltLength(rows, dateCol, valueCols[1..], ticker, source);
    }
  }

  /** The row for value column `j` and wide row `i` sits at
      `Offset(n, j) + i`. */
  lemma {:induction false} MeltAt(rows: seq<Row>, dateCol: string, valueCols: seq<string>, ticker: string, source: string, j: nat, i: nat)
    requires j < |valueCols| && i < |rows|
    ensures Offset(|rows|, j) + i < Offset(|rows|, |valueCols|)
    ensures |Melt(rows, dateCol, valueCols, ticker, source)| == Offset(|rows|, |valueCols|)
    ensures Melt(rows, dateCol, valueCols, ticker, source)[Offset(|rows|, j) + i] ==
      LongRow(ticker, source, At(rows[i], dateCol), valueCols[j], At(rows[i], valueCols[j]))
    decreases j
  {
    var n := |rows|;
    var rest := valueCols[1..];
    MeltLength(rows, dateCol, valueCols, ticker, source);
    MeltLength(rows, dateCol, rest, ticker, source);
    var block := Block(rows, dateCol, valueCols[0], ticker, source);
    var melted := Melt(rows, dateCol, valueCols, ticker, source);
    assert melted == block + Melt(rows, dateCol, rest, ticker, source);
    if j > 0 {
      MeltAt(rows, dateCol, rest, ticker, source, j - 1, i);
      assert valueCols[j] == rest[j - 1];
      assert melted[Offset(n, j) + i] == Melt(rows, dateCol, rest, ticker, source)[Offset(n, j - 1) + i];
    } else {
      assert melted[i] == block[i];
    }
  }

  /** When every wide row has the same date, so has every long row. */
  lemma {:induction false} MeltDates(rows: seq<Row>, dateCol: string, valueCols: seq<string>, ticker: string, source: string, d: Value)
    requires forall i :: 0 <= i < |rows| ==> At(rows[i], dateCol) == d
    ensures forall k :: 0 <= k < |Melt(rows, dateCol, valueCols, ticker, source)| ==>
      At(Melt(rows, dateCol, valueCols, ticker, source)[k], "Date") == d
    decreases |valueCols|
  {
    if valueCols != [] {
      MeltDates(rows, dateCol, valueCols[1..], ticker, source, d);
    }
  }

  /** `_wide_to_long(df, date_col, ticker, data_source)`: the melt, then
      every `Date` converted to a calendar day (raising if one does not
      parse). */
  function WideToLong(p: Parsers, t: Table, dateCol: string, ticker: string, source: string): (r: Result<Table>)
    ensures r.Ok? ==> r.value.columns == LongColumns
  {
    var melted := Melt(t.rows, dateCol, Without(t.columns, dateCol), ticker, source);
    match CoerceDates(p, melted, "Date")
    case None => Fail(ValueError)
    case Some(rows) => Ok(Table(LongColumns, rows))
  }

  /** The long table holds one row per cell outside the date column, column
      by column (as `melt` stacks them): the row for value column `j` and
      wide row `i` names that column as its metric, holds that cell as its
      value and the row's converted date, and carries the ticker and source. */
  lemma WideToLongSpec(p: Parsers, t: Table, dateCol: string, ticker: string, source: string)
    requires WideToLong(p, t, dateCol, ticker, source).Ok?
    ensures var r := WideToLong(p, t, dateCol, ticker, source).value;
      var vcols := Without(t.columns, dateCol);
      |r.rows| == Offset(|t.rows|, |vcols|) &&
      forall j: nat, i: nat :: j < |vcols| && i < |t.rows| ==>
        CellRow(p, t.rows, vcols, dateCol, ticker, source, r.rows, j, i)
  {
    var vcols := Without(t.columns, dateCol);
    var out := WideToLong(p, t, dateCol, ticker, source).value.rows;
    assert CoerceDates(p, Melt(t.rows, dateCol, vcols, ticker, source), "Date") == Some(out);
    LongRows(p, t.rows, vcols, dateCol, ticker, source, out);
  }

  lemma LongRows(p: Parsers, rows: seq<Row>, vcols: seq<string>, dateCol: string, ticker: string, source: string, out: seq<Row>)
    requires CoerceDates(p, Melt(rows, dateCol, vcols, ticker, source), "Date") == Some(out)
    ensures |out| == Offset(|rows|, |vcols|)
    ensures forall j: nat, i: nat :: j < |vcols| && i < |rows| ==> CellRow(p, rows, vcols, dateCol, ticker, source, out, j, i)
  {
    MeltLength(rows, dateCol, vcols, ticker, source);
    forall j: nat, i: nat | j < |vcols| && i < |rows|
      ensures CellRow(p, rows, vcols, dateCol, ticker, source, out, j, i)
    {
      LongCellAt(p, rows, vcols, dateCol, ticker, source, out, j, i);
    }
  }

  /** Row `Offset(n, j) + i` of `out` is the long row of wide row `i`'s cell
      in value column `j`. */
  predicate CellRow(p: Parsers, rows: seq<Row>, vcols: seq<string>, dateCol: string, ticker: string, source: string,
                    out: seq<Row>, j: nat, i: nat)
  {
    j < |vcols| && i < |rows| && Offset(|rows|, j) + i < |out| &&
    LongCell(p, out[Offset(|rows|, j) + i], ticker, source, vcols[j], rows[i], dateCol)
  }

  /** The converted long row of one cell. */
  lemma LongCellAt(p: Parsers, rows: seq<Row>, vcols: seq<string>, dateCol: string, ticker: string, source: string, out: seq<Row>, j: nat, i: nat)
    requires CoerceDates(p, Melt(rows, dateCol, vcols, ticker, source), "Date") == Some(out)
    requires j < |vcols| && i < |rows|
    ensures var k := Offset(|rows|, j) + i;
      k < |out| && LongCell(p, out[k], ticker, source, vcols[j], rows[i], dateCol)
  {
    var melted := Melt(rows, dateCol, vcols, ticker, source);
    MeltAt(rows, dateCol, vcols, ticker, source, j, i);
    var k := Offset(|rows|, j) + i;
    Coerced(p, melted, "Date", k);
    Dated(ticker, source, At(rows[i], dateCol), vcols[j], At(rows[i], vcols[j]), At(out[k], "Date"));
  }

  /** With distinct columns and the date column among them there are
      rows × (columns − 1) long rows. */
  lemma WideToLongCount(p: Parsers, t: Table, dateCol: string, ticker: string, source: string)
    requires WideToLong(p, t, dateCol, ticker, source).Ok?
    requires Distinct(t.columns) && dateCol in t.columns
    ensures |WideToLong(p, t, dateCol, ticker, source).value.rows| == |t.rows| * (|t.columns| - 1)
  {
    WideToLongSpec(p, t, dateCol, ticker, source);
    WithoutLength(t.columns, dateCol);
    OffsetProduct(|t.rows|, |t.columns| - 1);
  }

  /** What the long row for one cell holds. */
  predicate LongCell(p: Parsers, long: Row, ticker: string, source: string, metric: string, wide: Row, dateCol: string)
  {
    At(long, "Ticker") == Cell(JStr(ticker)) && At(long, "Data_Source") == Cell(JStr(source)) &&
    At(long, "Metric_Name") == Cell(JStr(metric)) && At(long, "Value") == At(wide, metric) &&
    AsDate(p, At(wide, dateCol)) == Some(At(long, "Date"))
  }

  /** One converted row: only its date changes. */
  lemma Coerced(p: Parsers, rows: seq<Row>, c: string, k: nat)
    requires CoerceDates(p, rows, c).Some? && k < |rows|
    ensures var rs := CoerceDates(p, rows, c).value;
      k < |rs| && AsDate(p, At(rows[k], c)) == Some(At(rs[k], c)) && rs[k] == rows[k][c := At(rs[k], c)]
  {
  }

  /** A long row with its date replaced. */
  lemma Dated(ticker: string, source: string, date: Value, metric: string, value: Value, d: Value)
    ensures var row := LongRow(ticker, source, date, metric, value)["Date" := d];
      At(row, "Ticker") == Cell(JStr(ticker)) && At(row, "Data_Source") == Cell(JStr(source)) &&
      At(row, "Metric_Name") == Cell(JStr(metric)) && At(row, "Value") == value && At(row, "Date") == d
  {
  }

  // ------------------------------------------------------------ transform_raw_to_final

  /** The long table of one non-empty raw file; a file without a date column
      gets a `Date` column of NaT first. */
  function FileFrame(p: Parsers, path: Path, t: Table): Result<Table>
  {
    var (ticker, source) := ExtractMeta(path);
    match DateColumn(t.columns)
    case Some(c) => WideToLong(p, t, c, ticker, source)
    case None => WideToLong(p, SetColumn(t, DateName, NaN), DateName, ticker, source)
  }

  /** A file without a date column still contributes a row per cell, each
      with a missing `Date`. */
  lemma UndatedFile(p: Parsers, path: Path, t: Table)
    requires DateColumn(t.columns).None? && DateName !in t.columns && Distinct(t.columns)
    ensures FileFrame(p, path, t).Ok?
    ensures var r := FileFrame(p, path, t).value;
      |r.rows| == |t.rows| * |t.columns| && forall k :: 0 <= k < |r.rows| ==> At(r.rows[k], "Date") == NaN
  {
    var (ticker, source) := ExtractMeta(path);
    var t' := SetColumn(t, DateName, NaN);
    assert t'.columns == t.columns + [DateName];
    assert Without(t'.columns, DateName) == Without(t.columns, DateName) by {
      WithoutAppend(t.columns, DateName);
    }
    WithoutLength(t.columns, DateName);
    var vcols := Without(t'.columns, DateName);
    var melted := Melt(t'.rows, DateName, vcols, ticker, source);
    MeltLength(t'.rows, DateName, vcols, ticker, source);
    OffsetProduct(|t'.rows|, |vcols|);
    MeltDates(t'.rows, DateName, vcols, ticker, source, NaN);
    AllMissingDates(p, melted);
  }

  lemma {:induction false} WithoutAppend(columns: seq<string>, d: string)
    ensures Without(columns + [d], d) == Without(columns, d)
  {
    if columns != [] {
      assert (columns + [d])[1..] == columns[1..] + [d];
      WithoutAppend(columns[1..], d);
    } else {
      assert Without([d], d) == [] + Without([], d);
    }
  }

  /** Missing dates convert to missing dates. */
  lemma AllMissingDates(p: Parsers, rows: seq<Row>)
    requires forall k :: 0 <= k < |rows| ==> At(rows[k], "Date") == NaN
    ensures CoerceDates(p, rows, "Date").Some?
    ensures forall k :: 0 <= k < |rows| ==> At(CoerceDates(p, rows, "Date").value[k], "Date") == NaN
  {
  }

  /** The long tables of the files of `listing`, in listing order; empty
      files are skipped and the first unreadable file or failed conversion
      stops the walk. */
  function Frames(p: Parsers, raw: Disk, listing: seq<Path>): Result<seq<Table>>
    decreases |listing|
  {
    if listing == [] then Ok([])
    else
      var n := |listing| - 1;
      match Frames(p, raw, listing[..n])
      case Fail(e) => Fail(e)
      case Ok(frames) =>
        match ReadTable(raw, listing[n])
        case Fail(e) => Fail(e)
        case Ok(t) =>
          if IsEmpty(t) then Ok(frames)
          else match FileFrame(p, listing[n], t)
            case Fail(e) => Fail(e)
            case Ok(long) => Ok(frames + [long])
  }

  /** `pd.to_numeric(v)` of one cell, when it converts. */
  function ToNumber(p: Parsers, v: Value): Option<Value>
  {
    match v
    case NaN => Some(NaN)
    case Day(_) => None
    case Cell(j) =>
      match j
      case JNull => Some(NaN)
      case JNum(_) => Some(v)
      case JStr(s) => (match p.number(s) case Some(n) => Some(Cell(JNum(n))) case None => None)
      case _ => None
  }

  /** `df[c] = pd.to_numeric(df[c], errors="ignore")`: the column converts
      as a whole, or is left as it was. */
  function NumericColumn(p: Parsers, rows: seq<Row>, c: string): (r: seq<Row>)
    ensures |r| == |rows|
    ensures (forall i :: 0 <= i < |rows| ==> ToNumber(p, At(rows[i], c)).Some?) ==>
      forall i :: 0 <= i < |rows| ==> r[i] == rows[i][c := ToNumber(p, At(rows[i], c)).value]
    ensures (exists i :: 0 <= i < |rows| && ToNumber(p, At(rows[i], c)).None?) ==> r == rows
  {
    if forall i :: 0 <= i < |rows| ==> ToNumber(p, At(rows[i], c)).Some? then
      seq(|rows|, i requires 0 <= i < |rows| => rows[i][c := ToNumber(p, At(rows[i], c)).value])
    else rows
  }

  const PriceDaily := "price_daily"

  /** The final table `transform_raw_to_final` writes, or why it raised. */
  function TransformRaw(p: Parsers, raw: Disk, listing: seq<Path>): Result<Table>
  {
    if listing == [] then Fail(FileNotFound)
    else match Frames(p, raw, listing)
      case Fail(e) => Fail(e)
      case Ok(frames) =>
        if frames == [] then Fail(ValueError)
        else
          var all := ConcatAll(frames);
          Ok(Table(all.columns, NumericColumn(p, all.rows, "Value")))
  }

  /** The files of `listing` that read back non-empty, in listing order. */
  function NonEmptyFiles(raw: Disk, listing: seq<Path>): (r: seq<Path>)
    ensures forall path :: path in r <==> path in listing && ReadTable(raw, path).Ok? && !IsEmpty(ReadTable(raw, path).value)
    decreases |listing|
  {
    if listing == [] then []
    else
      var n := |listing| - 1;
      var front := NonEmptyFiles(raw, listing[..n]);
      assert forall path :: path in listing <==> path in listing[..n] || path == listing[n];
      var t := ReadTable(raw, listing[n]);
      if t.Ok? && !IsEmpty(t.value) then front + [listing[n]] else front
  }

  /** The walk reads every file; it yields one long table per non-empty file,
      in listing order, each the file's own long table; and it yields none
      exactly when every file is empty. */
  lemma FramesSpec(p: Parsers, raw: Disk, listing: seq<Path>)
    requires Frames(p, raw, listing).Ok?
    ensures forall i :: 0 <= i < |listing| ==> listing[i] in raw && raw[listing[i]].Readable?
    ensures var frames, files := Frames(p, raw, listing).value, NonEmptyFiles(raw, listing);
      |frames| == |files| &&
      forall f :: 0 <= f < |files| ==> FileFrame(p, files[f], ReadTable(raw, files[f]).value) == Ok(frames[f])
    ensures Frames(p, raw, listing).value == [] <==>
      forall i :: 0 <= i < |listing| ==> IsEmpty(ReadTable(raw, listing[i]).value)
    ensures |Frames(p, raw, listing).value| <= |listing|
  {
    FramesRead(p, raw, listing);
    FramesNone(p, raw, listing);
    FramesFiles(p, raw, listing);
    assert forall i :: 0 <= i < |listing| ==> ReadTable(raw, listing[i]).Ok?;
  }

  /** One file more: its long table follows when it is not empty. */
  lemma FramesSnoc(p: Parsers, raw: Disk, listing: seq<Path>)
    requires listing != [] && Frames(p, raw, listing).Ok?
    ensures var n := |listing| - 1;
      Frames(p, raw, listing[..n]).Ok? && ReadTable(raw, listing[n]).Ok? &&
      (IsEmpty(ReadTable(raw, listing[n]).value) ==> Frames(p, raw, listing).value == Frames(p, raw, listing[..n]).value) &&
      (!IsEmpty(ReadTable(raw, listing[n]).value) ==>
        FileFrame(p, listing[n], ReadTable(raw, listing[n]).value).Ok? &&
        Frames(p, raw, listing).value ==
          Frames(p, raw, listing[..n]).value + [FileFrame(p, listing[n], ReadTable(raw, listing[n]).value).value])
  {
  }

  lemma {:induction false} FramesRead(p: Parsers, raw: Disk, listing: seq<Path>)
    requires Frames(p, raw, listing).Ok?
    ensures forall i :: 0 <= i < |listing| ==> ReadTable(raw, listing[i]).Ok?
    ensures |Frames(p, raw, listing).value| <= |listing|
    decreases |listing|
  {
    if listing != [] {
      var n := |listing| - 1;
      FramesSnoc(p, raw, listing);
      assert ReadTable(raw, listing[n]).Ok?;
      FramesRead(p, raw, listing[..n]);
      forall i | 0 <= i < |listing| ensures ReadTable(raw, listing[i]).Ok? {
        if i < n {
          assert listing[i] == listing[..n][i];
          assert ReadTable(raw, listing[..n][i]).Ok?;
        } else {
          assert i == n && ReadTable(raw, listing[n]).Ok?;
        }
      }
    }
  }

  lemma {:induction false} FramesNone(p: Parsers, raw: Disk, listing: seq<Path>)
    requires Frames(p, raw, listing).Ok?
    ensures Frames(p, raw, listing).value == [] <==>
      forall i :: 0 <= i < |listing| ==> ReadTable(raw, listing[i]).Ok? && IsEmpty(ReadTable(raw, listing[i]).value)
    decreases |listing|
  {
    if listing != [] {
      var n := |listing| - 1;
      FramesSnoc(p, raw, listing);
      FramesRead(p, raw, listing);
      FramesNone(p, raw, listing[..n]);
      assert forall i :: 0 <= i < n ==> listing[..n][i] == listing[i];
    }
  }

  lemma {:induction false} FramesFiles(p: Parsers, raw: Disk, listing: seq<Path>)
    requires Frames(p, raw, listing).Ok?
    ensures var frames, files := Frames(p, raw, listing).value, NonEmptyFiles(raw, listing);
      |frames| == |files| &&
      forall f :: 0 <= f < |files| ==> FileFrame(p, files[f], ReadTable(raw, files[f]).value) == Ok(frames[f])
    decreases |listing|
  {
    if listing != [] {
      var n := |listing| - 1;
      FramesSnoc(p, raw, listing);
      FramesFiles(p, raw, listing[..n]);
    }
  }

  /** No raw file at all is `FileNotFoundError`, and a walk that finds only
      empty files is `ValueError`. */
  lemma TransformRawFails(p: Parsers, raw: Disk, listing: seq<Path>)
    ensures listing == [] ==> TransformRaw(p, raw, listing) == Fail(FileNotFound)
    ensures listing != [] && Frames(p, raw, listing).Ok? ==>
      (TransformRaw(p, raw, listing) == Fail(ValueError) <==>
       forall i :: 0 <= i < |listing| ==> ReadTable(raw, listing[i]).Ok? && IsEmpty(ReadTable(raw, listing[i]).value))
  {
    if listing != [] && Frames(p, raw, listing).Ok? {
      FramesSpec(p, raw, listing);
    }
  }

  /** `rows` holds the rows of `frames`, frame after frame, each as it was or
      with its "Value" cell converted to a number. */
  ghost predicate ConvertedConcat(p: Parsers, frames: seq<Table>, rows: seq<Row>)
  {
    |rows| == RowsBefore(frames, |frames|) &&
    forall f, i :: 0 <= f < |frames| && 0 <= i < |frames[f].rows| ==>
      var row, k := frames[f].rows[i], RowsBefore(frames, f) + i;
      k < |rows| &&
      (rows[k] == row ||
       (ToNumber(p, At(row, "Value")).Some? && rows[k] == row["Value" := ToNumber(p, At(row, "Value")).value]))
  }

  /** The final table's rows are the long rows of each non-empty file, file
      after file in listing order, with "Value" converted to numbers when
      every value converts. */
  lemma TransformRawRows(p: Parsers, raw: Disk, listing: seq<Path>)
    requires TransformRaw(p, raw, listing).Ok?
    ensures Frames(p, raw, listing).Ok?
    ensures var frames, files := Frames(p, raw, listing).value, NonEmptyFiles(raw, listing);
      |frames| == |files| > 0 &&
      forall f :: 0 <= f < |files| ==> FileFrame(p, files[f], ReadTable(raw, files[f]).value) == Ok(frames[f])
    ensures ConvertedConcat(p, Frames(p, raw, listing).value, TransformRaw(p, raw, listing).value.rows)
  {
    FramesSpec(p, raw, listing);
    var frames := Frames(p, raw, listing).value;
    assert TransformRaw(p, raw, listing).value.rows == NumericColumn(p, ConcatAll(frames).rows, "Value");
    ConvertedRows(p, frames);
  }

  /** The rows of the concatenated frames with "Value" converted, frame by
      frame. */
  lemma ConvertedRows(p: Parsers, frames: seq<Table>)
    requires frames != []
    ensures ConvertedConcat(p, frames, NumericColumn(p, ConcatAll(frames).rows, "Value"))
  {
    var rows := NumericColumn(p, ConcatAll(frames).rows, "Value");
    forall f, i | 0 <= f < |frames| && 0 <= i < |frames[f].rows|
      ensures var row, k := frames[f].rows[i], RowsBefore(frames, f) + i;
        k < |rows| &&
        (rows[k] == row ||
         (ToNumber(p, At(row, "Value")).Some? && rows[k] == row["Value" := ToNumber(p, At(row, "Value")).value]))
    {
      ConvertedRowAt(p, frames, f, i);
    }
  }

  lemma ConvertedRowAt(p: Parsers, frames: seq<Table>, f: nat, i: nat)
    requires f < |frames| && i < |frames[f].rows|
    ensures var rows, row, k := NumericColumn(p, ConcatAll(frames).rows, "Value"), frames[f].rows[i], RowsBefore(frames, f) + i;
      k < |rows| &&
      (rows[k] == row ||
       (ToNumber(p, At(row, "Value")).Some? && rows[k] == row["Value" := ToNumber(p, At(row, "Value")).value]))
  {
    ConcatAllRows(frames, f, i);
    NumericColumnAt(p, ConcatAll(frames).rows, "Value", RowsBefore(frames, f) + i);
  }

  /** One row of a converted column: as it was, or with its cell converted. */
  lemma NumericColumnAt(p: Parsers, rows: seq<Row>, c: string, k: nat)
    requires k < |rows|
    ensures var r := NumericColumn(p, rows, c);
      |r| == |rows| &&
      (r[k] == rows[k] || (ToNumber(p, At(rows[k], c)).Some? && r[k] == rows[k][c := ToNumber(p, At(rows[k], c)).value]))
  {
  }

  /** `transform_raw_to_final()` over the raw tree's listing; the result is
      written as the final price dataset. */
  method TransformRawToFinal(p: Parsers, raw: Disk, listing: seq<Path>, final: Store) returns (r: Result<Path>)
    modifies final
    ensures TransformRaw(p, raw, listing).Fail? ==>
      r == Fail(TransformRaw(p, raw, listing).error) && final.disk == old(final.disk)
    ensures TransformRaw(p, raw, listing).Ok? ==>
      r == Ok(FinalPath(PriceDaily)) &&
      final.disk == old(final.disk)[FinalPath(PriceDaily) := Readable(TransformRaw(p, raw, listing).value)]
  {
    if listing == [] {
      return Fail(FileNotFound);
    }
    var frames: seq<Table> := [];
    var i := 0;
    while i < |listing|
      invariant 0 <= i <= |listing|
      invariant Frames(p, raw, listing[..i]) == Ok(frames)
    {
      var path := listing[i];
      assert listing[..i + 1][..i] == listing[..i];
      var read := ReadTable(raw, path);
      if read.Fail? {
        FramesStop(p, raw, listing, i + 1);
        return Fail(read.error);
      }
      var t := read.value;
      i := i + 1;
      if IsEmpty(t) {
        continue;
      }
      var (ticker, source) := ExtractMeta(path);
      var dateCol := DateColumn(t.columns);
      var df := t;
      var col := "";
      if dateCol.None? {
        df := SetColumn(t, DateName, NaN);
        col := DateName;
      } else {
        col := dateCol.value;
      }
      var long := WideToLong(p, df, col, ticker, source);
      if long.Fail? {
        FramesStop(p, raw, listing, i);
        return Fail(long.error);
      }
      frames := frames + [long.value];
    }
    assert listing[..i] == listing;
    if frames == [] {
      return Fail(ValueError);
    }
    var all := ConcatAll(frames);
    var finalTable := Table(all.columns, NumericColumn(p, all.rows, "Value"));
    final.WriteParquet(finalTable, FinalPath(PriceDaily));
    r := Ok(FinalPath(PriceDaily));
  }

  /** Once a file fails, the walk's result is that failure. */
  lemma {:induction false} FramesStop(p: Parsers, raw: Disk, listing: seq<Path>, k: nat)
    requires k <= |listing| && Frames(p, raw, listing[..k]).Fail?
    ensures Frames(p, raw, listing) == Frames(p, raw, listing[..k])
    decreases |listing|
  {
    if k < |listing| {
      var n := |listing| - 1;
      assert listing[..n][..k] == listing[..k];
      FramesStop(p, raw, listing[..n], k);
    } else {
      assert listing[..k] == listing;
    }
  }
}

=== FILE: wrappers.dfy ===
/** Option and Result, and the exceptions of the pipeline as values. */
module Wrappers {

  datatype Option<+T> = None | Some(value: T)

  /** The Python exceptions the modelled code raises or catches. */
  datatype Error =
    | AttributeError        // a method called on a value of the wrong kind (`5.items()`)
    | TypeError             // an operation applied to an unsupported type
    | ValueError            // a parse or conversion that failed (`pd.to_datetime`)
    | KeyError              // a column or key that is not there
    | RecursionError        // Python's recursion limit
    | NotImplementedError   // `pd.json_normalize` of a scalar
    | FileNotFound          // no file at the path
    | ReadFailure           // a stored file that cannot be read back
    | MissingColumns(missing: set<string>)

  datatype Result<+T> = Ok(value: T) | Fail(error: Error)
}

=== FILE: wrds.dfy ===
/** What the pipeline does with the WRDS tables once they are queried
    (wrds_client.py): S&P 500 membership intervals expanded to one row per
    member per day and joined to the ticker valid on that day, and the
    Fama-French factor table cut to a date window. The connection and the SQL
    are not modelled: the queried tables come in as values. */
module Wrds {
  import opened Wrappers
  import opened Strings
  import opened Frame
  import opened Storage

  // ------------------------------------------------------------ membership table

  /** The columns the membership table must have (compared lower-cased). */
  const Required: set<string> := {"permno", "mbrstartdt", "mbrenddt"}

  /** One membership interval: from `start` to `end`, open-ended when `end`
      is missing; a missing `start` matches no day. */
  datatype Member = Member(permno: int, start: Option<Date>, end: Option<Date>)

  /** One ticker interval of the names table. */
  datatype NameSpan = NameSpan(permno: int, ticker: Option<string>, from: Option<Date>, until: Option<Date>)

  /** `mbrstartdt <= d & (mbrenddt.isna() | mbrenddt >= d)`. */
  predicate Active(m: Member, d: Date)
  {
    m.start.Some? && m.start.value <= d && (m.end.None? || m.end.value >= d)
  }

  /** Some interval of `permno` covers day `d`. */
  predicate IsMemberOn(members: seq<Member>, permno: int, d: Date)
  {
    exists m :: m in members && m.permno == permno && Active(m, d)
  }

  /** One row of the daily expansion. */
  datatype Daily = Daily(permno: int, date: Date)

  /** The members active on day `d`, in table order. */
  function ActiveOn(members: seq<Member>, d: Date): (r: seq<Daily>)
    ensures forall x :: x in r <==> x.date == d && IsMemberOn(members, x.permno, d)
  {
    if members == [] then []
    else
      assert forall m :: m in members <==> m == members[0] || m in members[1..];
      assert forall x :: IsMemberOn(members, x, d) <==>
        (members[0].permno == x && Active(members[0], d)) || IsMemberOn(members[1..], x, d);
      (if Active(members[0], d) then [Daily(members[0].permno, d)] else []) + ActiveOn(members[1..], d)
  }

  /** The expansion over the first `days` days from `start`, day by day. */
  function Expanded(members: seq<Member>, start: Date, days: nat): seq<Daily>
  {
    if days == 0 then [] else Expanded(members, start, days - 1) + ActiveOn(members, start + days - 1)
  }

  /** A member appears on a day exactly when the day is in the range and the
      member's interval covers it; there are no rows outside the range. */
  lemma ExpandedSpec(members: seq<Member>, start: Date, days: nat)
    ensures forall x :: x in Expanded(members, start, days) <==>
      start <= x.date < start + days && IsMemberOn(members, x.permno, x.date)
  {
    forall x
      ensures x in Expanded(members, start, days) <==> start <= x.date < start + days && IsMemberOn(members, x.permno, x.date)
    {
      ExpandedHas(members, start, days, x);
    }
  }

  lemma {:induction false} ExpandedHas(members: seq<Member>, start: Date, days: nat, x: Daily)
    ensures x in Expanded(members, start, days) <==> start <= x.date < start + days && IsMemberOn(members, x.permno, x.date)
  {
    if days > 0 {
      ExpandedHas(members, start, days - 1, x);
    }
  }

  predicate ByDate(e: seq<Daily>)
  {
    forall i, j :: 0 <= i < j < |e| ==> e[i].date <= e[j].date
  }

  /** The days are visited in order, so the expansion is sorted by date. */
  lemma {:induction false} ExpandedSorted(members: seq<Member>, start: Date, days: nat)
    ensures ByDate(Expanded(members, start, days))
  {
    if days > 0 {
      ExpandedSorted(members, start, days - 1);
      assert forall x :: x in Expanded(members, start, days - 1) ==> x.date < start + days - 1 by {
        ExpandedSpec(members, start, days - 1);
      }
      ByDateAppend(Expanded(members, start, days - 1), ActiveOn(members, start + days - 1), start + days - 1);
    }
  }

  /** A day's rows after the rows of earlier days keep the order. */
  lemma ByDateAppend(front: seq<Daily>, last: seq<Daily>, d: Date)
    requires ByDate(front)
    requires forall x :: x in front ==> x.date < d
    requires forall x :: x in last ==> x.date == d
    ensures ByDate(front + last)
  {
    var e := front + last;
    forall i, j | 0 <= i < j < |e|
      ensures e[i].date <= e[j].date
    {
      if j >= |front| {
        assert e[j] == last[j - |front|] && e[j] in last;
        if i < |front| {
          assert e[i] == front[i] && e[i] in front;
        } else {
          assert e[i] == last[i - |front|] && e[i] in last;
        }
      } else {
        assert e[i] == front[i] && e[j] == front[j];
      }
    }
  }

  /** The loop over `pd.date_range(start, end)` and the `concat` of the
      per-day frames; with no day at all `concat` has nothing to join and
      raises. */
  method ExpandDaily(members: seq<Member>, start: Date, end: Date) returns (r: Result<seq<Daily>>)
    ensures start > end ==> r == Fail(ValueError)
    ensures start <= end ==> r == Ok(Expanded(members, start, end - start + 1))
  {
    var daily: seq<Daily> := [];
    var days := 0;
    var dt := start;
    while dt <= end
      invariant start <= dt && (start <= end ==> dt <= end + 1) && (start > end ==> dt == start)
      invariant days == dt - start
      invariant daily == Expanded(members, start, days)
      decreases end - dt
    {
      var active := ActiveMembers(members, dt);
      assert start + (days + 1) - 1 == dt;
      daily := daily + active;
      days := days + 1;
      dt := dt + 1;
    }
    if days == 0 {
      return Fail(ValueError);
    }
    return Ok(daily);
  }

  /** `const_raw.loc[mask, ["permno"]]` with the day added. */
  method ActiveMembers(members: seq<Member>, dt: Date) returns (active: seq<Daily>)
    ensures active == ActiveOn(members, dt)
  {
    active := [];
    var i := 0;
    while i < |members|
      invariant 0 <= i <= |members|
      invariant active + ActiveOn(members[i..], dt) == ActiveOn(members, dt)
    {
      assert members[i..][1..] == members[i + 1..];
      if Active(members[i], dt) {
        active := active + [Daily(members[i].permno, dt)];
      }
      i := i + 1;
    }
  }

  // ------------------------------------------------------------ ticker join

  /** `ticker.astype(str).str.strip()`: a missing ticker becomes `"None"`. */
  function TickerText(t: Option<string>): string
  {
    match t case None => "None" case Some(s) => Strip(s)
  }

  /** The names rows of one permno, in table order. */
  function NamesOf(names: seq<NameSpan>, permno: int): (r: seq<NameSpan>)
    ensures forall n :: n in r <==> n in names && n.permno == permno
  {
    if names == [] then []
    else
      assert forall n :: n in names <==> n == names[0] || n in names[1..];
      (if names[0].permno == permno then [names[0]] else []) + NamesOf(names[1..], permno)
  }

  /** One row of the left merge: the name columns are missing when the
      permno has no names row. */
  datatype Merged = Merged(date: Date, permno: int, ticker: Option<string>, from: Option<Date>, until: Option<Date>)

  function Matched(e: Daily, n: NameSpan): Merged
  {
    Merged(e.date, e.permno, Some(TickerText(n.ticker)), n.from, n.until)
  }

  /** `expanded.merge(names, on="permno", how="left")` for one row. */
  function MergeOne(e: Daily, names: seq<NameSpan>): (r: seq<Merged>)
    ensures NamesOf(names, e.permno) == [] ==> r == [Merged(e.date, e.permno, None, None, None)]
    ensures NamesOf(names, e.permno) != [] ==> forall m :: m in r <==> exists n :: n in NamesOf(names, e.permno) && m == Matched(e, n)
  {
    var ms := NamesOf(names, e.permno);
    if ms == [] then [Merged(e.date, e.permno, None, None, None)]
    else
      var r := seq(|ms|, i requires 0 <= i < |ms| => Matched(e, ms[i]));
      assert forall n :: n in ms ==> Matched(e, n) in r by {
        forall n | n in ms
          ensures Matched(e, n) in r
        {
          var i :| 0 <= i < |ms| && ms[i] == n;
          assert r[i] == Matched(e, n);
        }
      }
      r
  }

  function Merge(expanded: seq<Daily>, names: seq<NameSpan>): seq<Merged>
  {
    if expanded == [] then [] else MergeOne(expanded[0], names) + Merge(expanded[1..], names)
  }

  /** The name filter: no name interval, or one covering the row's date. */
  predicate NameCovers(m: Merged)
  {
    m.from.None? || (m.from.value <= m.date && (m.until.None? || m.until.value >= m.date))
  }

  /** One output row: `date, ticker, permno`. */
  datatype Constituent = Constituent(date: Date, ticker: string, permno: int)

  /** The filter, then `ticker.fillna(permno.astype(str))` and the three
      output columns. */
  function Constituents(merged: seq<Merged>): (r: seq<Constituent>)
    ensures forall o :: o in r <==> exists m :: m in merged && NameCovers(m) && o == Output(m)
  {
    if merged == [] then []
    else
      assert forall m :: m in merged <==> m == merged[0] || m in merged[1..];
      (if NameCovers(merged[0]) then [Output(merged[0])] else []) + Constituents(merged[1..])
  }

  function Output(m: Merged): Constituent
  {
    Constituent(m.date, if m.ticker.Some? then m.ticker.value else IntToString(m.permno), m.permno)
  }

  /** The rows one daily row yields: its permno's string when it has no
      names row at all, otherwise one per names row whose interval (open at
      a missing end, unconstrained at a missing start) covers the day. */
  predicate Yields(e: Daily, names: seq<NameSpan>, o: Constituent)
  {
    if NamesOf(names, e.permno) == [] then o == Constituent(e.date, IntToString(e.permno), e.permno)
    else exists n :: n in names && Joins(e, n, o)
  }

  predicate Joins(e: Daily, n: NameSpan, o: Constituent)
  {
    n.permno == e.permno &&
    (n.from.None? || (n.from.value <= e.date && (n.until.None? || n.until.value >= e.date))) &&
    o == Constituent(e.date, TickerText(n.ticker), e.permno)
  }

  /** Some daily row yields `o`. */
  predicate YieldedBy(expanded: seq<Daily>, names: seq<NameSpan>, o: Constituent)
  {
    exists e :: e in expanded && Yields(e, names, o)
  }

  /** Exactly the rows the daily rows yield come out. */
  lemma {:induction false} JoinHas(expanded: seq<Daily>, names: seq<NameSpan>, o: Constituent)
    ensures o in Constituents(Merge(expanded, names)) <==> YieldedBy(expanded, names, o)
  {
    if expanded != [] {
      var e := expanded[0];
      JoinHas(expanded[1..], names, o);
      var head := MergeOne(e, names);
      var tail := Merge(expanded[1..], names);
      ConstituentsAppend(head, tail);
      JoinOne(e, names);
      assert YieldedBy(expanded, names, o) <==> Yields(e, names, o) || YieldedBy(expanded[1..], names, o) by {
        assert forall x :: x in expanded <==> x == e || x in expanded[1..];
      }
    }
  }

  lemma JoinOne(e: Daily, names: seq<NameSpan>)
    ensures forall o :: o in Constituents(MergeOne(e, names)) <==> Yields(e, names, o)
  {
    var ms := NamesOf(names, e.permno);
    if ms != [] {
      forall o | Yields(e, names, o)
        ensures o in Constituents(MergeOne(e, names))
      {
        var n :| n in names && Joins(e, n, o);
        assert n in ms;
        assert Matched(e, n) in MergeOne(e, names);
        assert Output(Matched(e, n)) == o;
      }
    }
  }

  lemma {:induction false} ConstituentsAppend(a: seq<Merged>, b: seq<Merged>)
    ensures Constituents(a + b) == Constituents(a) + Constituents(b)
  {
    if a != [] {
      assert (a + b)[1..] == a[1..] + b;
      ConstituentsAppend(a[1..], b);
    } else {
      assert a + b == b;
    }
  }

  /** `set(columns.str.lower())`. */
  function LowerSet(columns: seq<string>): set<string>
  {
    set c | c in columns :: Lower(c)
  }

  /** The post-query part of `fetch_sp500_constituents`: the column check on
      the probed membership table, the daily expansion, the ticker join. */
  method FetchSp500Constituents(probeColumns: seq<string>, members: seq<Member>, names: seq<NameSpan>, start: Date, end: Date)
    returns (r: Result<seq<Constituent>>)
    ensures !(Required <= LowerSet(probeColumns)) ==> r == Fail(MissingColumns(Required - LowerSet(probeColumns)))
    ensures Required <= LowerSet(probeColumns) && start > end ==> r == Fail(ValueError)
    ensures Required <= LowerSet(probeColumns) && start <= end ==>
      r == Ok(Constituents(Merge(Expanded(members, start, end - start + 1), names)))
  {
    var cols := LowerSet(probeColumns);
    if !(Required <= cols) {
      return Fail(MissingColumns(Required - cols));
    }
    var expanded := ExpandDaily(members, start, end);
    if expanded.Fail? {
      return Fail(expanded.error);
    }
    var merged := Merge(expanded.value, names);
    return Ok(Constituents(merged));
  }

  /** The constituents of a successful call are exactly the (day, ticker,
      permno) rows yielded by members active on a day in the range. */
  lemma ConstituentsSpec(members: seq<Member>, names: seq<NameSpan>, start: Date, end: Date)
    requires start <= end
    ensures forall o :: o in Constituents(Merge(Expanded(members, start, end - start + 1), names)) <==>
      Reported(members, names, start, end, o)
  {
    forall o | true
      ensures o in Constituents(Merge(Expanded(members, start, end - start + 1), names)) <==>
        Reported(members, names, start, end, o)
    {
      ConstituentIff(members, names, start, end, o);
    }
  }

  lemma ConstituentIff(members: seq<Member>, names: seq<NameSpan>, start: Date, end: Date, o: Constituent)
    requires start <= end
    ensures o in Constituents(Merge(Expanded(members, start, end - start + 1), names)) <==>
      Reported(members, names, start, end, o)
  {
    var expanded := Expanded(members, start, end - start + 1);
    JoinHas(expanded, names, o);
    ExpandedCovers(members, start, end);
    ReportedIff(members, names, start, end, o, expanded);
  }

  lemma ExpandedCovers(members: seq<Member>, start: Date, end: Date)
    requires start <= end
    ensures CoversRange(Expanded(members, start, end - start + 1), members, start, end)
  {
    ExpandedSpec(members, start, end - start + 1);
  }

  /** `expanded` holds exactly the member days of the range. */
  ghost predicate CoversRange(expanded: seq<Daily>, members: seq<Member>, start: Date, end: Date)
  {
    forall x :: x in expanded <==> start <= x.date <= end && IsMemberOn(members, x.permno, x.date)
  }

  /** A row some daily row of the range yields is reported, and back. */
  lemma ReportedIff(members: seq<Member>, names: seq<NameSpan>, start: Date, end: Date, o: Constituent, expanded: seq<Daily>)
    requires CoversRange(expanded, members, start, end)
    ensures YieldedBy(expanded, names, o) <==> Reported(members, names, start, end, o)
  {
    if YieldedBy(expanded, names, o) {
      var e :| e in expanded && Yields(e, names, o);
      YieldedIsReported(members, names, start, end, o, e, expanded);
    }
    if Reported(members, names, start, end, o) {
      YieldedWitness(expanded, names, o, Daily(o.permno, o.date));
    }
  }

  lemma YieldedWitness(expanded: seq<Daily>, names: seq<NameSpan>, o: Constituent, e: Daily)
    requires e in expanded && Yields(e, names, o)
    ensures YieldedBy(expanded, names, o)
  {
  }

  lemma YieldedIsReported(members: seq<Member>, names: seq<NameSpan>, start: Date, end: Date, o: Constituent, e: Daily,
                          expanded: seq<Daily>)
    requires CoversRange(expanded, members, start, end)
    requires e in expanded && Yields(e, names, o)
    ensures Reported(members, names, start, end, o)
  {
    YieldsSame(e, names, o);
  }

  /** A row the call reports: its day is in the range, its permno a member
      that day, and it is what the join yields for that member and day. */
  predicate Reported(members: seq<Member>, names: seq<NameSpan>, start: Date, end: Date, o: Constituent)
  {
    start <= o.date <= end && IsMemberOn(members, o.permno, o.date) && Yields(Daily(o.permno, o.date), names, o)
  }

  /** A yielded row carries its daily row's day and permno. */
  lemma YieldsSame(e: Daily, names: seq<NameSpan>, o: Constituent)
    requires Yields(e, names, o)
    ensures e == Daily(o.permno, o.date)
  {
    if NamesOf(names, e.permno) != [] {
      var n :| n in names && Joins(e, n, o);
    }
  }

  // ------------------------------------------------------------ Fama-French factors

  /** A row with every column renamed to its lower-case name. */
  function LowerRow(row: Row, columns: seq<string>): (r: Row)
    ensures forall c :: c in r <==> exists k :: 0 <= k < |columns| && Lower(columns[k]) == c && columns[k] in row
  {
    if columns == [] then map[]
    else
      var n := |columns| - 1;
      var front := LowerRow(row, columns[..n]);
      assert forall k :: 0 <= k < n ==> columns[..n][k] == columns[k];
      if columns[n] in row then front[Lower(columns[n]) := row[columns[n]]] else front
  }

  function LowerColumns(columns: seq<string>): (r: seq<string>)
    ensures |r| == |columns| && forall k :: 0 <= k < |columns| ==> r[k] == Lower(columns[k])
  {
    seq(|columns|, k requires 0 <= k < |columns| => Lower(columns[k]))
  }

  /** The post-query part of `fetch_ff_factors`: column names lower-cased;
      when there is a `date` column its values are converted (raising if
      one does not parse) and only rows dated within `[start, end]` stay. */
  function FfFactors(p: Parsers, t: Table, start: Date, end: Date): (r: Result<Table>)
    ensures r.Ok? ==> r.value.columns == LowerColumns(t.columns)
    ensures r.Fail? ==> "date" in LowerColumns(t.columns) && r.error == ValueError
  {
    var cols := LowerColumns(t.columns);
    var rows := seq(|t.rows|, i requires 0 <= i < |t.rows| => LowerRow(t.rows[i], t.columns));
    var lowered := Table(cols, rows);
    if "date" !in cols then Ok(lowered)
    else match CoerceDates(p, rows, "date")
      case None => Fail(ValueError)
      case Some(dated) => Ok(Where(Table(cols, dated), row => InWindow(At(row, "date"), start, end)))
  }

  /** Without a `date` column every row stays; with one, exactly the rows
      whose converted date lies in the inclusive window stay, in order. */
  lemma FfFactorsSpec(p: Parsers, t: Table, start: Date, end: Date)
    requires FfFactors(p, t, start, end).Ok?
    ensures var r := FfFactors(p, t, start, end).value;
      var rows := seq(|t.rows|, i requires 0 <= i < |t.rows| => LowerRow(t.rows[i], t.columns));
      ("date" !in LowerColumns(t.columns) ==> r.rows == rows) &&
      ("date" in LowerColumns(t.columns) ==>
        var dated := CoerceDates(p, rows, "date").value;
        IsSubsequence(r.rows, dated) && forall row :: row in r.rows <==> row in dated && InWindow(At(row, "date"), start, end))
  {
  }
}
